=== FILE: README.md ===
# gamekit, modelled in Dafny

gamekit is a small C++ game kit on top of Vulkan, with a Python asset
compiler (`gamekitc`). Most of its functions end in a Vulkan call. Around
those calls sits decision logic and bookkeeping, and this project models that
part and proves what it promises:

- **Device and renderer** (`Device`, `DeviceSetup`, `Frame`):
  - physical-device selection;
  - queue-family choice;
  - swapchain parameters and the extent clamp;
  - the depth-format search;
  - the visible / not-visible / minimized state machine of `begin` and `reinitRenderer`;
  - the ring of two frames;
  - the handling of acquire and present results.
- **Handle ownership** (`Reference`). `Reference<T>` tells owned handles from
  borrowed (attached) ones. It records every handle it destroys, so free,
  attach, raw assignment and move state exactly what gets destroyed.
- **GPU resource bookkeeping** (`Types`, `Buffers`):
  - fences;
  - the memory-type search;
  - descriptor pools;
  - the shader-type mapping;
  - image usage and the layout-transition table;
  - image views;
  - buffer objects and their moves;
  - the staged vertex/index upload;
  - per-frame uniform and storage buffers.
- **Materials** (`Material`):
  - the compile-once `modified_` flag;
  - the shader, buffer, texture and push-constant lists;
  - the derived layout bindings, blend factors, pipeline state, pool size and per-frame descriptor sets.
- **Quads and batches** (`Sprites`, `SpriteBatches`):
  - the single quad builder;
  - the bounded slot buffer behind `VertexQueue`, `QuadBatch` and `SpriteBatch`: counters, the index pattern, per-slot vertex writes and the dirty flag.
- **Smaller pieces:**
  - the resource registry and its caches (`Registry`);
  - the vertex attribute table (`VertexLayout`);
  - `Format::str` and `Random::getInt` (`Utilities`);
  - the main loop's frame pacing (`MainLoop`);
  - the asset compiler's text output and path rules (`AssetCompiler`, `AssetListing`, `AssetPaths`).

The answers of the Vulkan calls the model covers are parameters: a
`VkResult`, a queried list, or a handle. Some creation calls are taken to
succeed; "## Left out" names each member where that is so. Handles are natural numbers and 0 is the null handle. GPU memory is a
byte sequence. Objects whose fields the source updates in place are classes
with `modifies` frames. Pure decisions are functions, and the first-match
searches are methods with loops proved against predicates. Calls to Vulkan
that only have an effect are recorded as traces (`frameOps`, `materialCalls`,
`released`, `destroyed`, `commands`), so contracts can state which calls
happen and in what order.

Some behaviour of the code is modelled as written, not as its comments or
names suggest:

- `Quad::flags()` returns the texture mask.
- A material's `modified_` flag is set only by `create`, so `update` rebuilds
  exactly once. `setBlendMode` after the first compile has no effect on the
  pipeline (`Material.SetAfterCompile`).
- `createGraphicsPipeline` always enables blending, whatever `enableBlending_` says.
- After an out-of-date acquire, `beginDraw` reinitialises the renderer and then
  records with an image index the failed acquire never set (an uninitialised
  local). This is the `staleIndex` parameter.
- A visible device whose window is minimized and whose acquire reports
  out-of-date tears the swapchain down, yet `begin` still returns true and
  records the frame (`Device.Device.Begin`).
- The descriptor pool holds only uniform-buffer descriptors, though its count
  includes the textures, whose bindings are combined image samplers
  (`Material.PoolTypeMatchesUniformsOnly`).
- Staged copies always copy the whole staging buffer to the device buffer,
  whatever length was written.
- The quad index block is (2,1,0,0,3,2), shifted by 4 per slot and cut to 16
  bits. Slot 16384 therefore repeats slot 0's indices.
- An explicit slot index equal to `npos` (the largest `size_t`) is taken as
  a push, so `store(npos, rect)` appends (`SpriteBatches.IsPush`).
- `reserve` adds in `size_t`, so a huge request wraps round and can pass the
  capacity test with a smaller reservation (`SpriteBatches.VertexQueue.Reserve`).
- `ApplicationBase::run` runs one more update cycle after the event loop
  reports quit.
- `gamekitc` maps ".shader" to resource type Unknown, although `is_shader`
  treats it as a shader.

## Model

| member | source | states |
|---|---|---|
| Reference.DestroyedByFree | gamekit/include/gamekit/reference.h:54-66 | `free` destroys at most the one handle it holds. It destroys it exactly when the handle is owned, and either not null or not a pointer handle |
| Reference.Reference.Empty | gamekit/include/gamekit/reference.h:18 | a default reference holds the null handle, owned, with nothing destroyed |
| Reference.Reference.Wrap | gamekit/include/gamekit/reference.h:20 | wrapping a raw handle stores it as owned |
| Reference.Reference.MoveFrom | gamekit/include/gamekit/reference.h:32-35 | the move constructor takes over the handle and the attached flag, and leaves the source null and unattached |
| Reference.Reference.IsNull | gamekit/include/gamekit/reference.h:73-80 | for pointer handles: null exactly when the handle is null. Otherwise never null |
| Reference.Reference.NotNull | gamekit/include/gamekit/reference.h:82-89 | exactly the complement of `isNull` |
| Reference.Reference.Free | gamekit/include/gamekit/reference.h:54-66 | afterwards the handle is null and owned. The old handle is destroyed exactly when it was owned and not null |
| Reference.Reference.Attach | gamekit/include/gamekit/reference.h:68-71 | stores the handle as borrowed and destroys nothing |
| Reference.Reference.Assign | gamekit/include/gamekit/reference.h:22-26 | frees the current handle first, then stores the new one as owned |
| Reference.Reference.MoveAssign | gamekit/include/gamekit/reference.h:37-47 | self-move changes nothing. Otherwise it frees the target's handle, takes over the source's handle and flag, and leaves the source null and unattached |
| Reference.Reference.Dispose | gamekit/include/gamekit/reference.h:49-51 | the destructor has exactly the effect of `free` |
| Reference.Freed | gamekit/include/gamekit/reference.h:54-59 | freeing an owned pointer handle destroys nothing when it is null, and otherwise exactly that handle, once |
| Reference.FreeThenDispose | gamekit/include/gamekit/reference.h:49-66 | free then destruct destroys an owned non-null handle exactly once, and a borrowed one never |
| Frame.Frame.constructor | gamekit/include/gamekit/frame.h:15-26 | a new frame has index 0, null handles and an unsignalled, unused fence |
| Frame.Frame.Create | gamekit/src/frame.cpp:12-18 | sets the index, one command buffer, two semaphores and a fresh fence that is already signalled |
| Frame.Frame.Destroy | gamekit/src/frame.cpp:20-26 | resets the index to 0, nulls all four handles, and releases the ones that were set |
| Frame.FrameLifecycle | gamekit/src/frame.cpp:12-26 | create releases nothing. The first destroy releases command buffer, both semaphores and fence, in that order. A second destroy releases nothing |
| Types.WaitTimeout | gamekit/src/types.cpp:71-75 | a non-negative timeout passes unchanged. A negative one becomes UINT64_MAX |
| Types.Fence.Empty | gamekit/src/types.cpp:66-69 | a default fence is null and unsignalled |
| Types.Fence.Make | gamekit/src/types.cpp:49-64 | a fence is made with the given handle and initial signalled state |
| Types.Fence.Wait | gamekit/src/types.cpp:71-75 | records one wait with the converted timeout. Success if the fence was signalled, else the GPU's answer; afterwards signalled exactly on success |
| Types.Fence.Reset | gamekit/src/types.cpp:83-86 | records one reset and returns the driver's result. A successful reset unsignals the fence |
| Types.Fence.Destroy | gamekit/src/types.cpp:66-69 | the handle becomes null |
| Types.Fence.WaitAndReset | gamekit/src/types.cpp:77-81 | a failed wait is returned without resetting. After a successful wait the fence is reset and the reset's result returned |
| Types.PropertyFlags | gamekit/src/types.cpp:219-222 | each of DeviceLocal, HostCoherent and HostVisible maps to exactly its Vulkan property bit, and no other bit is set |
| Types.FindMemoryType | gamekit/src/types.cpp:233-239 | the lowest type index allowed by the filter whose properties include every requested bit, or none exactly when no index fits |
| Types.MakeDeviceMemory | gamekit/src/types.cpp:217-264 | fails with "no suitable memory type" exactly when no index fits. It succeeds exactly when one fits and allocation succeeds, recording size, filter, flags and the chosen index |
| Types.MakeDescriptorPool | gamekit/src/types.cpp:287-312 | maxSets and descriptorCount are both n (as uint32), the recorded size is n, and the one pool size is of type UNIFORM_BUFFER whatever the caller needs |
| Types.ShaderTypeOf | gamekit/src/types.cpp:142-154 | only the vertex and fragment resource types map to a shader type, and the mapping is inverted by the reverse map |
| Types.ShaderTypeRoundTrip | gamekit/src/types.cpp:142-154 | every shader type maps to a resource type and back to itself |
| Types.MakeShader | gamekit/src/types.cpp:142-154 | fails with "unsupported resource type" for any other resource type. Otherwise succeeds exactly when the driver does, with the descriptor's code and matching type |
| Types.ImageUsage | gamekit/src/types.cpp:458-463 | depth-stencil attachment exactly for depth buffers; transfer-dst and sampled exactly for the others |
| Types.TransitionBarrier | gamekit/src/types.cpp:500-549 | accepts exactly UNDEFINED→TRANSFER_DST and TRANSFER_DST→SHADER_READ_ONLY, each with its fixed access masks and stages. Any other pair is an error |
| Types.Image.Attach | gamekit/src/types.cpp:407-420 | wraps a borrowed handle with size, width, height and channels 0, keeping type and format |
| Types.ImageByteSize | gamekit/src/types.cpp:453 | the recorded size is below 2^64, agrees with w·h·4 modulo 2^32, and equals w·h·4 whenever that fits a 32-bit int |
| Types.ImageByteSizeWraps | gamekit/src/types.cpp:453 | a 32768×32768 image overflows the 32-bit product and is recorded as 0 bytes |
| Types.Image.Make | gamekit/src/types.cpp:388-405 | a new image has 4 channels, the size `ImageByteSize(w, h)`, the usage of its type and an owned handle |
| Types.Image.CreateImage | gamekit/src/types.cpp:446-498 | sets type, format, 4 channels, the size `ImageByteSize(w, h)` and the type's usage on the existing handle |
| Types.Image.TransitionImageLayout | gamekit/src/types.cpp:500-549 | records one barrier and moves to the new layout exactly when the transition is accepted. Otherwise nothing changes |
| Types.Image.UploadPixels | gamekit/src/types.cpp:422-444 | a pixel image holds the first `ImageByteSize(w, h)` bytes of the pixels. The commands are UNDEFINED→TRANSFER_DST, the buffer copy of w×h (cast to uint32), then TRANSFER_DST→SHADER_READ_ONLY |
| Types.ViewAspect | gamekit/src/types.cpp:585-589 | DEPTH aspect exactly for depth buffers, else COLOR |
| Types.MakeImageView | gamekit/src/types.cpp:578-619 | the view records the image's handle, type and format, with the depth aspect exactly for depth buffers |
| Buffers.DestroyedHandles | gamekit/src/buffer.cpp:187-197 | destroying releases nothing for a null buffer. Otherwise it releases memory, then the buffer handle, never a null handle |
| Buffers.Overwrite | gamekit/src/buffer.cpp:246-250 | a copy of len bytes replaces exactly the first len bytes and keeps the rest and the length |
| Buffers.BufferObject.constructor | gamekit/src/buffer.cpp:127 | an empty object: unknown type, size 0, null handle, no memory |
| Buffers.BufferObject.Destroy | gamekit/src/buffer.cpp:187-197 | a no-op on a null handle. Otherwise it frees memory, nulls the handle and sets size 0 |
| Buffers.BufferObject.Create | gamekit/src/buffer.cpp:154-185 | destroys any previous buffer first. A failed create leaves a null handle with the driver's error. Memory is allocated only when a memory usage is given, with the size and type bits of the buffer's memory requirements, and its bytes become the data |
| Buffers.BufferObject.MoveFrom | gamekit/src/buffer.cpp:129-134 | moves type, size, handle and memory, resetting the source to unknown, 0, null and no memory |
| Buffers.BufferObject.MoveAssign | gamekit/src/buffer.cpp:136-149 | self-move changes nothing. Otherwise the target is destroyed first, then takes over the source's fields, and the source is reset |
| Buffers.BufferObject.Bind | gamekit/src/buffer.cpp:199-228 | a vertex bind at offset 0 for vertex buffers and a UINT16 index bind for index buffers. Nothing for other types or a null handle |
| Buffers.BufferObject.CopyFromHost | gamekit/src/buffer.cpp:246-250 | the mapped memory's first len bytes become the source's |
| Buffers.BufferObject.CopyFromBuffer | gamekit/src/buffer.cpp:256-308 | nothing for a null source. Otherwise the whole source buffer is copied, ignoring len |
| Buffers.MakeBufferObject | gamekit/src/buffer.cpp:121-125 | a new object with the requested type and size. It succeeds exactly when creation and any requested allocation succeed |
| Buffers.Buffer.constructor | gamekit/src/buffer.cpp:50-54 | binding, type and size as given, no objects, no layout |
| Buffers.Buffer.AddObject | gamekit/src/buffer.cpp:121-125 | appends one buffer object of the requested kind on success, and nothing on failure |
| Buffers.Buffer.Destroy | gamekit/src/buffer.cpp:60-77 | does nothing without a device. Otherwise it destroys every object, each releasing its memory and then its buffer handle, empties the list, drops the layout and sets size 0 |
| Buffers.Buffer.MoveFrom | gamekit/src/buffer.cpp:20-27 | moves every field and resets the source to binding 0, unknown type, flags 0, size 0, no objects and no layout |
| Buffers.Buffer.MoveAssign | gamekit/src/buffer.cpp:29-44 | self-move changes no field and no object's handle or bytes. Otherwise the target's objects are destroyed first, then it takes over the source's fields and the source is reset |
| Buffers.Buffer.CopyStaged | gamekit/src/buffer.cpp:341-345 | staging gets the first len bytes, then the device object gets the whole staging buffer |
| Buffers.Buffer.CopyFrame | gamekit/src/buffer.cpp:400-404 | writes only the current frame's object. Every other frame's object is unchanged |
| Buffers.Buffer.Bind | gamekit/src/buffer.cpp:347-444 | vertex and index buffers bind object 0. Uniform and storage buffers hand the current frame's object to `BufferObject::bind`, which records nothing for an object of those types |
| Buffers.MakeStagedBuffer | gamekit/src/buffer.cpp:314-335 | succeeds exactly when both objects are created and find and allocate fitting memory; then holds exactly two objects of the buffer's size: [0] device-local, [1] host-visible and coherent staging |
| Buffers.AllocFrameBuffer | gamekit/src/buffer.cpp:412-422 | succeeds exactly when the object is created and its host-visible memory is found and allocated; appends one host-visible, coherent object of the buffer's size on success, and nothing on failure |
| Buffers.DestroyTwice | gamekit/src/buffer.cpp:187-197 | destroy is idempotent: the second call releases nothing |
| Material.BlendFactors | gamekit/src/material.cpp:180-212 | Normal→(SRC_ALPHA, ONE_MINUS_SRC_ALPHA), Additive→(SRC_ALPHA, ONE), Multiply→(DST_COLOR, ZERO), each stated as an if-and-only-if |
| Material.BlendModeOf | gamekit/src/material.cpp:180-212 | the inverse of the factor table: a mode exactly when some mode has those factors |
| Material.BlendFactorsRoundTrip | gamekit/src/material.cpp:180-212 | every blend mode is recovered from its factors |
| Material.StageFor | gamekit/src/material.cpp:48-63 | FRAGMENT stage exactly for fragment shaders and VERTEX otherwise, with the shader's module and entry point "main" |
| Material.UniformCount | gamekit/src/material.cpp:65-75 | the number of uniform buffers is at most the number of buffers |
| Material.UniformIds | gamekit/src/material.cpp:359-426 | one id per uniform buffer |
| Material.UniformBindings | gamekit/src/material.cpp:245-272 | one layout binding per uniform buffer |
| Material.TextureBindings | gamekit/src/material.cpp:245-272 | one layout binding per texture |
| Material.UniformBindingsExactly | gamekit/src/material.cpp:245-272 | a binding number appears exactly when some uniform buffer has it, and every such binding is of type UNIFORM_BUFFER |
| Material.UniformIdsExactly | gamekit/src/material.cpp:359-426 | an id is written exactly when some uniform buffer has it |
| Material.WritesMatchLayout | gamekit/src/material.cpp:245-272 | a descriptor set's writes match the layout one to one: same binding, same type, same order |
| Material.UniformWritesMatch | gamekit/src/material.cpp:359-426 | the uniform-buffer writes line up with the uniform bindings |
| Material.PoolSize | gamekit/src/material.cpp:347 | no descriptors exactly when there are no frames or no uniform buffers and textures; otherwise at least one per uniform buffer and texture |
| Material.PoolCoversSets | gamekit/src/material.cpp:341-357 | the pool's descriptor count frames·(uniforms+textures) is exactly frames times the layout's binding count |
| Material.PoolTypeMatchesUniformsOnly | gamekit/src/types.cpp:292-294 | of the layout's bindings exactly the uniform ones have the pool's descriptor type; every texture binding is a combined image sampler the pool does not hold |
| Material.PipelineIgnoresEnableBlending | gamekit/src/material.cpp:180-212 | the pipeline is the same whatever `enableBlending_` is, and blending is always on |
| Material.PipelineReflectsSettings | gamekit/src/material.cpp:120-332 | cull mode is BACK exactly when backface culling is on, front face is CLOCKWISE exactly when requested, depth test and write as set, and the blend factors come from the blend mode |
| Material.FrameSets | gamekit/src/material.cpp:341-357 | exactly one descriptor set per frame |
| Material.UniformCountPrefix | gamekit/src/material.cpp:65-75 | a prefix of the buffer list has no more uniform buffers than the whole |
| Material.Material.constructor | gamekit/include/gamekit/material.h:66-74 | default settings, empty lists, zero counters, null pipeline objects |
| Material.Material.Create | gamekit/src/material.cpp:29-31 | `create` sets the modified flag |
| Material.Material.SetEnableBlending | gamekit/include/gamekit/material.h:53-58 | changes only that setting and leaves `modified_` alone |
| Material.Material.SetBlendMode | gamekit/include/gamekit/material.h:53-58 | changes only that setting and leaves `modified_` alone |
| Material.Material.SetBackfaceCulling | gamekit/include/gamekit/material.h:53-58 | changes only that setting and leaves `modified_` alone |
| Material.Material.SetFrontFaceClockwise | gamekit/include/gamekit/material.h:53-58 | changes only that setting and leaves `modified_` alone |
| Material.Material.SetDepthTesting | gamekit/include/gamekit/material.h:53-58 | changes only that setting and leaves `modified_` alone |
| Material.Material.SetDepthWriting | gamekit/include/gamekit/material.h:53-58 | changes only that setting and leaves `modified_` alone |
| Material.Material.AddShader | gamekit/src/material.cpp:48-63 | appends the shader and its stage, in call order |
| Material.Material.AddBuffer | gamekit/src/material.cpp:65-75 | appends the buffer and counts it as vertex or uniform buffer by type. Other types are appended uncounted |
| Material.Material.AddTexture | gamekit/src/material.cpp:77-80 | appends the texture with its binding |
| Material.Material.GetTexture | gamekit/src/material.cpp:82-87 | the first added texture with that binding, or none exactly when no texture has it |
| Material.Material.AddPushConstants | gamekit/src/material.cpp:89-101 | appends one range at offset 0 for all graphics stages, its size cut to uint32 |
| Material.Material.FreeDescriptorSets | gamekit/src/material.cpp:428-431 | releases the pool when set, nulls it and drops the sets |
| Material.Material.FreeGraphicsPipeline | gamekit/src/material.cpp:334-339 | a no-op without a pipeline. Otherwise it releases pipeline, layout and set layout and nulls them |
| Material.Material.Destroy | gamekit/src/material.cpp:33-46 | frees pool, sets and pipeline objects, empties buffers, textures, shaders, stages and push ranges, and zeroes both counters |
| Material.Material.CollectBindings | gamekit/src/material.cpp:245-272 | the bindings are the uniform buffers' in attach order, then the textures' |
| Material.Material.CreateGraphicsPipeline | gamekit/src/material.cpp:120-332 | a set layout is made only when there are bindings. On success the pipeline reflects the settings and stages; on failure the old pipeline stays |
| Material.Material.CreateDescriptorSet | gamekit/src/material.cpp:359-426 | one set with the layout's writes. It fails with the driver's allocation error, or with a frame-buffer error when there are uniform buffers |
| Material.Material.CreateDescriptorSets | gamekit/src/material.cpp:341-357 | makes a pool of size frames·(uniforms+textures), then exactly one set per frame. A pool failure is reported |
| Material.Material.AllocateSets | gamekit/src/material.cpp:351-355 | the loop of `createDescriptorSets`: one set per frame, all failing the same way |
| Material.Material.Rebuild | gamekit/src/material.cpp:437-447 | frees sets, pool and old pipeline objects before creating new ones; succeeds exactly when every driver answer the build needs is success (`BuildSucceeds`) |
| Material.Material.Build | gamekit/src/material.cpp:443-444 | the creating half of `update`: the pipeline, then the descriptor sets; it frees nothing and ignores the modified flag. It succeeds exactly when `BuildSucceeds`: the set layout (when there are bindings), pipeline layout, pipeline and pool are created, and, for at least one frame, the sets are allocated and every uniform buffer gets its per-frame object. On success the pipeline is the one the settings describe, the pool is sized for the frames, uniforms and textures, and every frame has its set with the writes of the bindings |
| Material.Material.Update | gamekit/src/material.cpp:437-447 | without the modified flag nothing changes and it succeeds. With it, a rebuild that succeeds exactly when `BuildSucceeds` and clears the flag exactly on success |
| Material.Material.Bind | gamekit/src/material.cpp:449-469 | updates first, and fails exactly when the material is modified and `BuildSucceeds` does not hold. On success it binds the pipeline and the current frame's set, and after the first compile the pipeline is never rebuilt |
| Material.MakeMaterial | gamekit/src/material.cpp:19-27 | a new material is modified, with default settings and nothing attached |
| Material.SetAfterCompile | gamekit/src/material.cpp:433-447 | a blend mode set after the first compile is stored but the pipeline keeps the old factors |
| DeviceSetup.Contains | gamekit/src/device.cpp:288-305 | found exactly when the element is in the list |
| DeviceSetup.MissingExtensions | gamekit/src/device.cpp:288-305 | exactly the required extensions not offered |
| DeviceSetup.FindQueueFamilies | gamekit/src/device.cpp:354-385 | the lowest graphics-capable family and the lowest present-capable family; -1 exactly when there is none |
| DeviceSetup.SelectPhysicalDevice | gamekit/src/device.cpp:263-397 | no devices is an error. Otherwise the first device that is a discrete or integrated GPU, offers the extensions, the sRGB format, a present mode and both queue families; an error exactly when none does |
| DeviceSetup.UniqueQueueFamilies | gamekit/src/device.cpp:403-417 | one queue per distinct family index: one or two, ascending, covering both |
| DeviceSetup.ChooseDepthFormat | gamekit/src/device.cpp:635-659 | the first of D32_SFLOAT, D32_SFLOAT_S8_UINT, D24_UNORM_S8_UINT supporting depth-stencil attachment, or none exactly when none does |
| DeviceSetup.ToUint32 | gamekit/src/device.cpp:479-487 | the window size as uint32, unchanged when it fits |
| DeviceSetup.Clamp | gamekit/src/device.cpp:485-486 | within the bounds, unchanged when already inside |
| DeviceSetup.ViewportExtent | gamekit/src/device.cpp:473-492 | the current extent unless its width is UINT32_MAX; then each window dimension clamped into the min/max extent |
| DeviceSetup.SwapchainImageCount | gamekit/src/device.cpp:505-508 | minImageCount+1, lowered to maxImageCount only when that is positive |
| DeviceSetup.SwapchainPresentMode | gamekit/src/device.cpp:511 | MAILBOX exactly when the device lists it, else FIFO |
| DeviceSetup.SwapchainSharing | gamekit/src/device.cpp:524-531 | CONCURRENT with both indices exactly when the families differ, else EXCLUSIVE with none |
| DeviceSetup.SwapchainParameters | gamekit/src/device.cpp:494-547 | the swapchain's create info is built from those four decisions and the sRGB format |
| Device.TearDown | gamekit/src/device.cpp:730-744 | a torn-down swapchain has a null handle, no images, no views and no depth buffer, and keeps its create info |
| Device.CompileTrace | gamekit/src/device.cpp:689-703 | one compile per registered material, in order |
| Device.DestroyTrace | gamekit/src/device.cpp:766-779 | one destroy per registered material, in order |
| Device.Device.constructor | gamekit/include/gamekit/device.h:120-174 | no device, not visible, no swapchain, no frames and no materials |
| Device.Device.NewHandle | gamekit/src/device.cpp:494-703 | every handle the device creates is fresh and not null |
| Device.Device.WaitIdle | gamekit/src/device.cpp:787-791 | waits exactly when a logical device exists |
| Device.Device.CreateDevice | gamekit/src/device.cpp:89-103 | no devices or no suitable device is an error that changes nothing. Otherwise the first suitable device is selected, its extent set, one queue per distinct family, and the device becomes visible |
| Device.Device.AddMaterial | gamekit/src/device.cpp:705-708 | registers the material and makes it current |
| Device.Device.CreateSwapChain | gamekit/src/device.cpp:494-547 | the swapchain is built from the swapchain parameters, or the driver's error is reported |
| Device.Device.CreateImageViews | gamekit/src/device.cpp:549-568 | one colour view per swapchain image; no images is an error |
| Device.Device.CreateDepthBuffer | gamekit/src/device.cpp:635-659 | a depth image and depth view in the chosen format; of the failures, only the one where no format qualifies is modelled, and it is an error |
| Device.Device.CreateRenderPass | gamekit/src/device.cpp:570-633 | a render pass exists afterwards |
| Device.Device.CreateFrameBuffers | gamekit/src/device.cpp:668-687 | exactly one framebuffer per image view, each with the swapchain extent, the depth view and the render pass |
| Device.Device.ResizeFrames | gamekit/src/device.cpp:689-703 | `frames_.resize(n)`: keeps the first frames and adds fresh ones |
| Device.Device.CreateEachFrame | gamekit/src/device.cpp:697-700 | frame i is created with index i and a signalled fence |
| Device.Device.CompileMaterials | gamekit/src/device.cpp:701-702 | compiles every registered material in order |
| Device.Device.CreateFrames | gamekit/src/device.cpp:689-703 | current frame 0, exactly two frames with indices 0 and 1, then every material compiled |
| Device.Device.CreateRenderer | gamekit/src/device.cpp:117-125 | swapchain, views, depth buffer, render pass, framebuffers and frames, in that order. Of the failures, only those of the first three steps are modelled (the swapchain result, no images, no depth format), and the renderer is built unless one of them occurs |
| Device.Device.DestroyFrames | gamekit/src/device.cpp:754-764 | with a device, waits and destroys every frame |
| Device.Device.DestroyFrameBuffers | gamekit/src/device.cpp:781-785 | with a device, waits and drops every framebuffer |
| Device.Device.DestroyRenderPass | gamekit/src/device.cpp:750-752 | the render pass is null afterwards |
| Device.Device.DestroyDepthBuffer | gamekit/src/device.cpp:661-666 | drops the depth image and view only |
| Device.Device.DestroyImageViews | gamekit/src/device.cpp:740-744 | with a device, drops images and views only |
| Device.Device.DestroySwapChain | gamekit/src/device.cpp:730-738 | with a device, nulls the swapchain handle only |
| Device.Device.FreeGraphicsPipelineObjects | gamekit/src/device.cpp:766-779 | with a device, waits, destroys every material in order and clears the list |
| Device.Device.DestroyRenderer | gamekit/src/device.cpp:127-149 | always clears `visible_`. With a device it tears everything down, optionally destroying the materials first |
| Device.Device.ReinitRenderer | gamekit/src/device.cpp:151-174 | tears the swapchain down only if visible. Minimized stays not visible; otherwise rebuilds and becomes visible, or reports the rebuild's error, with the same modelled failures as `CreateRenderer` |
| Device.Device.RecordFrameStart | gamekit/src/device.cpp:809-858 | resets the fence and command buffer and starts recording, or reports a begin failure |
| Device.Device.BeginDraw | gamekit/src/device.cpp:793-858 | waits on the current frame's fence, then acquires. OUT_OF_DATE reinitialises and goes on with the stale index; SUCCESS and SUBOPTIMAL go on; any other result is an error. No error exactly when the acquire is handled, an OUT_OF_DATE acquire's rebuild does not fail (or the window is minimized), and recording begins (`BeginDrawSucceeds`) |
| Device.Device.EndDraw | gamekit/src/device.cpp:860-915 | ends, submits and presents. OUT_OF_DATE or SUBOPTIMAL present reinitialises; other failures are errors. No error exactly when end and submit succeed and the present succeeds or asks for a rebuild that does not fail (`EndDrawSucceeds`); then the current frame advances modulo the frame count |
| Device.Device.Begin | gamekit/src/device.cpp:921-938 | false exactly when not visible and minimized; Ok exactly then, or when the device is visible or its rebuild does not fail and `BeginDrawSucceeds`. When not visible but unminimized it reinitialises first: a failed rebuild is that error, and a true answer leaves the device visible. After true the device is visible unless the window is minimized and the acquire reported out-of-date |
| Device.Device.End | gamekit/src/device.cpp:940-943 | Ok exactly when `EndDrawSucceeds`; then it records end-render-pass, end, submit and present for the current frame, and the current frame becomes (current + 1) modulo the number of frames |
| Sprites.CornersFormRect | gamekit/src/sprite.cpp:62-117 | the four corners (x,y), (x+w,y), (x+w,y+h), (x,y+h) form the rectangle, opposite corners giving it back |
| Sprites.QuadVerticesDescribeQuad | gamekit/src/sprite.cpp:62-117 | four vertices in corner order with z 0, texcoords at the matching corners, and one colour, texmask and flags on all four |
| Sprites.Quad.constructor | gamekit/src/sprite.cpp:31-50 | indices (2,1,0,0,3,2), coords (0,0,100,100), texcoords (0,0,1,1), colour white, texmask 1, flags 0, modified |
| Sprites.Quad.TextureMask | gamekit/include/gamekit/sprite.h:28 | returns the texture mask |
| Sprites.Quad.Flags | gamekit/include/gamekit/sprite.h:29 | returns the texture mask, so it equals the flags only when both happen to agree |
| Sprites.Quad.SetPosition | gamekit/src/sprite.cpp:119-123 | changes only x and y, and sets modified |
| Sprites.Quad.SetSize | gamekit/src/sprite.cpp:125-129 | changes only w and h, and sets modified |
| Sprites.Quad.SetCoords | gamekit/src/sprite.cpp:131-142 | stores the rectangle and sets modified |
| Sprites.Quad.SetColor | gamekit/src/sprite.cpp:144-147 | stores the colour and sets modified |
| Sprites.Quad.SetTextureCoords | gamekit/src/sprite.cpp:149-152 | stores the texture coordinates and sets modified |
| Sprites.Quad.SetTextureMask | gamekit/src/sprite.cpp:154-157 | stores the texture mask and sets modified |
| Sprites.Quad.SetFlags | gamekit/src/sprite.cpp:159-162 | stores the flags and sets modified |
| Sprites.Quad.Update | gamekit/src/sprite.cpp:62-117 | does nothing when not modified. Otherwise writes and uploads the four vertices of the current quad and clears modified |
| Sprites.Quad.Draw | gamekit/src/sprite.cpp:52-60 | updates first, then binds and draws the six indices |
| Sprites.Sprite.constructor | gamekit/include/gamekit/sprite.h:83-87 | texture mask, flags and frame start at 0 |
| Sprites.Sprite.SetCoords | gamekit/include/gamekit/sprite.h:69 | stores the rectangle |
| Sprites.Sprite.SetColor | gamekit/include/gamekit/sprite.h:71 | stores the colour |
| Sprites.Sprite.SetTextureMask | gamekit/include/gamekit/sprite.h:73 | stores the texture mask |
| Sprites.Sprite.SetFlags | gamekit/include/gamekit/sprite.h:75 | stores the flags |
| Sprites.Sprite.SetFrame | gamekit/include/gamekit/sprite.h:79 | stores the frame |
| SpriteBatches.IndexBlockIsShiftedPattern | gamekit/src/sprite_batch.cpp:53-60 | index block q is the quad pattern shifted by 4q, cut to 16 bits |
| SpriteBatches.QuadIndexSeqLength | gamekit/src/sprite_batch.cpp:50-62 | c slots have 6c indices |
| SpriteBatches.BlockOfPrefix | gamekit/src/sprite_batch.cpp:50-62 | appending indices does not change earlier blocks |
| SpriteBatches.QuadIndexSeqBlocks | gamekit/src/sprite_batch.cpp:50-62 | block q of the generated indices is index block q, for every slot |
| SpriteBatches.IndexBlockUsesSlot | gamekit/src/sprite_batch.cpp:53-60 | below the 16-bit wrap, slot q's indices are exactly its own four vertices |
| SpriteBatches.IndexBlockWraps | gamekit/src/sprite_batch.cpp:53-60 | slot 16384's indices repeat slot 0's |
| SpriteBatches.WriteSlot | gamekit/src/sprite_batch.cpp:130-201 | a slot write keeps the length and changes only vertices 4i..4i+3 |
| SpriteBatches.WriteNothing | gamekit/src/sprite_batch.cpp:130-201 | a write that sets no field changes nothing |
| SpriteBatches.WriteSlotThen | gamekit/src/sprite_batch.cpp:217-233 | two writes to one slot equal one combined write, the later value winning |
| SpriteBatches.WritesToDistinctSlotsCommute | gamekit/src/sprite_batch.cpp:130-201 | writes to different slots commute |
| SpriteBatches.FullWriteIsQuad | gamekit/src/sprite_batch.cpp:217-233 | writing every field makes the slot exactly the quad's four vertices |
| SpriteBatches.VertexQueue.constructor | gamekit/src/sprite_batch.cpp:34-70 | capacity c, 4c vertices, the 6c generated indices, count and reserved 0, not modified |
| SpriteBatches.VertexQueue.FillIndices | gamekit/src/sprite_batch.cpp:50-62 | the while loop fills exactly the generated index sequence |
| SpriteBatches.VertexQueue.WriteBlock | gamekit/src/sprite_batch.cpp:53-60 | one loop step writes the six shifted indices and keeps the earlier ones |
| SpriteBatches.VertexQueue.Used | gamekit/src/sprite_batch.cpp:203-215 | slots in use are count plus reserved |
| SpriteBatches.VertexQueue.Begin | gamekit/src/sprite_batch.cpp:72-74 | resets only the count |
| SpriteBatches.VertexQueue.Clear | gamekit/src/sprite_batch.cpp:80-83 | resets count and reserved |
| SpriteBatches.VertexQueue.Reserve | gamekit/src/sprite_batch.cpp:85-100 | an error after a push, or when the reservation, summed in `size_t` and so taken modulo 2^64, would pass capacity. Otherwise returns the old reserved and sets reserved to that wrapped sum, which is old+n when it fits and smaller when it wraps |
| SpriteBatches.VertexQueue.CheckIndex | gamekit/src/sprite_batch.cpp:203-215 | a dynamic index, or an explicit `npos`, takes the next slot and counts it, or overflows. Any other explicit index must be in use, else out of bounds |
| SpriteBatches.VertexQueue.SetCoords | gamekit/src/sprite_batch.cpp:130-150 | writes the four corner positions of one slot only |
| SpriteBatches.VertexQueue.SetColor | gamekit/src/sprite_batch.cpp:152-164 | writes one slot's colour only |
| SpriteBatches.VertexQueue.SetTextureCoords | gamekit/src/sprite_batch.cpp:166-183 | writes one slot's texture corners only |
| SpriteBatches.VertexQueue.SetTextureMask | gamekit/src/sprite_batch.cpp:185-192 | writes one slot's texture mask only |
| SpriteBatches.VertexQueue.SetFlags | gamekit/src/sprite_batch.cpp:194-201 | writes one slot's flags only |
| SpriteBatches.VertexQueue.WriteFields | gamekit/src/sprite_batch.cpp:217-233 | the given fields of one slot, by the slot writers |
| SpriteBatches.VertexQueue.Set | gamekit/src/sprite_batch.cpp:217-233 | checks the index (`npos` pushes), then writes the slot and sets modified. On error nothing changes |
| SpriteBatches.VertexQueue.PushQuad | gamekit/src/sprite_batch.cpp:249-268 | overflows exactly when all slots are in use. Otherwise writes the next slot and counts it |
| SpriteBatches.VertexQueue.StoreQuad | gamekit/src/sprite_batch.cpp:282-300 | out of bounds exactly when the index is not in use. Otherwise writes that slot; count and reserved unchanged |
| SpriteBatches.VertexQueue.PushRect | gamekit/src/sprite_batch.cpp:270-272 | pushes the rectangle with the default colour and texture |
| SpriteBatches.VertexQueue.StoreRect | gamekit/src/sprite_batch.cpp:302-304 | stores the rectangle with the default colour and texture into an in-use slot; `npos` appends instead, or overflows at capacity. On error nothing changes |
| SpriteBatches.VertexQueue.SetQuad | gamekit/src/sprite_batch.cpp:274-280 | push or store of a full quad, by index; `npos` pushes; errors are those of `checkIndex` and change nothing |
| SpriteBatches.VertexQueue.SetSprite | gamekit/src/sprite_batch.cpp:337-351 | a sprite's rectangle, colour, mask and flags with texcoords (0,0,1,1); `npos` pushes; errors are those of `checkIndex` and change nothing |
| SpriteBatches.VertexQueue.Update | gamekit/src/sprite_batch.cpp:103-114 | uploads the 4·used vertices and clears modified only when modified and non-empty |
| SpriteBatches.VertexQueue.Draw | gamekit/src/sprite_batch.cpp:116-128 | updates, then draws 6·used indices, or nothing when empty |
| SpriteBatches.PushSprite | gamekit/src/sprite_batch.cpp:329-331 | `SpriteBatch::push` takes the next slot, as a dynamic `set`: an overflow error exactly when the queue is full, which changes nothing. Otherwise the count grows by one, the slot holds the sprite and the queue is marked modified; reservations are kept |
| Registry.RegisterLookup | gamekit/src/resources.cpp:16-21 | registering adds exactly the listed names, keeps other entries, and a repeated name keeps its last descriptor |
| Registry.Resources.constructor | gamekit/src/resources.cpp:16-21 | an empty table and empty caches |
| Registry.Resources.Create | gamekit/src/resources.cpp:16-21 | stores every descriptor under its name, in list order |
| Registry.Resources.Destroy | gamekit/src/resources.cpp:23-27 | empties the three caches and keeps the descriptor table |
| Registry.Resources.Get | gamekit/src/resources.cpp:29-35 | the stored descriptor, or "not found" exactly for an unknown name |
| Registry.Resources.GetShader | gamekit/src/resources.cpp:37-44 | the cached shader if any. Otherwise built from the descriptor and cached; a failed build caches nothing |
| Registry.Resources.GetImage | gamekit/src/resources.cpp:46-53 | the cached image if any. Otherwise built once from the descriptor and cached |
| Registry.Resources.GetTexture | gamekit/src/resources.cpp:55-62 | the cached texture if any. Otherwise built from `getImage`, so the image is cached under the same name too |
| Registry.DestroyKeepsDescriptors | gamekit/src/resources.cpp:23-53 | after `destroy` the descriptor can still be looked up and the image is built anew |
| VertexLayout.OffsetValues | gamekit/include/gamekit/vertex.h:25-29 | the members sit at offsets 0, 12, 28, 36 and 40, and the vertex is 44 bytes |
| VertexLayout.GetBindingDescription | gamekit/src/vertex.cpp:11-17 | binding 0, stride the size of a vertex, per-vertex rate |
| VertexLayout.GetAttributeDescriptions | gamekit/src/vertex.cpp:19-55 | five attributes; attribute i at location i and binding 0 with the member's format; offsets increasing and each member inside the stride |
| Utilities.DigitChar | gamekit/src/utilities.cpp:16-20 | a decimal digit character |
| Utilities.NatToString | gamekit/src/utilities.cpp:16-20 | a non-empty string of digits |
| Utilities.IntToString | gamekit/src/utilities.cpp:16-20 | an optional minus sign followed by digits |
| Utilities.NatToStringRoundTrip | gamekit/src/utilities.cpp:16-20 | parsing the decimal text of n gives n |
| Utilities.IntToStringRoundTrip | gamekit/src/utilities.cpp:16-20 | parsing the decimal text of an integer gives it back |
| Utilities.FormatCode | gamekit/src/utilities.cpp:16-20 | text, then ", err=", then the decimal code, which parses back to the code |
| Utilities.FormatMessage | gamekit/src/utilities.cpp:22-26 | text, then ", err=", then the message unchanged |
| Utilities.ScaledBounds | gamekit/src/utilities.cpp:35-36 | ⌊r·range/RAND_MAX⌋ lies in [0, range] and equals range exactly when r = RAND_MAX |
| Utilities.WrapInt32 | gamekit/src/utilities.cpp:35 | a 32-bit int keeps the value modulo 2^32, in range, and unchanged when it fits |
| Utilities.GetIntAsWritten | gamekit/src/utilities.cpp:32-37 | the source's 32-bit form: always an int, and equal to `GetInt` whenever max − min fits an int |
| Utilities.GetIntAsWrittenLeavesRange | gamekit/src/utilities.cpp:35 | getInt(−2, INT32_MAX) answers below −2 for rand() = 2^30 − 1 |
| Utilities.GetInt | gamekit/src/utilities.cpp:32-37 | with the span taken exactly: min when max ≤ min. Otherwise within [min, max], equal to max exactly when r = RAND_MAX |
| MainLoop.CycleTimeBounds | gamekit/src/application.cpp:79 | for a positive rate the cycle time is ⌊1000000/rate⌋; for a negative rate it is at most 0 |
| MainLoop.PollOnce | gamekit/src/application.cpp:89-107 | quits exactly when events fail. A cycle starts exactly when now ≥ next_cycle, with the next cycle at least 5000 µs on. Otherwise it sleeps min(next−now, 10000) µs, within (0, 10000] |
| MainLoop.ShortCyclesRunAtMinimum | gamekit/src/application.cpp:96-103 | a cycle time below the minimum is raised to 5000 µs after now |
| MainLoop.CyclesAreSpaced | gamekit/src/application.cpp:96-103 | no cycle starts within 5000 µs of the previous start |
| MainLoop.FrameDelta | gamekit/src/application.cpp:110-112 | 0 on the first cycle, now − lastUpdateTime afterwards |
| MainLoop.DeltasAddUp | gamekit/src/application.cpp:110-112 | a fact about the delta rule alone, not about a `Run` trace: for non-zero clock readings the deltas of successive cycles add up to the time from the first reading to the last |
| MainLoop.Application.constructor | gamekit/src/application.cpp:20-28 | not running, cycle time from the frame rate, counters zero |
| MainLoop.Application.UpdateStatistics | gamekit/src/application.cpp:138-151 | counts one update and resets the counter once 5 s have passed since the last report |
| MainLoop.Application.RunCycle | gamekit/src/application.cpp:109-123 | always one update with the frame delta; draw, end and statistics only when `begin` is true, else wait for events |
| MainLoop.Application.Run | gamekit/src/application.cpp:73-128 | stops exactly when events fail, running one last cycle then; successive cycle starts are at least 5000 µs apart |
| AssetCompiler.FormatByte | gamekit/tools/gamekitc.py:67-68 | "0x" and two lowercase hex digits: 4 characters |
| AssetCompiler.HexDigitRoundTrip | gamekit/tools/gamekitc.py:21 | each hex digit parses back to its value |
| AssetCompiler.FormatByteRoundTrip | gamekit/tools/gamekitc.py:67-68 | parsing a formatted byte gives the byte back |
| AssetCompiler.HexDigitCanonical | gamekit/tools/gamekitc.py:21 | a character that parses as a digit is that digit's character |
| AssetCompiler.ParseByteCanonical | gamekit/tools/gamekitc.py:67-68 | text that parses as a byte is that byte's formatted text |
| AssetCompiler.EntriesLength | gamekit/tools/gamekitc.py:105-113 | every byte takes 5 characters |
| AssetCompiler.EntriesAppend | gamekit/tools/gamekitc.py:105-113 | entries of a concatenation are the concatenated entries |
| AssetCompiler.BincAppend | gamekit/tools/gamekitc.py:105-122 | after a whole number of lines the text continues independently |
| AssetCompiler.BincLineStep | gamekit/tools/gamekitc.py:113-117 | each full line of 24 bytes is followed by a newline |
| AssetCompiler.BincTail | gamekit/tools/gamekitc.py:119-120 | the final partial line is written without a newline |
| AssetCompiler.EntriesSnoc | gamekit/tools/gamekitc.py:108-113 | one more byte appends one entry |
| AssetCompiler.ExtendLine | gamekit/tools/gamekitc.py:108-113 | the line being built is the entries since the last newline |
| AssetCompiler.StripAppend | gamekit/tools/gamekitc.py:91-122 | stripping and counting newlines distribute over concatenation |
| AssetCompiler.NoLineBreaks | gamekit/tools/gamekitc.py:91-122 | text without newlines strips to itself and has none |
| AssetCompiler.EntryHasNoLineBreak | gamekit/tools/gamekitc.py:108-113 | an entry contains no newline |
| AssetCompiler.EntriesHaveNoNewlines | gamekit/tools/gamekitc.py:108-113 | entries contain no newline |
| AssetCompiler.BincStripsToEntries | gamekit/tools/gamekitc.py:91-122 | removing the newlines gives exactly the entries for all bytes |
| AssetCompiler.BincNewlineCount | gamekit/tools/gamekitc.py:113-117 | there is one newline per full 24 bytes |
| AssetCompiler.Binc | gamekit/tools/gamekitc.py:91-129 | the while loop emits the wrapped text, and writes "output: source" to the depends file exactly when one is named |
| AssetListing.Slashes | gamekit/tools/gamekitc.py:262 | backslashes become slashes and nothing else changes |
| AssetListing.Lower | gamekit/tools/gamekitc.py:262 | each character is lowercased |
| AssetListing.SlashesKeepsSlashFree | gamekit/tools/gamekitc.py:262 | a name without backslashes is kept |
| AssetListing.LowerKeepsLowerCase | gamekit/tools/gamekitc.py:262 | a lowercase name is kept |
| AssetListing.ResourceNameIsCanonical | gamekit/tools/gamekitc.py:262 | resource names have no backslash and no uppercase letter, and normalising again changes nothing |
| AssetListing.EscapeStart | gamekit/tools/gamekitc.py:226 | an escaped path in the target line starts with a separating space |
| AssetListing.EscapeRoundTrip | gamekit/tools/gamekitc.py:226 | unescaping "\ " gives the path back |
| AssetListing.SuffixTypes | gamekit/tools/gamekitc.py:282-288 | uint32_t data exactly for .frag and .vert; ".shader" is Unknown; only the four listed suffixes have a known type |
| AssetListing.TableEntries | gamekit/tools/gamekitc.py:277-296 | one table entry per descriptor |
| AssetListing.DataBlocksSnoc | gamekit/tools/gamekitc.py:256-275 | one more descriptor appends its data block |
| AssetListing.TableRowsSnoc | gamekit/tools/gamekitc.py:277-296 | one more descriptor appends its table row |
| AssetListing.TableRowsPrefix | gamekit/tools/gamekitc.py:293 | the rows so far are the entries joined by ",\n", with a comma unless the last is done |
| AssetListing.TableIsCommaSeparated | gamekit/tools/gamekitc.py:277-296 | the table is the entries joined by commas, with no trailing comma |
| AssetListing.WriteDataBlocks | gamekit/tools/gamekitc.py:256-275 | the loop emits one data block per descriptor |
| AssetListing.WriteTableRows | gamekit/tools/gamekitc.py:277-296 | the loop emits the comma-separated table |
| AssetListing.AssetList.constructor | gamekit/tools/gamekitc.py:59-61 | the list starts empty |
| AssetListing.AssetList.Add | gamekit/tools/gamekitc.py:59-61 | appends one descriptor |
| AssetListing.AssetList.WriteDescriptor | gamekit/tools/gamekitc.py:238-302 | header, data blocks, table and footer |
| AssetListing.AssetList.WriteDepends | gamekit/tools/gamekitc.py:213-235 | nothing for no descriptors; otherwise the escaped target line and one rule per descriptor |
| AssetPaths.Split | gamekit/tools/gamekitc.py:85-89 | a split has at least one piece |
| AssetPaths.SplitHasNoSlash | gamekit/tools/gamekitc.py:85-89 | no piece contains a slash |
| AssetPaths.JoinSplit | gamekit/tools/gamekitc.py:85-89 | joining the pieces gives the path back |
| AssetPaths.SplitJoin | gamekit/tools/gamekitc.py:85-89 | splitting a join of slash-free pieces gives the pieces back |
| AssetPaths.Clean | gamekit/tools/gamekitc.py:85-89 | components are non-empty pieces other than "." |
| AssetPaths.Name | gamekit/tools/gamekitc.py:87 | a name contains no slash and is not "." |
| AssetPaths.LastDot | gamekit/tools/gamekitc.py:70-78 | the position of the last dot, or none exactly when there is no dot |
| AssetPaths.SuffixIsLastExtension | gamekit/tools/gamekitc.py:70-78 | a suffix exists exactly when the last dot is inside the name; it is the tail from that dot |
| AssetPaths.SuffixOfExtension | gamekit/tools/gamekitc.py:70-78 | a stem plus an extension has that extension as its suffix |
| AssetPaths.FiltersAreDisjoint | gamekit/tools/gamekitc.py:16-18 | ignored exactly for CMakeLists.txt or a source suffix, a shader exactly for a shader suffix, and never both |
| AssetPaths.PathJoin | gamekit/tools/gamekitc.py:88 | an absolute second part wins; otherwise the parts are joined with one slash |
| AssetPaths.NormPath | gamekit/tools/gamekitc.py:88 | the normalised path is never empty |
| AssetPaths.NormComponentsAreClean | gamekit/tools/gamekitc.py:88 | normalised components are real names, with ".." only leading a relative path |
| AssetPaths.NormStepIsClean | gamekit/tools/gamekitc.py:88 | one normalising step keeps the components clean |
| AssetPaths.NormKeepsLastName | gamekit/tools/gamekitc.py:88 | a real name at the end stays the last component |
| AssetPaths.OutputKeepsName | gamekit/tools/gamekitc.py:85-89 | the output path's name is the source's name plus the extension |
| AssetPaths.IncNamesArePlain | gamekit/tools/gamekitc.py:85-89 | a name plus ".inc" is always a real name |
| AssetPaths.NeedsUpdate | gamekit/tools/gamekitc.py:152-163 | rebuild exactly when the output is missing or the input is strictly newer |

## Left out

- Vulkan, SDL and stb calls themselves. Their answers are parameters, and handles are numbers. Instance, surface and debug-callback creation are left out, and so are the render pass's attachment details, command-buffer contents beyond the recorded traces, and GPU-side synchronisation.
- Image decoding, `Image::make` from a file or descriptor, textures (`texture.cpp`), samplers and `Shader::make(filename)`. `Registry` records a built image or texture as its handle and source descriptor.
- `window.cpp`, `loader.cpp`, `clock.cpp` and `api.cpp`. The window size and minimized state, the clock's `now` and the event loop's answers are inputs.
- Floating point:
  - `absTime_` and `deltaTime_` are kept as integer microseconds;
  - the fps averaging in `updateStatistics` is left out;
  - vertex coordinates are reals with no rounding;
  - `Random::getFloat` is left out.
- MainLoop.Application.constructor: requires a non-zero frame rate. The source accepts 0 and then divides by zero when `run` computes the cycle time (gamekit/src/application.cpp:79).
- Types.Image.Make: the 32-bit product w·h·4 is modelled as two's-complement wrap-around (`ImageByteSize`). In C++ that overflow is undefined behaviour. Make cannot fail: the image creation, memory allocation and memory binding failures of `createImage` (gamekit/src/types.cpp:482-497) are not modelled.
- Types.Image.CreateImage: the same wrap-around model of w·h·4 as `Make`. The image's memory is not modelled, and the vkCreateImage, allocation and vkBindImageMemory failures (gamekit/src/types.cpp:482-497) are not either.
- Types.MakeImageView: cannot fail; the vkCreateImageView failure (gamekit/src/types.cpp:613-616) is not modelled.
- Frame.Frame.Create: cannot fail; the failures of the command-buffer allocation and of semaphore and fence creation (gamekit/src/types.cpp:34, 60, 109) are not modelled.
- Device.Device.CreateDevice: only device selection can fail. The vkCreateDevice failure (gamekit/src/device.cpp:459-462) and the vkCreateCommandPool failure (gamekit/src/device.cpp:723-726) are not modelled.
- Device.Device.CreateImageViews: only an empty image list is an error; the failure of each `ImageView::make` is not modelled.
- Device.Device.CreateDepthBuffer: only a missing depth format is an error; the `Image::make` and `ImageView::make` failures are not modelled.
- Device.Device.CreateRenderPass: cannot fail; the vkCreateRenderPass failure (gamekit/src/device.cpp:629-632) is not modelled.
- Device.Device.CreateFrameBuffers: cannot fail; the `Framebuffer::make` failure (gamekit/src/types.cpp:659) is not modelled.
- Device.Device.CreateEachFrame: cannot fail, because `Frame.Frame.Create` cannot.
- Device.Device.CreateFrames: cannot fail in the model. `Frame.Frame.Create` is taken to succeed, and so is each material compile (device.cpp:700-702), which in the source can throw from pipeline-layout, pipeline or descriptor-set creation (material.cpp:282, 302, 329).
- Device.Device.CompileMaterials: records which materials are compiled but not whether compiling fails. Device holds materials by id only, so the throws at material.cpp:282, 302 and 329 reached from device.cpp:700-702 are not modelled here; `Material.Material.Update`, which `compile()` is, models them for one material.
- Device.Device.BeginDraw: the current material's `bind` (device.cpp:837-839) is taken to succeed, although it can rebuild the material and fail as `Material.Material.Bind` shows; `BeginDrawSucceeds` therefore leaves out that cause.
- Device.Device.Begin: the same material bind failure as `BeginDraw` is not modelled.
- Device.Device.CreateRenderer: its error condition `RebuildFails` covers only the swapchain result, an empty image list and a missing depth format. The image, image-view, render-pass, framebuffer and frame creation failures listed above are not modelled, nor the material compile failures reached from device.cpp:700-702.
- Device.Device.ReinitRenderer: the same three causes as `CreateRenderer`; the other creation failures, including the material compile at device.cpp:700-702, are not modelled.
- Buffers.BufferObject.Destroy: clears the whole memory record to `NO_MEMORY`. The source frees only the memory's handle, and the memory's size, type filter and flags stay in the object (gamekit/include/gamekit/types.h:149).
- Buffers.BufferObject.Create: starts with `Destroy`, so it resets the memory record in the same way, and a failed allocation leaves `NO_MEMORY` where the source keeps the old record's size, type filter and flags.
- Buffers.BufferObject.MoveFrom: leaves the source's memory record as `NO_MEMORY`. The source's implicit `DeviceMemory` move nulls only the handle and keeps the size, type filter and flags.
- Buffers.BufferObject.MoveAssign: the same reset of the source's memory record as `MoveFrom`.
- Types.Image.UploadPixels: the same wrap-around model of w·h·4 for the staging size; the staging buffer's own creation and copy are not modelled beyond the recorded bytes.
- Utilities.GetInt: takes the span max − min exactly, as the evidently intended 64-bit arithmetic would. The source's 32-bit subtraction is modelled by `Utilities.GetIntAsWritten` (see Findings).
- MainLoop.Application.Run: takes a finite script of event and clock answers in place of the open-ended loop, and does not model int64 wrap-around of the clock.
- Material.PoolSize: the `size_t` product is not wrapped; with the kit's two frames it fits for any attachable number of buffers and textures.
- Material.Material.AddBuffer: a buffer is attached as a snapshot of its type, id and binding, not as a live reference.
- Sprites.Quad.constructor: vertices start blank before the first update. Their first contents come from `update`.
- Sprites.Sprite.constructor: rectangle and colour start at zero.
- SpriteBatches.VertexQueue: `end()` has an empty body and is not modelled.
- Utilities.FormatCode: "{}" placeholders in the text are not substituted, as in the source.
- AssetListing.Lower: lowercases ASCII letters only. Python's `lower()` also maps other scripts.
- AssetPaths.NormPath: POSIX paths only, without Windows path rules.
- gamekitc's file reading in 4096-byte chunks, the `glslc` subprocess, `check_setup`, `process_file`, `process_folder`, `relpath`, `create_folder`, `main` and the file writes. Only the produced text is modelled.
- `write_stamp` writes a fixed text, kept as a constant. Like `write_depends` and `write_descriptor`, it tests `folder.exists` without calling it, so the folder is never created; the folder check is not modelled.
- Demo applications (`hello`, `particles`) and the parallel particle update.

## Findings

| source | as written | input that shows it | evidently intended | confidence | as-written member | corrected member |
|---|---|---|---|---|---|---|
| gamekit/src/utilities.cpp:35 | `int range = rangeMax - rangeMin` wraps when the span exceeds INT32_MAX, so the 64-bit scaling works on a negative range | `getInt(-2, INT32_MAX)` with RAND_MAX = 2^31 − 1 and `rand()` = 2^30 − 1 gives −2 − (2^30 − 1), below the minimum | the span computed in 64 bits, keeping every answer in [min, max] | medium, not executed | Utilities.GetIntAsWrittenLeavesRange | Utilities.GetInt |

=== FILE: application.dfy ===
/**
 * The main loop of `ApplicationBase`: frame pacing, the per-tick update,
 * draw or idle wait, and the frame-rate statistics.
 *
 * The window, the clock and the device are outside the model: each pass
 * of the inner loop reads one `Env` from a finite script, which says what
 * `processEvents` answers, what the clock reads, and, when that pass ends
 * the wait, what `device.begin` answers and what the clock reads inside
 * `updateStatistics`.  What the loop does is recorded in counters and
 * logs: `update` calls, draws, idle waits, the sleeps asked of the clock
 * and the times at which a cycle started.  Times are microseconds.
 */
module MainLoop {
  import opened Utilities

  const MICROS_PER_SECOND: int := 1000000
  /** No two cycles start closer together than this. */
  const MIN_CYCLE_TIME: int := 5000
  /** The longest single sleep while waiting for the next cycle. */
  const MAX_SLEEP_TIME: int := 10000
  /** The frame-rate report is made every this many microseconds (5 s) or more. */
  const REPORT_INTERVAL: int := 5000000
  const UINT32_RANGE: int := 0x1_0000_0000

  /** `cycle_time`: the length of one cycle for the requested frame rate. */
  function CycleTime(frameRate: int): int
    requires frameRate != 0
  {
    TruncDiv(MICROS_PER_SECOND, frameRate)
  }

  /**
   * For a positive frame rate the cycle is the largest whole number of
   * microseconds that fits `frameRate` times into one second; a negative
   * frame rate gives a cycle of zero or less.
   */
  lemma CycleTimeBounds(frameRate: int)
    requires frameRate != 0
    ensures frameRate > 0 ==> 0 <= CycleTime(frameRate) * frameRate <= MICROS_PER_SECOND < (CycleTime(frameRate) + 1) * frameRate
    ensures frameRate < 0 ==> CycleTime(frameRate) <= 0
  {
    if frameRate > 0 {
      var c := CycleTime(frameRate);
      assert c == MICROS_PER_SECOND / frameRate;
      assert c * frameRate + MICROS_PER_SECOND % frameRate == MICROS_PER_SECOND;
    }
  }

  /** What one pass of the inner loop decides. */
  datatype Poll = Quit | Start(nextCycle: int) | Sleep(duration: int)

  /**
   * One pass of the inner loop: stop when the window reports the end;
   * start a cycle once the clock has reached `nextCycle`, scheduling the
   * next one a cycle later but at least `MIN_CYCLE_TIME` from now;
   * otherwise sleep until `nextCycle`, at most `MAX_SLEEP_TIME` at a time.
   */
  function PollOnce(eventsOk: bool, now: int, nextCycle: int, cycleTime: int): (p: Poll)
    ensures p.Quit? <==> !eventsOk
    ensures p.Start? <==> eventsOk && now >= nextCycle
    ensures p.Start? ==>
      (p.nextCycle >= now + MIN_CYCLE_TIME && p.nextCycle >= nextCycle + cycleTime
       && (p.nextCycle == now + MIN_CYCLE_TIME || p.nextCycle == nextCycle + cycleTime))
    ensures p.Sleep? ==>
      (0 < p.duration <= MAX_SLEEP_TIME && p.duration <= nextCycle - now
       && (p.duration == MAX_SLEEP_TIME || now + p.duration == nextCycle))
  {
    if !eventsOk then Quit
    else if now >= nextCycle then
      var next := nextCycle + cycleTime;
      Start(if next < now + MIN_CYCLE_TIME then now + MIN_CYCLE_TIME else next)
    else
      var sleepTime := nextCycle - now;
      Sleep(if sleepTime > MAX_SLEEP_TIME then MAX_SLEEP_TIME else sleepTime)
  }

  /**
   * With a cycle of zero or less (a negative frame rate) or a clock far
   * behind, every cycle is scheduled exactly `MIN_CYCLE_TIME` after it
   * starts.
   */
  lemma ShortCyclesRunAtMinimum(now: int, nextCycle: int, cycleTime: int)
    requires now >= nextCycle && nextCycle + cycleTime < now + MIN_CYCLE_TIME
    ensures PollOnce(true, now, nextCycle, cycleTime) == Start(now + MIN_CYCLE_TIME)
  {
  }

  /**
   * Two cycles never start closer than `MIN_CYCLE_TIME`: once a cycle has
   * started at `t`, no pass before `t + MIN_CYCLE_TIME` starts another.
   */
  lemma CyclesAreSpaced(t: int, nextCycle: int, cycleTime: int, later: int)
    requires PollOnce(true, t, nextCycle, cycleTime).Start?
    requires later < t + MIN_CYCLE_TIME
    ensures !PollOnce(true, later, PollOnce(true, t, nextCycle, cycleTime).nextCycle, cycleTime).Start?
  {
  }

  /** The time since the previous cycle; 0 while `lastUpdateTime` is still 0. */
  function FrameDelta(lastUpdateTime: int, now: int): (d: int)
    ensures lastUpdateTime == 0 ==> d == 0
    ensures lastUpdateTime != 0 ==> lastUpdateTime + d == now
  {
    if lastUpdateTime != 0 then now - lastUpdateTime else 0
  }

  /**
   * A fact about `FrameDelta` alone, not about a `Run` trace: for any
   * sequence of non-zero clock readings, the deltas of successive cycles
   * add up to the time from the first reading to the last.
   */
  lemma {:induction false} DeltasAddUp(times: seq<int>)
    requires |times| >= 1 && forall k :: 0 <= k < |times| ==> times[k] != 0
    ensures SumDeltas(times) == times[|times| - 1] - times[0]
  {
    if |times| > 1 {
      var init := times[..|times| - 1];
      DeltasAddUp(init);
    }
  }

  /** The deltas reported for cycles at the clock readings `times`, the first after one at time 0. */
  function SumDeltas(times: seq<int>): int
    requires |times| >= 1
  {
    if |times| == 1 then FrameDelta(0, times[0])
    else SumDeltas(times[..|times| - 1]) + FrameDelta(times[|times| - 2], times[|times| - 1])
  }

  /** What the window, the clock and the device answer during one pass of the inner loop. */
  datatype Env = Env(eventsOk: bool, clock: int, begin: bool, statsClock: int)

  class Application {
    const cycleTime: int
    var running: bool
    /** `deltaTime_` and `absTime_`, in microseconds. */
    var deltaTime: int
    var absTime: int
    /** `stats.updateCounter` (32 bits) and `stats.lastUpdate`. */
    var updateCounter: int
    var lastReport: int
    /** Calls made: `update`, `draw`, `waitEvents`; sleeps; start times of the cycles. */
    var updates: nat
    var draws: nat
    var idleWaits: nat
    var sleeps: seq<int>
    var cycleStarts: seq<int>

    /**
     * Every cycle ended in a draw or an idle wait, every sleep lies in
     * (0, `MAX_SLEEP_TIME`], and the counter fits in 32 bits.
     */
    predicate Valid()
      reads this
    {
      updates == draws + idleWaits
      && (forall k :: 0 <= k < |sleeps| ==> 0 < sleeps[k] <= MAX_SLEEP_TIME)
      && 0 <= updateCounter < UINT32_RANGE
    }

    constructor (frameRate: int)
      requires frameRate != 0
      ensures Valid() && !running && cycleTime == CycleTime(frameRate)
      ensures updateCounter == 0 && lastReport == 0
      ensures updates == 0 && sleeps == [] && cycleStarts == []
    {
      cycleTime := CycleTime(frameRate);
      running := false;
      deltaTime := 0;
      absTime := 0;
      updateCounter := 0;
      lastReport := 0;
      updates := 0;
      draws := 0;
      idleWaits := 0;
      sleeps := [];
      cycleStarts := [];
    }

    /**
     * `updateStatistics`: counts the drawn cycle; once `REPORT_INTERVAL`
     * has passed since the last report, reports and restarts the count.
     */
    method UpdateStatistics(clock: int)
      requires Valid()
      modifies this`updateCounter, this`lastReport
      ensures Valid()
      ensures clock - old(lastReport) >= REPORT_INTERVAL ==> updateCounter == 0 && lastReport == clock
      ensures clock - old(lastReport) < REPORT_INTERVAL ==>
        updateCounter == (old(updateCounter) + 1) % UINT32_RANGE && lastReport == old(lastReport)
    {
      updateCounter := (updateCounter + 1) % UINT32_RANGE;
      var delta := clock - lastReport;
      if delta >= REPORT_INTERVAL {
        updateCounter := 0;
        lastReport := clock;
      }
    }

    /**
     * The rest of one outer pass: the delta, `update`, then a draw with
     * statistics when the device accepts the frame, else an idle wait.
     */
    method RunCycle(now: int, lastUpdateTime: int, begin: bool, statsClock: int)
      requires Valid()
      modifies this`deltaTime, this`absTime, this`updates, this`draws, this`idleWaits, this`updateCounter, this`lastReport
      ensures Valid()
      ensures absTime == now && deltaTime == FrameDelta(lastUpdateTime, now)
      ensures updates == old(updates) + 1
      ensures begin ==> draws == old(draws) + 1 && idleWaits == old(idleWaits)
      ensures !begin ==>
        (draws == old(draws) && idleWaits == old(idleWaits) + 1
         && updateCounter == old(updateCounter) && lastReport == old(lastReport))
    {
      absTime := now;
      deltaTime := if lastUpdateTime != 0 then now - lastUpdateTime else 0;
      updates := updates + 1;
      if begin {
        draws := draws + 1;
        UpdateStatistics(statsClock);
      } else {
        idleWaits := idleWaits + 1;
      }
    }

    /**
     * `run`: waits for each cycle, runs it, and stops once the window
     * reports the end.  The pass that sees the end still runs one more
     * cycle, with the time of the previous clock reading, before the loop
     * exits.  The loop also stops when the script runs out.
     */
    method Run(script: seq<Env>)
      requires Valid()
      modifies this
      ensures Valid()
      ensures !running <==> exists k :: 0 <= k < |script| && !script[k].eventsOk
      ensures updates == old(updates) + (|cycleStarts| - |old(cycleStarts)|) + (if running then 0 else 1)
      ensures |sleeps| >= |old(sleeps)|
      ensures forall k :: |old(cycleStarts)| <= k < |cycleStarts| - 1 ==> cycleStarts[k] + MIN_CYCLE_TIME <= cycleStarts[k + 1]
    {
      running := true;
      var nextCycle := 0;
      var lastUpdateTime := 0;
      var now := 0;
      ghost var u0, c0 := updates, |cycleStarts|;
      var i := 0;
      while running && i < |script|
        invariant i <= |script| && |cycleStarts| >= c0 && Valid()
        invariant running ==> forall k :: 0 <= k < i ==> script[k].eventsOk
        invariant !running ==> exists k :: 0 <= k < i && !script[k].eventsOk
        invariant updates == u0 + (|cycleStarts| - c0) + (if running then 0 else 1)
        invariant |cycleStarts| > c0 ==> cycleStarts[|cycleStarts| - 1] + MIN_CYCLE_TIME <= nextCycle
        invariant forall k :: c0 <= k < |cycleStarts| - 1 ==> cycleStarts[k] + MIN_CYCLE_TIME <= cycleStarts[k + 1]
        invariant |sleeps| >= |old(sleeps)|
        decreases |script| - i
      {
        var ended := false;
        ghost var i0 := i;
        while running && !ended && i < |script|
          invariant i0 <= i <= |script| && |cycleStarts| >= c0 && Valid()
          invariant ended ==> i > i0
          invariant !running ==> ended
          invariant running ==> forall k :: 0 <= k < i ==> script[k].eventsOk
          invariant !running ==> exists k :: 0 <= k < i && !script[k].eventsOk
          invariant updates + (if ended && running then 1 else 0) == u0 + (|cycleStarts| - c0)
          invariant |cycleStarts| > c0 ==> cycleStarts[|cycleStarts| - 1] + MIN_CYCLE_TIME <= nextCycle
          invariant forall k :: c0 <= k < |cycleStarts| - 1 ==> cycleStarts[k] + MIN_CYCLE_TIME <= cycleStarts[k + 1]
          invariant |sleeps| >= |old(sleeps)|
        {
          var env := script[i];
          i := i + 1;
          var p := PollOnce(env.eventsOk, env.clock, nextCycle, cycleTime);
          if p.Quit? {
            running := false;
            ended := true;
          } else {
            now := env.clock;
            if p.Start? {
              cycleStarts := cycleStarts + [now];
              nextCycle := p.nextCycle;
              ended := true;
            } else {
              sleeps := sleeps + [p.duration];
            }
          }
        }
        if ended {
          var env := script[i - 1];
          RunCycle(now, lastUpdateTime, env.begin, env.statsClock);
          lastUpdateTime := now;
        }
      }
    }
  }
}

=== FILE: asset_compiler.dfy ===
/**
 * The asset compiler `gamekitc`, byte and path side: how a data file is
 * turned into the text of a C array initialiser (`binc`), which files are
 * skipped or compiled as shaders, where the output goes and when it is
 * rebuilt.  File contents, directory listings and modification times are
 * parameters; the model produces the text the compiler writes.  Paths are
 * POSIX paths.
 */
module AssetCompiler {
  import opened Wrappers
  import opened Primitives

  const HEXCHARS: string := "0123456789abcdef"
  const MAX_LINE_LENGTH: nat := 120
  /** Each byte is written as five characters, "0xhh,", so a line holds this many bytes. */
  const BYTES_PER_LINE: nat := 24

  // ------------------------------------------------------------ format_byte

  /** `format_byte`: "0x" and two lower-case hex digits. */
  function FormatByte(v: nat): (s: string)
    requires v < 256
    ensures |s| == 4 && s[..2] == "0x"
  {
    "0x" + [HEXCHARS[v / 16], HEXCHARS[v % 16]]
  }

  /** The value of a lower-case hex digit. */
  function HexValue(c: char): Option<nat>
  {
    if '0' <= c <= '9' then Some(c as nat - '0' as nat)
    else if 'a' <= c <= 'f' then Some(c as nat - 'a' as nat + 10)
    else None
  }

  /** Reads "0xhh" back. */
  function ParseByte(s: string): Option<nat>
  {
    if |s| == 4 && s[..2] == "0x" && HexValue(s[2]).Some? && HexValue(s[3]).Some?
    then Some(16 * HexValue(s[2]).value + HexValue(s[3]).value)
    else None
  }

  lemma HexDigitRoundTrip(d: nat)
    requires d < 16
    ensures HexValue(HEXCHARS[d]) == Some(d)
  {
  }

  /** Every byte value is written in a form that reads back as that value. */
  lemma FormatByteRoundTrip(v: nat)
    requires v < 256
    ensures ParseByte(FormatByte(v)) == Some(v)
  {
    HexDigitRoundTrip(v / 16);
    HexDigitRoundTrip(v % 16);
  }

  /** A character that reads as a hex digit is that digit's character. */
  lemma HexDigitCanonical(c: char)
    requires HexValue(c).Some?
    ensures HexValue(c).value < 16 && HEXCHARS[HexValue(c).value] == c
  {
  }

  lemma SplitByte(hi: nat, lo: nat)
    requires hi < 16 && lo < 16
    ensures (16 * hi + lo) / 16 == hi && (16 * hi + lo) % 16 == lo && 16 * hi + lo < 256
  {
  }

  /** And it is the only such form: text that reads as a byte is that byte's formatting. */
  lemma ParseByteCanonical(s: string)
    requires ParseByte(s).Some?
    ensures ParseByte(s).value < 256 && FormatByte(ParseByte(s).value) == s
  {
    var hi := HexValue(s[2]).value;
    var lo := HexValue(s[3]).value;
    HexDigitCanonical(s[2]);
    HexDigitCanonical(s[3]);
    SplitByte(hi, lo);
    assert FormatByte(16 * hi + lo) == s[..2] + [s[2], s[3]];
  }

  // ------------------------------------------------------------------ binc

  /** One array element as `binc` writes it. */
  function Entry(b: Byte): string
  {
    FormatByte(b as nat) + ","
  }

  /** The elements of all bytes, with no line breaks. */
  function Entries(bs: seq<Byte>): string
  {
    if bs == [] then "" else Entries(bs[..|bs| - 1]) + Entry(bs[|bs| - 1])
  }

  /**
   * The text `binc` writes: 24 elements and a newline per full line, then
   * the remaining elements, possibly none, without a newline.
   */
  function BincText(bs: seq<Byte>): string
    decreases |bs|
  {
    if |bs| < BYTES_PER_LINE then Entries(bs)
    else Entries(bs[..BYTES_PER_LINE]) + "\n" + BincText(bs[BYTES_PER_LINE..])
  }

  lemma {:induction false} EntriesLength(bs: seq<Byte>)
    ensures |Entries(bs)| == 5 * |bs|
  {
    if bs != [] {
      EntriesLength(bs[..|bs| - 1]);
    }
  }

  lemma {:induction false} EntriesAppend(p: seq<Byte>, q: seq<Byte>)
    ensures Entries(p + q) == Entries(p) + Entries(q)
    decreases |q|
  {
    if q == [] {
      assert p + q == p;
    } else {
      var n := |q| - 1;
      assert (p + q)[..|p + q| - 1] == p + q[..n];
      EntriesAppend(p, q[..n]);
    }
  }

  /** Text after `k` full lines is the text of the rest, appended. */
  lemma {:induction false} BincAppend(p: seq<Byte>, q: seq<Byte>, k: nat)
    requires |p| == 24 * k
    ensures BincText(p + q) == BincText(p) + BincText(q)
  {
    if k > 0 {
      var rest := p[BYTES_PER_LINE..];
      assert (p + q)[..BYTES_PER_LINE] == p[..BYTES_PER_LINE];
      assert (p + q)[BYTES_PER_LINE..] == rest + q;
      BincAppend(rest, q, k - 1);
    } else {
      assert p + q == q;
    }
  }

  /** Reaching the end of line `k`: the text so far gains the line's 24 elements and a newline. */
  lemma BincLineStep(data: seq<Byte>, start: nat, k: nat)
    requires start == 24 * k && start + BYTES_PER_LINE <= |data|
    ensures BincText(data[..start + BYTES_PER_LINE]) == BincText(data[..start]) + Entries(data[start..start + BYTES_PER_LINE]) + "\n"
  {
    var chunk := data[start..start + BYTES_PER_LINE];
    assert data[..start + BYTES_PER_LINE] == data[..start] + chunk;
    BincAppend(data[..start], chunk, k);
    assert chunk[..BYTES_PER_LINE] == chunk;
    assert BincText(chunk[BYTES_PER_LINE..]) == "";
  }

  /** The last, partial line: its elements and no newline. */
  lemma BincTail(data: seq<Byte>, start: nat, k: nat)
    requires start == 24 * k && start <= |data| < start + BYTES_PER_LINE
    ensures BincText(data) == BincText(data[..start]) + Entries(data[start..])
  {
    assert data == data[..start] + data[start..];
    BincAppend(data[..start], data[start..], k);
  }

  lemma EntriesSnoc(bs: seq<Byte>, i: nat, j: nat)
    requires i <= j < |bs|
    ensures Entries(bs[i..j + 1]) == Entries(bs[i..j]) + Entry(bs[j])
  {
    assert bs[i..j + 1][..j - i] == bs[i..j];
  }

  /** Appending one element to the line of `data[start..i]` gives the line of `data[start..i + 1]`. */
  lemma ExtendLine(data: seq<Byte>, start: nat, i: nat, line: string)
    requires start <= i < |data| && line == Entries(data[start..i])
    ensures line + Entry(data[i]) == Entries(data[start..i + 1])
    ensures |line + Entry(data[i])| == 5 * (i + 1 - start)
  {
    EntriesSnoc(data, start, i);
    EntriesLength(data[start..i + 1]);
  }

  /** The text without its line breaks. */
  function StripNewlines(s: string): string
  {
    if s == [] then [] else StripNewlines(s[..|s| - 1]) + (if s[|s| - 1] == '\n' then [] else [s[|s| - 1]])
  }

  /** The number of line breaks in the text. */
  function Newlines(s: string): nat
  {
    if s == [] then 0 else Newlines(s[..|s| - 1]) + (if s[|s| - 1] == '\n' then 1 else 0)
  }

  lemma {:induction false} StripAppend(a: string, b: string)
    ensures StripNewlines(a + b) == StripNewlines(a) + StripNewlines(b)
    ensures Newlines(a + b) == Newlines(a) + Newlines(b)
    decreases |b|
  {
    if b == [] {
      assert a + b == a;
    } else {
      var n := |b| - 1;
      assert (a + b)[..|a + b| - 1] == a + b[..n];
      StripAppend(a, b[..n]);
    }
  }

  /** Text with no line break is its own stripped form. */
  lemma {:induction false} NoLineBreaks(s: string)
    requires forall k :: 0 <= k < |s| ==> s[k] != '\n'
    ensures StripNewlines(s) == s && Newlines(s) == 0
  {
    if s != [] {
      NoLineBreaks(s[..|s| - 1]);
    }
  }

  lemma EntryHasNoLineBreak(b: Byte)
    ensures forall k :: 0 <= k < |Entry(b)| ==> Entry(b)[k] != '\n'
  {
    var v := b as nat;
    var hi, lo := HEXCHARS[v / 16], HEXCHARS[v % 16];
    assert hi != '\n' && lo != '\n';
    assert Entry(b) == ['0', 'x', hi, lo, ','];
  }

  lemma {:induction false} EntriesHaveNoNewlines(bs: seq<Byte>)
    ensures StripNewlines(Entries(bs)) == Entries(bs) && Newlines(Entries(bs)) == 0
  {
    if bs != [] {
      var n := |bs| - 1;
      EntriesHaveNoNewlines(bs[..n]);
      EntryHasNoLineBreak(bs[n]);
      NoLineBreaks(Entry(bs[n]));
      StripAppend(Entries(bs[..n]), Entry(bs[n]));
    }
  }

  /** Removing the line breaks from `binc`'s text gives every byte's element, in order. */
  lemma {:induction false} BincStripsToEntries(bs: seq<Byte>)
    ensures StripNewlines(BincText(bs)) == Entries(bs)
    decreases |bs|
  {
    EntriesHaveNoNewlines(bs);
    if |bs| >= BYTES_PER_LINE {
      var head := bs[..BYTES_PER_LINE];
      var tail := bs[BYTES_PER_LINE..];
      BincStripsToEntries(tail);
      EntriesHaveNoNewlines(head);
      StripAppend(Entries(head) + "\n", BincText(tail));
      StripAppend(Entries(head), "\n");
      assert StripNewlines("\n") == "" by {
        assert "\n"[..0] == [];
      }
      assert bs == head + tail;
      EntriesAppend(head, tail);
    }
  }

  /** `binc` writes one line break per 24 bytes. */
  lemma {:induction false} BincNewlineCount(bs: seq<Byte>)
    ensures Newlines(BincText(bs)) == |bs| / BYTES_PER_LINE
    decreases |bs|
  {
    EntriesHaveNoNewlines(bs);
    if |bs| >= BYTES_PER_LINE {
      var head := bs[..BYTES_PER_LINE];
      var tail := bs[BYTES_PER_LINE..];
      BincNewlineCount(tail);
      EntriesHaveNoNewlines(head);
      StripAppend(Entries(head) + "\n", BincText(tail));
      StripAppend(Entries(head), "\n");
      assert Newlines("\n") == 1 by {
        assert "\n"[..0] == [];
      }
    }
  }

  /**
   * `binc`: formats every byte of the file, starting a new line whenever
   * the current one has reached `MAX_LINE_LENGTH` characters, and writes
   * the last line without a newline.  When a non-empty depends file name is
   * given it also gets one Make rule, "output: source".
   */
  method Binc(sourceFile: string, outputFile: string, data: seq<Byte>, dependsFile: Option<string>)
    returns (output: string, depends: Option<string>)
    ensures output == BincText(data)
    ensures depends.Some? <==> dependsFile.Some? && |dependsFile.value| > 0
    ensures depends.Some? ==> depends.value == outputFile + ": " + sourceFile + "\n"
  {
    output := "";
    var line := "";
    var i := 0;
    ghost var lineStart := 0;
    ghost var lines := 0;
    while i < |data|
      invariant lineStart <= i <= |data| && lineStart == 24 * lines && i - lineStart < BYTES_PER_LINE
      invariant output == BincText(data[..lineStart])
      invariant line == Entries(data[lineStart..i])
    {
      ExtendLine(data, lineStart, i, line);
      line := line + Entry(data[i]);
      i := i + 1;
      if |line| >= MAX_LINE_LENGTH {
        assert i == lineStart + 24;
        BincLineStep(data, lineStart, lines);
        output := output + line + "\n";
        line := "";
        lineStart := i;
        lines := lines + 1;
      }
    }
    // The source's final `len(line) >= 0` test always passes.
    assert data[lineStart..i] == data[lineStart..];
    BincTail(data, lineStart, lines);
    output := output + line;
    if dependsFile.Some? && |dependsFile.value| > 0 {
      depends := Some(outputFile + ": " + sourceFile + "\n");
    } else {
      depends := None;
    }
  }
}

=== FILE: asset_listing.dfy ===
/**
 * The descriptor list of the asset compiler `gamekitc` and the two files it
 * writes from it: the C++ source that lists every compiled asset as a
 * `ResourceDescriptor` (`write_descriptor`), and the Make dependency file
 * (`write_depends`).  The model produces the text of each file; creating
 * the folder and writing the file are left to the caller.
 */
module AssetListing {
  import opened Primitives
  import opened Utilities

  /** One compiled asset: source path, source path relative to the input folder, output path, output path relative to the output folder, and the source's suffix. */
  datatype AssetDescriptor = AssetDescriptor(source: string, relSource: string, dest: string, relDest: string, suffix: string)

  // ------------------------------------------------------ text transforms

  /** `replace('\\', '/')`. */
  function Slashes(s: string): (r: string)
    ensures |r| == |s|
    ensures forall i :: 0 <= i < |s| ==> r[i] == (if s[i] == '\\' then '/' else s[i])
  {
    if s == [] then [] else Slashes(s[..|s| - 1]) + [if s[|s| - 1] == '\\' then '/' else s[|s| - 1]]
  }

  function LowerChar(c: char): char
  {
    if 'A' <= c <= 'Z' then (c as int + 32) as char else c
  }

  /** `lower()`, on ASCII letters. */
  function Lower(s: string): (r: string)
    ensures |r| == |s|
    ensures forall i :: 0 <= i < |s| ==> r[i] == LowerChar(s[i])
  {
    if s == [] then [] else Lower(s[..|s| - 1]) + [LowerChar(s[|s| - 1])]
  }

  /** The resource name of an asset: its relative source path with forward slashes, in lower case. */
  function ResourceName(relSource: string): string
  {
    Lower(Slashes(relSource))
  }

  lemma SlashesKeepsSlashFree(s: string)
    requires forall i :: 0 <= i < |s| ==> s[i] != '\\'
    ensures Slashes(s) == s
  {
  }

  lemma LowerKeepsLowerCase(s: string)
    requires forall i :: 0 <= i < |s| ==> !('A' <= s[i] <= 'Z')
    ensures Lower(s) == s
  {
  }

  /**
   * Resource names are canonical: no backslash, no upper-case letter, the
   * same length as the path, and naming a name again changes nothing.
   */
  lemma ResourceNameIsCanonical(relSource: string)
    ensures var n := ResourceName(relSource);
      |n| == |relSource|
      && (forall i :: 0 <= i < |n| ==> n[i] != '\\' && !('A' <= n[i] <= 'Z'))
      && ResourceName(n) == n
  {
    var n := ResourceName(relSource);
    SlashesKeepsSlashFree(n);
    LowerKeepsLowerCase(n);
  }

  /** Make's escaping of a space: `replace(' ', '\\ ')`. */
  function Escape(s: string): string
  {
    if s == [] then [] else (if s[0] == ' ' then "\\ " else [s[0]]) + Escape(s[1..])
  }

  /** How Make reads an escaped name back: "\ " is a space, everything else stands for itself. */
  function Unescape(t: string): string
  {
    if |t| >= 2 && t[0] == '\\' && t[1] == ' ' then " " + Unescape(t[2..])
    else if t == [] then []
    else [t[0]] + Unescape(t[1..])
  }

  lemma EscapeStart(s: string)
    requires s != []
    ensures Escape(s) != [] && Escape(s)[0] != ' '
  {
  }

  /** Escaping loses nothing: Make reads every escaped path back as the path. */
  lemma {:induction false} EscapeRoundTrip(s: string)
    ensures Unescape(Escape(s)) == s
  {
    if s != [] {
      var rest := Escape(s[1..]);
      EscapeRoundTrip(s[1..]);
      if s[0] == ' ' {
        assert Escape(s) == "\\ " + rest;
        assert Escape(s)[2..] == rest;
      } else {
        assert Escape(s) == [s[0]] + rest;
        assert Escape(s)[1..] == rest;
        if s[0] == '\\' && s[1..] != [] {
          EscapeStart(s[1..]);
        }
      }
      assert s == [s[0]] + s[1..];
    }
  }

  // ------------------------------------------------------------ suffixes

  /** The resource type `write_descriptor` names for a suffix. */
  function ResourceTypeFor(suffix: string): ResourceType
  {
    if suffix == ".frag" then FragmentShader
    else if suffix == ".vert" then VertexShader
    else if suffix == ".png" then Bitmap
    else if suffix == ".txt" then Text
    else Unknown
  }

  /** The enumerator's name as the generated C++ spells it. */
  function TypeName(t: ResourceType): string
  {
    match t
    case Unknown => "Unknown"
    case Data => "Data"
    case Text => "Text"
    case Bitmap => "Bitmap"
    case VertexShader => "VertexShader"
    case FragmentShader => "FragmentShader"
  }

  /** Shader binaries are arrays of 32-bit words, everything else arrays of bytes. */
  function ElementType(suffix: string): string
  {
    if suffix == ".frag" || suffix == ".vert" then "uint32_t" else "uint8_t"
  }

  /**
   * Exactly the shader types get word arrays; the generic ".shader" suffix,
   * which the compiler does compile as a shader, is typed Unknown; and the
   * generated file never declares a `Data` resource.
   */
  lemma SuffixTypes(suffix: string)
    ensures ElementType(suffix) == "uint32_t" <==> ResourceTypeFor(suffix) in {VertexShader, FragmentShader}
    ensures ResourceTypeFor(".shader") == Unknown
    ensures ResourceTypeFor(suffix) != Data
    ensures ResourceTypeFor(suffix) != Unknown ==> suffix in {".frag", ".vert", ".png", ".txt"}
  {
  }

  // ------------------------------------------------ write_descriptor text

  const DESCRIPTOR_HEADER :=
    "//\n// GENERATED\n//\n\n#include \"gamekit/gamekit.h\"\n\nusing namespace gamekit;\n\n#include <cstdint>\n#include <vector>\n"
  const TABLE_HEADER := "\nstatic const std::vector<gamekit::ResourceDescriptor> descriptors = {\n"
  const DESCRIPTOR_FOOTER :=
    "};\n\nconst std::vector<gamekit::ResourceDescriptor>& getResourceDescriptors() {\n    return descriptors;\n}\n"

  /** The array `data<idx>` that includes one compiled asset. */
  function DataBlock(d: AssetDescriptor, idx: nat): string
  {
    "\n// " + ResourceName(d.relSource) + "\n"
    + "static const " + ElementType(d.suffix) + " data" + NatToString(idx) + "[] = {\n"
    + "    #include <" + Slashes(d.relDest) + ">\n"
    + "};\n"
  }

  /** The table entry for asset number `idx`. */
  function TableEntry(d: AssetDescriptor, idx: nat): string
  {
    var i := NatToString(idx);
    "    { \"" + ResourceName(d.relSource) + "\", static_cast<const void*>(data" + i + "), sizeof(data" + i
    + "), ResourceType::" + TypeName(ResourceTypeFor(d.suffix)) + " }"
  }

  /** Row `idx` of a table of `count` entries: a comma after every entry but the last. */
  function TableRow(entry: string, idx: nat, count: nat): string
  {
    (if idx + 1 < count then entry + "," else entry) + "\n"
  }

  function DataBlocks(ds: seq<AssetDescriptor>): string
  {
    if ds == [] then "" else DataBlocks(ds[..|ds| - 1]) + DataBlock(ds[|ds| - 1], |ds| - 1)
  }

  /** The rows of a table of `count` entries whose first entries are `es`. */
  function TableRows(es: seq<string>, count: nat): string
  {
    if es == [] then "" else TableRows(es[..|es| - 1], count) + TableRow(es[|es| - 1], |es| - 1, count)
  }

  function TableEntries(ds: seq<AssetDescriptor>): (es: seq<string>)
    ensures |es| == |ds|
  {
    seq(|ds|, i requires 0 <= i < |ds| => TableEntry(ds[i], i))
  }

  lemma DataBlocksSnoc(ds: seq<AssetDescriptor>, idx: nat)
    requires idx < |ds|
    ensures DataBlocks(ds[..idx + 1]) == DataBlocks(ds[..idx]) + DataBlock(ds[idx], idx)
  {
    assert ds[..idx + 1][..idx] == ds[..idx];
  }

  lemma TableRowsSnoc(es: seq<string>, idx: nat, count: nat)
    requires idx < |es|
    ensures TableRows(es[..idx + 1], count) == TableRows(es[..idx], count) + TableRow(es[idx], idx, count)
  {
    assert es[..idx + 1][..idx] == es[..idx];
  }

  /** The text `write_descriptor` writes for the descriptor list `ds`. */
  function DescriptorText(ds: seq<AssetDescriptor>): string
  {
    DESCRIPTOR_HEADER + DataBlocks(ds) + TABLE_HEADER + TableRows(TableEntries(ds), |ds|) + DESCRIPTOR_FOOTER
  }

  /** `sep.join(xs)`. */
  function JoinWith(xs: seq<string>, sep: string): string
  {
    if xs == [] then ""
    else if |xs| == 1 then xs[0]
    else JoinWith(xs[..|xs| - 1], sep) + sep + xs[|xs| - 1]
  }

  lemma {:induction false} TableRowsPrefix(es: seq<string>, k: nat)
    requires 1 <= k <= |es|
    ensures TableRows(es[..k], |es|) == JoinWith(es[..k], ",\n") + (if k < |es| then ",\n" else "\n")
  {
    assert es[..k][..k - 1] == es[..k - 1];
    if k == 1 {
      assert es[..0] == [];
    } else {
      TableRowsPrefix(es, k - 1);
    }
  }

  /**
   * The table lists the entries separated by commas, with no comma after
   * the last one, one per line.
   */
  lemma TableIsCommaSeparated(ds: seq<AssetDescriptor>)
    ensures TableRows(TableEntries(ds), |ds|) == (if ds == [] then "" else JoinWith(TableEntries(ds), ",\n") + "\n")
  {
    var es := TableEntries(ds);
    if ds != [] {
      TableRowsPrefix(es, |es|);
      assert es[..|es|] == es;
    }
  }

  // --------------------------------------------------- write_depends text

  /** The first rule: the target depends on every compiled asset. */
  function TargetPrerequisites(ds: seq<AssetDescriptor>): string
  {
    if ds == [] then "" else TargetPrerequisites(ds[..|ds| - 1]) + " " + Escape(ds[|ds| - 1].relDest)
  }

  /** One rule per asset: the compiled file depends on its source. */
  function AssetRules(ds: seq<AssetDescriptor>): string
  {
    if ds == [] then ""
    else AssetRules(ds[..|ds| - 1]) + AssetRule(ds[|ds| - 1])
  }

  function AssetRule(d: AssetDescriptor): string
  {
    Escape(d.relDest) + ": " + Escape(Slashes(d.source)) + "\n"
  }

  /** The text `write_depends` writes: nothing at all for an empty list. */
  function DependsText(ds: seq<AssetDescriptor>, target: string): string
  {
    if ds == [] then ""
    else target + ":" + TargetPrerequisites(ds) + "\n" + AssetRules(ds)
  }

  /** `write_stamp`: the stamp file's fixed content. */
  const STAMP_TEXT := "GENERATED FILE\n"

  /** The first loop of `write_descriptor`: one data array per asset, numbered from 0. */
  method WriteDataBlocks(ds: seq<AssetDescriptor>) returns (blocks: string)
    ensures blocks == DataBlocks(ds)
  {
    blocks := "";
    var idx := 0;
    while idx < |ds|
      invariant idx <= |ds| && blocks == DataBlocks(ds[..idx])
    {
      DataBlocksSnoc(ds, idx);
      blocks := blocks + DataBlock(ds[idx], idx);
      idx := idx + 1;
    }
    assert ds[..idx] == ds;
  }

  /** The second loop of `write_descriptor`: one table row per asset, a comma after all but the last. */
  method WriteTableRows(ds: seq<AssetDescriptor>) returns (rows: string)
    ensures rows == TableRows(TableEntries(ds), |ds|)
  {
    var count := |ds|;
    ghost var es := TableEntries(ds);
    rows := "";
    var idx := 0;
    while idx < count
      invariant idx <= count && rows == TableRows(es[..idx], count)
    {
      TableRowsSnoc(es, idx, count);
      var row := TableEntry(ds[idx], idx);
      if idx < count - 1 {
        row := row + ",";
      }
      rows := rows + (row + "\n");
      idx := idx + 1;
    }
    assert es[..idx] == es;
  }

  /**
   * The descriptor list `add_descriptor` appends to; `write_descriptor` and
   * `write_depends` read it.
   */
  class AssetList {
    var descriptors: seq<AssetDescriptor>

    constructor ()
      ensures descriptors == []
    {
      descriptors := [];
    }

    /** `add_descriptor`. */
    method Add(source: string, relSource: string, dest: string, relDest: string, suffix: string)
      modifies this`descriptors
      ensures descriptors == old(descriptors) + [AssetDescriptor(source, relSource, dest, relDest, suffix)]
    {
      descriptors := descriptors + [AssetDescriptor(source, relSource, dest, relDest, suffix)];
    }

    /** `write_descriptor`: the header, one data array per asset, the table, and the accessor. */
    method WriteDescriptor() returns (text: string)
      ensures text == DescriptorText(descriptors)
    {
      var blocks := WriteDataBlocks(descriptors);
      var rows := WriteTableRows(descriptors);
      text := DESCRIPTOR_HEADER + blocks + TABLE_HEADER + rows + DESCRIPTOR_FOOTER;
    }

    /**
     * `write_depends`: for a non-empty list, "target:" with every escaped
     * relative output path, then one rule per asset.
     */
    method WriteDepends(target: string) returns (text: string)
      ensures text == DependsText(descriptors, target)
    {
      var ds := descriptors;
      text := "";
      if |ds| > 0 {
        var prerequisites := "";
        var i := 0;
        while i < |ds|
          invariant i <= |ds| && prerequisites == TargetPrerequisites(ds[..i])
        {
          assert ds[..i + 1][..i] == ds[..i];
          prerequisites := prerequisites + " " + Escape(ds[i].relDest);
          i := i + 1;
        }
        assert ds[..i] == ds;
        var rules := "";
        i := 0;
        while i < |ds|
          invariant i <= |ds| && rules == AssetRules(ds[..i])
        {
          assert ds[..i + 1][..i] == ds[..i];
          rules := rules + (Escape(ds[i].relDest) + ": " + Escape(Slashes(ds[i].source)) + "\n");
          i := i + 1;
        }
        assert ds[..i] == ds;
        text := target + ":" + prerequisites + "\n" + rules;
      }
    }
  }
}

=== FILE: asset_paths.dfy ===
/**
 * The path side of the asset compiler `gamekitc`: which files it skips,
 * which it compiles as shaders, where the compiled output goes and when it
 * is rebuilt.  Paths are POSIX paths; the file-name operations follow
 * Python's `pathlib` (`name`, `suffix`) and `posixpath` (`join`,
 * `normpath`).  Modification times are parameters.
 */
module AssetPaths {
  import opened Wrappers

  const CMAKE_LISTS := "CMakeLists.txt"
  /** Source-code suffixes that are never compiled as assets. */
  const EXTENSION_FILTER: seq<string> := [".cpp", ".inc", ".c", ".h"]
  const SHADER_EXTENSIONS: seq<string> := [".vert", ".frag", ".shader"]
  /** The suffix of every compiled output file. */
  const OUTPUT_EXTENSION := ".inc"

  // ------------------------------------------------------- split and join

  /** `str.split('/')`: the pieces between slashes, empty ones included. */
  function Split(p: string): (parts: seq<string>)
    ensures |parts| >= 1
  {
    if p == [] then [""]
    else
      var ps := Split(p[..|p| - 1]);
      var c := p[|p| - 1];
      if c == '/' then ps + [""]
      else ps[..|ps| - 1] + [ps[|ps| - 1] + [c]]
  }

  /** No piece contains a slash. */
  lemma {:induction false} SplitHasNoSlash(p: string)
    ensures forall q :: q in Split(p) ==> '/' !in q
  {
    if p != [] {
      var ps := Split(p[..|p| - 1]);
      SplitHasNoSlash(p[..|p| - 1]);
      assert ps[|ps| - 1] in ps;
      assert forall q :: q in ps[..|ps| - 1] ==> q in ps;
    }
  }

  /** `'/'.join(parts)`. */
  function Join(parts: seq<string>): string
  {
    if |parts| == 0 then ""
    else if |parts| == 1 then parts[0]
    else Join(parts[..|parts| - 1]) + "/" + parts[|parts| - 1]
  }

  lemma JoinSnoc(parts: seq<string>, q: string)
    requires |parts| >= 1
    ensures Join(parts + [q]) == Join(parts) + "/" + q
  {
    assert (parts + [q])[..|parts|] == parts;
  }

  /** A slash ends the last piece and starts an empty one. */
  lemma SplitSnocSlash(p: string)
    ensures Split(p + "/") == Split(p) + [""]
  {
    assert (p + "/")[..|p|] == p;
  }

  lemma JoinSplitStep(a: string, c: char)
    requires Join(Split(a)) == a
    ensures Join(Split(a + [c])) == a + [c]
  {
    var ps := Split(a);
    if c == '/' {
      SplitSnocSlash(a);
      JoinSnoc(ps, "");
    } else {
      SplitSnoc(a, c);
      var k := |ps| - 1;
      var last := ps[k] + [c];
      if k > 0 {
        assert ps == ps[..k] + [ps[k]];
        JoinSnoc(ps[..k], ps[k]);
        JoinSnoc(ps[..k], last);
      }
    }
  }

  /** Joining the pieces of a path gives the path back. */
  lemma {:induction false} JoinSplit(p: string)
    ensures Join(Split(p)) == p
  {
    if p != [] {
      var a := p[..|p| - 1];
      JoinSplit(a);
      JoinSplitStep(a, p[|p| - 1]);
      assert a + [p[|p| - 1]] == p;
    }
  }

  /** A piece without slashes splits into itself. */
  lemma {:induction false} SplitPlain(q: string)
    requires '/' !in q
    ensures Split(q) == [q]
  {
    if q != [] {
      var n := |q| - 1;
      assert q[n] in q;
      assert forall c :: c in q[..n] ==> c in q;
      SplitPlain(q[..n]);
      assert q == q[..n] + [q[n]];
    }
  }

  /** A character other than a slash extends the last piece. */
  lemma SplitSnoc(p: string, c: char)
    requires c != '/'
    ensures var ps := Split(p); Split(p + [c]) == ps[..|ps| - 1] + [ps[|ps| - 1] + [c]]
  {
    assert (p + [c])[..|p|] == p;
  }

  /** A slash and a piece without slashes add that piece to the split. */
  lemma {:induction false} SplitAfterSlash(a: string, q: string)
    requires '/' !in q
    ensures Split(a + "/" + q) == Split(a) + [q]
  {
    if q == [] {
      assert a + "/" + q == a + "/";
      assert (a + "/")[..|a|] == a;
    } else {
      var n := |q| - 1;
      NoSlashInPrefix(q, n);
      SplitAfterSlash(a, q[..n]);
      ExtendAfterSlash(a, q[..n], q[n]);
      assert q == q[..n] + [q[n]];
    }
  }

  lemma NoSlashInPrefix(q: string, n: nat)
    requires '/' !in q && n < |q|
    ensures '/' !in q[..n] && q[n] != '/'
  {
    assert q[n] in q;
    assert forall c :: c in q[..n] ==> c in q;
  }

  lemma ExtendAfterSlash(a: string, q: string, c: char)
    requires c != '/' && Split(a + "/" + q) == Split(a) + [q]
    ensures Split(a + "/" + (q + [c])) == Split(a) + [q + [c]]
  {
    var front := a + "/" + q;
    SplitSnoc(front, c);
    var ps := Split(a) + [q];
    assert ps[..|ps| - 1] == Split(a);
    assert a + "/" + (q + [c]) == front + [c];
  }

  /** Splitting a join of slash-free pieces gives the pieces back. */
  lemma {:induction false} SplitJoin(parts: seq<string>)
    requires |parts| >= 1
    requires forall q :: q in parts ==> '/' !in q
    ensures Split(Join(parts)) == parts
  {
    var n := |parts| - 1;
    assert parts[n] in parts;
    if n == 0 {
      SplitPlain(parts[0]);
    } else {
      var init := parts[..n];
      assert forall q :: q in init ==> q in parts;
      SplitJoin(init);
      assert parts == init + [parts[n]];
      JoinSnoc(init, parts[n]);
      SplitAfterSlash(Join(init), parts[n]);
    }
  }

  // ---------------------------------------------------------- components

  /** The pieces that name something: empty pieces and "." dropped. */
  function Clean(parts: seq<string>): (cs: seq<string>)
    ensures forall q :: q in cs ==> q in parts && q != "" && q != "."
  {
    if parts == [] then []
    else
      var q := parts[|parts| - 1];
      var init := Clean(parts[..|parts| - 1]);
      if q == "" || q == "." then init else init + [q]
  }

  /** One path component that is a real name: not empty, ".", ".." or containing a slash. */
  predicate Plain(q: string)
  {
    q != "" && q != "." && q != ".." && '/' !in q
  }

  /** `Path(p).name`: the last component, or "" when there is none. */
  function Name(p: string): (n: string)
    ensures '/' !in n && n != "."
  {
    var cs := Clean(Split(p));
    SplitHasNoSlash(p);
    if cs == [] then "" else (assert cs[|cs| - 1] in cs; cs[|cs| - 1])
  }

  /**
   * `Path(p).suffix`: from the last '.' of the name onwards, provided that
   * dot is neither the name's first nor its last character; otherwise "".
   */
  function Suffix(name: string): (s: string)
  {
    var i := LastDot(name);
    if i.Some? && 0 < i.value < |name| - 1 then name[i.value..] else ""
  }

  /** The position of the last '.' in `s`, if any (`rfind`). */
  function LastDot(s: string): (i: Option<nat>)
    ensures i.Some? ==> i.value < |s| && s[i.value] == '.' && forall j :: i.value < j < |s| ==> s[j] != '.'
    ensures i.None? ==> forall j :: 0 <= j < |s| ==> s[j] != '.'
  {
    if s == [] then None
    else if s[|s| - 1] == '.' then Some(|s| - 1)
    else LastDot(s[..|s| - 1])
  }

  /**
   * A suffix is a non-empty tail of the name that starts with its last
   * dot, and there is one exactly when that last dot is inside the name.
   */
  lemma SuffixIsLastExtension(name: string)
    ensures Suffix(name) != "" <==>
      exists i :: 0 < i < |name| - 1 && name[i] == '.' && forall j :: i < j < |name| ==> name[j] != '.'
    ensures Suffix(name) != "" ==>
      |Suffix(name)| >= 2 && Suffix(name)[0] == '.' && '.' !in Suffix(name)[1..]
      && name == name[..|name| - |Suffix(name)|] + Suffix(name) && |Suffix(name)| < |name|
  {
    var s := Suffix(name);
    if s != "" {
      var i := LastDot(name).value;
      assert forall c :: c in s[1..] ==> exists j :: i < j < |name| && name[j] == c;
    }
  }

  /**
   * The converse: a name made of a non-empty stem and an extension (a dot,
   * then at least one character and no further dot) has that extension as
   * its suffix.
   */
  lemma SuffixOfExtension(stem: string, extension: string)
    requires |stem| > 0 && |extension| >= 2 && extension[0] == '.' && '.' !in extension[1..]
    ensures Suffix(stem + extension) == extension
  {
    var name := stem + extension;
    assert forall j :: |stem| < j < |name| ==> name[j] == extension[1..][j - |stem| - 1];
    assert LastDot(name) == Some(|stem|) by {
      var i := LastDot(name);
      assert name[|stem|] == '.';
      assert i.Some? && i.value >= |stem|;
    }
    assert name[|stem|..] == extension;
  }

  // ------------------------------------------------------------- filters

  /** `is_ignored`: CMake files and source-code files are not assets. */
  predicate IsIgnored(path: string)
  {
    Name(path) == CMAKE_LISTS || Suffix(Name(path)) in EXTENSION_FILTER
  }

  /** `is_shader`: files compiled with the shader compiler. */
  predicate IsShader(path: string)
  {
    Suffix(Name(path)) in SHADER_EXTENSIONS
  }

  /**
   * The two filters agree with their lists: a path is ignored exactly when
   * its name is "CMakeLists.txt" or its suffix is listed, a shader exactly
   * when its suffix is listed, and since no suffix is on both lists a
   * shader is never ignored.
   */
  lemma FiltersAreDisjoint(path: string)
    ensures IsIgnored(path) <==> Name(path) == "CMakeLists.txt" || Suffix(Name(path)) in {".cpp", ".inc", ".c", ".h"}
    ensures IsShader(path) <==> Suffix(Name(path)) in {".vert", ".frag", ".shader"}
    ensures IsShader(path) ==> !IsIgnored(path)
  {
  }

  // ----------------------------------------------------- join and normpath

  /** `posixpath.join(a, b)`. */
  function PathJoin(a: string, b: string): (r: string)
    ensures |b| > 0 && b[0] == '/' ==> r == b
    ensures (|b| == 0 || b[0] != '/') && (a == "" || a[|a| - 1] == '/') ==> r == a + b
    ensures (|b| == 0 || b[0] != '/') && a != "" && a[|a| - 1] != '/' ==> r == a + "/" + b
  {
    if |b| > 0 && b[0] == '/' then b
    else if a == "" || a[|a| - 1] == '/' then a + b
    else a + "/" + b
  }

  /**
   * One step of `normpath` over the components: skip empty and "."; keep
   * ".." when there is nothing to cancel (only on a relative path) or the
   * previous kept component is ".." too; otherwise ".." cancels the
   * previous one, and any other name is kept.
   */
  function NormStep(stack: seq<string>, q: string, absolute: bool): seq<string>
  {
    if q == "" || q == "." then stack
    else if q != ".." || (!absolute && stack == []) || (stack != [] && stack[|stack| - 1] == "..") then stack + [q]
    else if stack != [] then stack[..|stack| - 1]
    else stack
  }

  function NormComponents(parts: seq<string>, absolute: bool): seq<string>
  {
    if parts == [] then []
    else NormStep(NormComponents(parts[..|parts| - 1], absolute), parts[|parts| - 1], absolute)
  }

  /** The leading slashes `normpath` keeps: one, or two when there are exactly two. */
  function LeadingSlashes(p: string): string
  {
    if |p| >= 2 && p[0] == '/' && p[1] == '/' && (|p| == 2 || p[2] != '/') then "//"
    else if |p| >= 1 && p[0] == '/' then "/"
    else ""
  }

  /** `posixpath.normpath`. */
  function NormPath(p: string): (r: string)
    ensures r != ""
  {
    if p == "" then "."
    else
      var lead := LeadingSlashes(p);
      var r := lead + Join(NormComponents(Split(p), lead != ""));
      if r == "" then "." else r
  }

  /**
   * What `normpath` keeps are real names, except that ".." can stay on a
   * relative path, and only in front of all real names.
   */
  lemma {:induction false} NormComponentsAreClean(parts: seq<string>, absolute: bool)
    requires forall q :: q in parts ==> '/' !in q
    ensures CleanStack(NormComponents(parts, absolute), absolute)
  {
    if parts != [] {
      var init := parts[..|parts| - 1];
      var q := parts[|parts| - 1];
      assert forall x :: x in init ==> x in parts;
      assert q in parts;
      NormComponentsAreClean(init, absolute);
      NormStepIsClean(NormComponents(init, absolute), q, absolute);
    }
  }

  /**
   * A stack `normpath` can build: real names, and ".." only on a relative
   * path and only in front of all real names.
   */
  predicate CleanStack(cs: seq<string>, absolute: bool)
  {
    (forall i :: 0 <= i < |cs| ==> cs[i] == ".." || Plain(cs[i]))
    && (absolute ==> forall i :: 0 <= i < |cs| ==> Plain(cs[i]))
    && (forall i, j :: 0 <= i < j < |cs| && cs[j] == ".." ==> cs[i] == "..")
  }

  lemma NormStepIsClean(stack: seq<string>, q: string, absolute: bool)
    requires CleanStack(stack, absolute) && '/' !in q
    ensures CleanStack(NormStep(stack, q, absolute), absolute)
  {
    var r := NormStep(stack, q, absolute);
    if q == "" || q == "." {
    } else if q != ".." || (!absolute && stack == []) || (stack != [] && stack[|stack| - 1] == "..") {
      assert r == stack + [q];
      if q == ".." && stack != [] {
        assert forall i :: 0 <= i < |stack| ==> stack[i] == "..";
      }
    } else if stack != [] {
      assert r == stack[..|stack| - 1];
    }
  }

  /** A real name at the end of a path stays its last component. */
  lemma NormKeepsLastName(parts: seq<string>, absolute: bool, f: string)
    requires Plain(f)
    ensures NormComponents(parts + [f], absolute) == NormComponents(parts, absolute) + [f]
  {
    assert (parts + [f])[..|parts|] == parts;
  }

  lemma CleanSnoc(parts: seq<string>, f: string)
    requires Plain(f)
    ensures Clean(parts + [f]) == Clean(parts) + [f]
  {
    assert (parts + [f])[..|parts|] == parts;
  }

  // ------------------------------------------------------ output file name

  /** `get_output_filename`: the source's name plus `extension`, inside `folder`, normalised. */
  function OutputFilename(source: string, folder: string, extension: string): string
  {
    NormPath(PathJoin(folder, Name(source) + extension))
  }

  /** The split of `lead` + the join of some components ending in a real name ends with that name. */
  lemma SplitEndsWithName(lead: string, cs: seq<string>, f: string)
    requires lead in {"", "/", "//"} && Plain(f)
    ensures var ps := Split(lead + Join(cs + [f])); |ps| >= 1 && ps[|ps| - 1] == f
  {
    var path := lead + Join(cs + [f]);
    var ps := Split(path);
    if cs == [] {
      assert Join(cs + [f]) == f;
      if lead == "" {
        assert path == f;
        SplitPlain(f);
      } else {
        var a := lead[..|lead| - 1];
        assert path == a + "/" + f;
        SplitAfterSlash(a, f);
      }
    } else {
      JoinSnoc(cs, f);
      assert path == (lead + Join(cs)) + "/" + f;
      SplitAfterSlash(lead + Join(cs), f);
    }
  }

  /** A real name as the last piece is the last component. */
  lemma CleanKeepsLast(ps: seq<string>, f: string)
    requires |ps| >= 1 && ps[|ps| - 1] == f && Plain(f)
    ensures Clean(ps) == Clean(ps[..|ps| - 1]) + [f]
  {
  }

  /**
   * Where the output goes keeps the file: when the source's name plus the
   * extension is a real name, that is the output path's name.  With the
   * compiler's ".inc" it always is.
   */
  lemma OutputKeepsName(source: string, folder: string, extension: string)
    requires Plain(Name(source) + extension)
    ensures Name(OutputFilename(source, folder, extension)) == Name(source) + extension
  {
    var f := Name(source) + extension;
    var joined := PathJoin(folder, f);
    var lead := LeadingSlashes(joined);
    var absolute := lead != "";
    var parts := Split(joined);
    JoinedEndsWithName(folder, f);
    var init := parts[..|parts| - 1];
    NormKeepsLastName(init, absolute, f);
    var cs := NormComponents(init, absolute);
    assert OutputFilename(source, folder, extension) == lead + Join(cs + [f]);
    SplitEndsWithName(lead, cs, f);
    CleanKeepsLast(Split(lead + Join(cs + [f])), f);
  }

  /** Joining a real name onto a folder makes it the last piece of the path. */
  lemma JoinedEndsWithName(folder: string, f: string)
    requires Plain(f)
    ensures var parts := Split(PathJoin(folder, f)); parts == parts[..|parts| - 1] + [f]
  {
    var joined := PathJoin(folder, f);
    assert f[0] in f;
    if folder == "" {
      assert joined == f;
      SplitPlain(f);
    } else if folder[|folder| - 1] == '/' {
      var a := folder[..|folder| - 1];
      assert folder == a + "/";
      assert joined == a + "/" + f;
      SplitAfterSlash(a, f);
    } else {
      SplitAfterSlash(folder, f);
    }
  }

  /** Every name plus ".inc" is a real name. */
  lemma IncNamesArePlain(source: string)
    ensures Plain(Name(source) + OUTPUT_EXTENSION)
  {
    var f := Name(source) + OUTPUT_EXTENSION;
    assert f[|f| - 4..] == ".inc";
    assert forall c :: c in f ==> c in Name(source) || c in OUTPUT_EXTENSION;
  }

  // --------------------------------------------------------- needs_update

  /** `needs_update`: the output is missing, or the input is strictly newer. */
  function NeedsUpdate(outputExists: bool, inputTime: real, outputTime: real): (r: bool)
    ensures !outputExists ==> r
    ensures outputExists ==> (r <==> inputTime > outputTime)
  {
    if !outputExists then true
    else inputTime > outputTime
  }
}

=== FILE: buffer.dfy ===
/**
 * `BufferObject` and `Buffer`: Vulkan buffers with their bound device
 * memory, and the kit's vertex, index, uniform and shader-storage buffers
 * built from them.
 *
 * The bytes of a buffer's device memory are a `seq<Byte>`.  Everything the
 * driver answers while a buffer is created (result codes, new handles, the
 * memory-type table and the initial memory contents) is a `BufferDriver`
 * value.  Every handle a buffer object destroys is appended to `released`.
 */
module Buffers {
  import opened Wrappers
  import opened Vk
  import opened Primitives
  import opened Types

  datatype BufferType = UnknownBuffer | VertexBuffer | IndexBuffer | UniformBuffer | ShaderStorageBuffer | StagingBuffer

  // VkBufferUsageFlagBits
  const BUFFER_USAGE_TRANSFER_SRC_BIT: bv32 := 0x1
  const BUFFER_USAGE_TRANSFER_DST_BIT: bv32 := 0x2
  const BUFFER_USAGE_UNIFORM_BUFFER_BIT: bv32 := 0x10
  const BUFFER_USAGE_STORAGE_BUFFER_BIT: bv32 := 0x20
  const BUFFER_USAGE_INDEX_BUFFER_BIT: bv32 := 0x40
  const BUFFER_USAGE_VERTEX_BUFFER_BIT: bv32 := 0x80

  /** The memory kinds the kit asks for: device-local for GPU copies, host-visible and coherent for CPU writes. */
  const DEVICE_MEMORY: bv32 := DEVICE_LOCAL_MEMORY
  const HOST_MEMORY: bv32 := HOST_VISIBLE_MEMORY | HOST_COHERENT_MEMORY

  /**
   * What the driver answers while one buffer object is created; `memorySize`
   * and `memoryTypeBits` are the buffer's memory requirements, which may
   * exceed the size asked for.
   */
  datatype BufferDriver = BufferDriver(
    createResult: VkResult,
    handle: Handle,
    memorySize: nat,
    memoryTypeBits: bv32,
    memoryTypes: seq<bv32>,
    allocResult: VkResult,
    memoryHandle: Handle,
    memoryBytes: seq<Byte>)

  datatype BufferError = BufferCreationFailed(result: VkResult) | MemoryFailed(memory: MemoryError)

  /** The command `bind()` records into the current command buffer. */
  datatype BindCommand = BindVertexBuffers(buffer: Handle, firstBinding: nat, offset: nat) | BindIndexBuffer(buffer: Handle, offset: nat, uint16: bool)

  /** `DeviceMemory::make` succeeds for the kit flags `memoryUsage`: a memory type fits and the allocation succeeds. */
  predicate AllocationSucceeds(d: BufferDriver, memoryUsage: bv32)
    requires |d.memoryTypes| <= MAX_MEMORY_TYPES
  {
    && d.allocResult == Success
    && exists j :: 0 <= j < |d.memoryTypes| && MemoryTypeFits(d.memoryTypes, j, d.memoryTypeBits, PropertyFlags(memoryUsage))
  }

  /** The handles `BufferObject::destroy` frees: none for a null buffer, else its memory (when bound) and then the buffer. */
  function DestroyedHandles(handle: Handle, memoryHandle: Handle): (r: seq<Handle>)
    ensures handle == NULL_HANDLE <==> r == []
    ensures r != [] ==> r[|r| - 1] == handle && NULL_HANDLE !in r
  {
    if handle == NULL_HANDLE then []
    else (if memoryHandle == NULL_HANDLE then [] else [memoryHandle]) + [handle]
  }

  /** `memcpy(dest, src, len)` into the start of `dest`. */
  function Overwrite(dest: seq<Byte>, src: seq<Byte>, len: nat): (r: seq<Byte>)
    requires len <= |src| && len <= |dest|
    ensures |r| == |dest|
    ensures r[..len] == src[..len] && r[len..] == dest[len..]
  {
    src[..len] + dest[len..]
  }

  class BufferObject {
    var bufferType: BufferType
    var size: nat
    var handle: Handle
    /** `bufferInfo.usage` the buffer was created with. */
    var usage: bv32
    var memory: DeviceMemory
    /** The contents of the bound memory; empty when none is bound. */
    var data: seq<Byte>
    /** Every handle this object has destroyed (its memory, then the buffer), oldest first. */
    var released: seq<Handle>

    /** Memory is only ever bound to a live buffer. */
    predicate Valid()
      reads this`handle, this`memory, this`data
    {
      handle == NULL_HANDLE ==> memory == NO_MEMORY && data == []
    }

    /** `BufferObject()`: type Unknown, size 0, null handle, no memory. */
    constructor ()
      ensures Valid()
      ensures bufferType == UnknownBuffer && size == 0 && handle == NULL_HANDLE
      ensures memory == NO_MEMORY && data == [] && released == []
    {
      bufferType := UnknownBuffer;
      size := 0;
      handle := NULL_HANDLE;
      usage := 0;
      memory := NO_MEMORY;
      data := [];
      released := [];
    }

    /** The state `destroy()` leaves behind, given the handles and release record it started from. */
    predicate DestroyedFrom(oldHandle: Handle, oldMemoryHandle: Handle, oldReleased: seq<Handle>)
      reads this`handle, this`size, this`released
    {
      && handle == NULL_HANDLE
      && (oldHandle != NULL_HANDLE ==> size == 0)
      && released == oldReleased + DestroyedHandles(oldHandle, oldMemoryHandle)
    }

    /**
     * `destroy()`: nothing on a null handle; otherwise frees the memory and
     * the buffer, nulls the handle and sets the size to 0.
     */
    method Destroy()
      modifies this`memory, this`data, this`handle, this`size, this`released
      ensures old(Valid()) ==> Valid()
      ensures old(handle) == NULL_HANDLE ==> memory == old(memory) && data == old(data) && size == old(size) && released == old(released)
      ensures old(handle) != NULL_HANDLE ==>
        && memory == NO_MEMORY && data == [] && size == 0
      ensures released == old(released) + DestroyedHandles(old(handle), old(memory.handle))
      ensures handle == NULL_HANDLE
    {
      if handle == NULL_HANDLE {
        return;
      }
      if memory.handle != NULL_HANDLE {
        released := released + [memory.handle];
      }
      memory := NO_MEMORY;
      data := [];
      released := released + [handle];
      handle := NULL_HANDLE;
      size := 0;
    }

    /**
     * `create(type, size, usage, memoryUsage)`: destroys any previous buffer,
     * records type and size, creates the buffer and, when `memoryUsage` asks
     * for any memory, allocates it (`DeviceMemory::make`) and binds it.
     */
    method Create(bufferType: BufferType, size: nat, bufferUsage: bv32, memoryUsage: bv32, d: BufferDriver)
      returns (err: Option<BufferError>)
      requires Valid()
      requires |d.memoryTypes| <= MAX_MEMORY_TYPES
      requires d.handle != NULL_HANDLE
      modifies this`bufferType, this`size, this`handle, this`usage, this`memory, this`data, this`released
      ensures Valid()
      ensures released == old(released) + DestroyedHandles(old(handle), old(memory.handle))
      ensures this.bufferType == bufferType && this.size == size
      ensures d.createResult != Success ==> err == Some(BufferCreationFailed(d.createResult)) && handle == NULL_HANDLE
      ensures d.createResult == Success ==> handle == d.handle && usage == bufferUsage
      ensures d.createResult == Success && memoryUsage == 0 ==> err.None? && memory == NO_MEMORY && data == []
      ensures d.createResult == Success && memoryUsage != 0 ==>
        && (err.None? <==> AllocationSucceeds(d, memoryUsage))
        && (err.Some? ==> err.value.MemoryFailed? && memory == NO_MEMORY && data == [])
        && (err.None? ==>
              && memory.handle == d.memoryHandle && memory.size == d.memorySize
              && memory.typeFilter == d.memoryTypeBits && memory.flags == memoryUsage
              && data == d.memoryBytes)
    {
      Destroy();
      this.bufferType := bufferType;
      this.size := size;
      if d.createResult != Success {
        return Some(BufferCreationFailed(d.createResult));
      }
      handle := d.handle;
      usage := bufferUsage;
      if memoryUsage != 0 {
        var m := MakeDeviceMemory(d.memorySize, d.memoryTypeBits, memoryUsage, d.memoryTypes, d.allocResult, d.memoryHandle);
        if m.Err? {
          return Some(MemoryFailed(m.error));
        }
        memory := m.value;
        data := d.memoryBytes;
      }
      return None;
    }

    /**
     * `BufferObject(BufferObject&&)`: takes type, size, handle and memory
     * and leaves the source with type Unknown, size 0, a null handle and no
     * memory.
     */
    constructor MoveFrom(src: BufferObject)
      requires src.Valid()
      modifies src`bufferType, src`size, src`handle, src`memory, src`data
      ensures Valid() && src.Valid()
      ensures bufferType == old(src.bufferType) && size == old(src.size) && handle == old(src.handle)
      ensures memory == old(src.memory) && data == old(src.data) && released == []
      ensures src.bufferType == UnknownBuffer && src.size == 0 && src.handle == NULL_HANDLE
      ensures src.memory == NO_MEMORY && src.data == []
    {
      bufferType := src.bufferType;
      size := src.size;
      handle := src.handle;
      usage := src.usage;
      memory := src.memory;
      data := src.data;
      released := [];
      src.bufferType := UnknownBuffer;
      src.size := 0;
      src.handle := NULL_HANDLE;
      src.memory := NO_MEMORY;
      src.data := [];
    }

    /** `operator=(BufferObject&&)`: a no-op on itself; otherwise destroys its own buffer, then moves. */
    method MoveAssign(src: BufferObject)
      requires Valid() && src.Valid()
      modifies this, src`bufferType, src`size, src`handle, src`memory, src`data
      ensures Valid() && src.Valid()
      ensures src == this ==>
        && bufferType == old(bufferType) && size == old(size) && handle == old(handle)
        && memory == old(memory) && data == old(data) && released == old(released)
      ensures src != this ==>
        && bufferType == old(src.bufferType) && size == old(src.size) && handle == old(src.handle)
        && memory == old(src.memory) && data == old(src.data)
        && src.bufferType == UnknownBuffer && src.size == 0 && src.handle == NULL_HANDLE
        && src.memory == NO_MEMORY && src.data == []
        && released == old(released) + DestroyedHandles(old(handle), old(memory.handle))
    {
      if src == this {
        return;
      }
      Destroy();
      bufferType := src.bufferType;
      size := src.size;
      handle := src.handle;
      usage := src.usage;
      memory := src.memory;
      data := src.data;
      src.bufferType := UnknownBuffer;
      src.size := 0;
      src.handle := NULL_HANDLE;
      src.memory := NO_MEMORY;
      src.data := [];
    }

    /**
     * `bind()`: vertex buffers bind at binding 0, offset 0; index buffers at
     * offset 0 with 16-bit indices; every other type, and a null handle,
     * records nothing.
     */
    function Bind(): (c: Option<BindCommand>)
      reads this`handle, this`bufferType
      ensures c.Some? <==> handle != NULL_HANDLE && (bufferType == VertexBuffer || bufferType == IndexBuffer)
      ensures c.Some? && bufferType == VertexBuffer ==> c.value == BindVertexBuffers(handle, 0, 0)
      ensures c.Some? && bufferType == IndexBuffer ==> c.value == BindIndexBuffer(handle, 0, true)
    {
      if handle == NULL_HANDLE then None
      else match bufferType
        case VertexBuffer => Some(BindVertexBuffers(handle, 0, 0))
        case IndexBuffer => Some(BindIndexBuffer(handle, 0, true))
        case _ => None
    }

    /** `copy(sourcePtr, len)`: maps the whole buffer, copies `len` bytes to its start, unmaps. */
    method CopyFromHost(src: seq<Byte>, len: nat)
      requires Valid()
      requires len <= |src| && len <= size <= |data|
      modifies this`data
      ensures Valid()
      ensures data == Overwrite(old(data), src, len)
    {
      data := Overwrite(data, src, len);
    }

    /**
     * `copy(const BufferObject& src, len)`: nothing when the source handle is
     * null; otherwise a one-time command buffer copies the source's first
     * `src.size` bytes -- its whole size, whatever `len` says -- to the start
     * of this buffer and waits for the queue.
     */
    method CopyFromBuffer(src: BufferObject, len: nat)
      requires Valid()
      requires src.size <= |src.data| && src.size <= |data|
      modifies this`data
      ensures Valid()
      ensures src.handle == NULL_HANDLE ==> data == old(data)
      ensures src.handle != NULL_HANDLE ==> data == Overwrite(old(data), old(src.data), src.size)
    {
      if src.handle == NULL_HANDLE {
        return;
      }
      data := Overwrite(data, src.data, src.size);
    }
  }

  /** `BufferObject::make`: a new object, then `create`. */
  method MakeBufferObject(bufferType: BufferType, size: nat, bufferUsage: bv32, memoryUsage: bv32, d: BufferDriver)
    returns (o: BufferObject, err: Option<BufferError>)
    requires |d.memoryTypes| <= MAX_MEMORY_TYPES && d.handle != NULL_HANDLE
    ensures fresh(o) && o.Valid()
    ensures o.bufferType == bufferType && o.size == size && o.released == []
    ensures err.None? <==> (d.createResult == Success && (memoryUsage == 0 || AllocationSucceeds(d, memoryUsage)))
    ensures err.None? ==> o.handle == d.handle && o.usage == bufferUsage && o.memory.flags == (if memoryUsage == 0 then 0 else memoryUsage)
    ensures err.None? && memoryUsage != 0 ==> o.data == d.memoryBytes && o.memory.size == d.memorySize
  {
    o := new BufferObject();
    err := o.Create(bufferType, size, bufferUsage, memoryUsage, d);
  }

  class Buffer {
    var binding: nat
    var bufferType: BufferType
    var flags: nat
    var size: nat
    var bufferObjects: seq<BufferObject>
    var descriptorSetLayout: Handle

    /** No buffer object occurs twice, so writing one leaves the others alone. */
    ghost predicate Valid()
      reads this`bufferObjects, bufferObjects
    {
      && (forall i, j :: 0 <= i < j < |bufferObjects| ==> bufferObjects[i] != bufferObjects[j])
      && (forall i :: 0 <= i < |bufferObjects| ==> bufferObjects[i].Valid())
    }

    /** `Buffer()` followed by `create(binding, type, size)`, as every `make` does. */
    constructor (binding: nat, bufferType: BufferType, size: nat)
      ensures Valid()
      ensures this.binding == binding && this.bufferType == bufferType && this.size == size
      ensures flags == 0 && bufferObjects == [] && descriptorSetLayout == NULL_HANDLE
    {
      this.binding := binding;
      this.bufferType := bufferType;
      flags := 0;
      this.size := size;
      bufferObjects := [];
      descriptorSetLayout := NULL_HANDLE;
    }

    /** `bufferObjects_.emplace_back(BufferObject::make(...))`. */
    method AddObject(bufferType: BufferType, size: nat, bufferUsage: bv32, memoryUsage: bv32, d: BufferDriver)
      returns (err: Option<BufferError>)
      requires Valid()
      requires |d.memoryTypes| <= MAX_MEMORY_TYPES && d.handle != NULL_HANDLE
      modifies this`bufferObjects
      ensures Valid()
      ensures err.Some? ==> bufferObjects == old(bufferObjects)
      ensures err.None? <==> (d.createResult == Success && (memoryUsage == 0 || AllocationSucceeds(d, memoryUsage)))
      ensures err.None? ==>
        && |bufferObjects| == |old(bufferObjects)| + 1
        && bufferObjects[..|old(bufferObjects)|] == old(bufferObjects)
        && var o := bufferObjects[|old(bufferObjects)|];
           fresh(o) && o.bufferType == bufferType && o.size == size && o.handle == d.handle && o.usage == bufferUsage
           && (memoryUsage != 0 ==> o.data == d.memoryBytes && o.memory.flags == memoryUsage)
    {
      var o, e := MakeBufferObject(bufferType, size, bufferUsage, memoryUsage, d);
      if e.Some? {
        return e;
      }
      bufferObjects := bufferObjects + [o];
      return None;
    }

    /**
     * `destroy()` (and `free()`): nothing without a global device; otherwise
     * destroys every buffer object, empties the list, destroys the
     * descriptor-set layout if there is one and sets the size to 0.
     */
    method Destroy(deviceExists: bool)
      requires Valid()
      modifies this`bufferObjects, this`descriptorSetLayout, this`size
      modifies set o | o in bufferObjects
      ensures !deviceExists ==> bufferObjects == old(bufferObjects) && descriptorSetLayout == old(descriptorSetLayout) && size == old(size)
      ensures deviceExists ==>
        && bufferObjects == [] && descriptorSetLayout == NULL_HANDLE && size == 0
        && forall o :: o in old(bufferObjects) ==> o.handle == NULL_HANDLE && (old(o.handle) != NULL_HANDLE ==> o.size == 0)
      ensures deviceExists ==>
        forall o :: o in old(bufferObjects) ==> o.released == old(o.released) + DestroyedHandles(old(o.handle), old(o.memory.handle))
      ensures forall o :: o in old(bufferObjects) ==> o.Valid()
    {
      if !deviceExists {
        return;
      }
      DestroyObjects();
      forall o | o in old(bufferObjects)
        ensures o.DestroyedFrom(old(o.handle), old(o.memory.handle), old(o.released)) && o.Valid()
      {
        var j :| 0 <= j < |bufferObjects| && bufferObjects[j] == o;
      }
      bufferObjects := [];
      descriptorSetLayout := NULL_HANDLE;
      size := 0;
    }

    /** The loop of `destroy()`: every buffer object is destroyed, in list order. */
    method DestroyObjects()
      requires Valid()
      modifies set o | o in bufferObjects
      ensures Valid()
      ensures forall j :: 0 <= j < |bufferObjects| ==>
        bufferObjects[j].DestroyedFrom(old(bufferObjects[j].handle), old(bufferObjects[j].memory.handle), old(bufferObjects[j].released))
    {
      var i := 0;
      while i < |bufferObjects|
        invariant 0 <= i <= |bufferObjects|
        invariant Valid()
        invariant forall j :: 0 <= j < i ==>
          bufferObjects[j].DestroyedFrom(old(bufferObjects[j].handle), old(bufferObjects[j].memory.handle), old(bufferObjects[j].released))
        invariant forall j :: i <= j < |bufferObjects| ==> unchanged(bufferObjects[j])
      {
        bufferObjects[i].Destroy();
        i := i + 1;
      }
    }

    /** `Buffer(Buffer&&)`: takes every field and leaves the source reset. */
    constructor MoveFrom(src: Buffer)
      requires src.Valid()
      modifies src
      ensures Valid() && src.Valid()
      ensures binding == old(src.binding) && bufferType == old(src.bufferType) && flags == old(src.flags)
      ensures size == old(src.size) && bufferObjects == old(src.bufferObjects) && descriptorSetLayout == old(src.descriptorSetLayout)
      ensures src.binding == 0 && src.bufferType == UnknownBuffer && src.flags == 0 && src.size == 0
      ensures src.bufferObjects == [] && src.descriptorSetLayout == NULL_HANDLE
    {
      binding := src.binding;
      bufferType := src.bufferType;
      flags := src.flags;
      size := src.size;
      bufferObjects := src.bufferObjects;
      descriptorSetLayout := src.descriptorSetLayout;
      new;
      src.binding := 0;
      src.bufferType := UnknownBuffer;
      src.flags := 0;
      src.size := 0;
      src.bufferObjects := [];
      src.descriptorSetLayout := NULL_HANDLE;
    }

    /** `operator=(Buffer&&)`: a no-op on itself; otherwise frees its own objects (with a device), then moves. */
    method MoveAssign(src: Buffer, deviceExists: bool)
      requires Valid() && src.Valid()
      modifies this, src, set o | o in bufferObjects
      ensures Valid()
      ensures src == this ==>
        && binding == old(binding) && bufferType == old(bufferType) && flags == old(flags) && size == old(size)
        && bufferObjects == old(bufferObjects) && descriptorSetLayout == old(descriptorSetLayout)
        && forall o :: o in old(bufferObjects) ==> o.handle == old(o.handle) && o.data == old(o.data)
      ensures src != this ==>
        && binding == old(src.binding) && bufferType == old(src.bufferType) && flags == old(src.flags)
        && size == old(src.size) && bufferObjects == old(src.bufferObjects) && descriptorSetLayout == old(src.descriptorSetLayout)
        && src.binding == 0 && src.bufferType == UnknownBuffer && src.flags == 0 && src.size == 0
        && src.bufferObjects == [] && src.descriptorSetLayout == NULL_HANDLE
      ensures src != this && deviceExists ==> forall o :: o in old(bufferObjects) ==> o.handle == NULL_HANDLE
    {
      if src == this {
        return;
      }
      Destroy(deviceExists);
      assert forall k :: 0 <= k < |src.bufferObjects| ==> src.bufferObjects[k].Valid();
      binding := src.binding;
      bufferType := src.bufferType;
      flags := src.flags;
      size := src.size;
      bufferObjects := src.bufferObjects;
      descriptorSetLayout := src.descriptorSetLayout;
      src.binding := 0;
      src.bufferType := UnknownBuffer;
      src.flags := 0;
      src.size := 0;
      src.bufferObjects := [];
      src.descriptorSetLayout := NULL_HANDLE;
    }

    /**
     * `VertexBuffer::copy(src, len)` and `IndexBuffer::copy(src)`: `len`
     * bytes into the staging object [1], then the staging object into the
     * device object [0] -- the device copy always moves the whole staging
     * size, so bytes past `len` come from whatever the staging buffer held.
     */
    method CopyStaged(src: seq<Byte>, len: nat)
      requires Valid() && |bufferObjects| >= 2
      requires len <= |src| && len <= bufferObjects[1].size <= |bufferObjects[1].data|
      requires bufferObjects[1].size <= |bufferObjects[0].data|
      modifies set o | o in bufferObjects[..2] :: o`data
      ensures var staging, device := bufferObjects[1], bufferObjects[0];
        && staging.data == Overwrite(old(staging.data), src, len)
        && device.data == if staging.handle == NULL_HANDLE then old(device.data)
                          else Overwrite(old(device.data), staging.data, staging.size)
    {
      var device, staging := bufferObjects[0], bufferObjects[1];
      assert device in bufferObjects[..2] && staging in bufferObjects[..2];
      staging.CopyFromHost(src, len);
      device.CopyFromBuffer(staging, len);
    }

    /**
     * `UniformBuffer::copy` / `ShaderStorageBuffer::copy`: the whole object of
     * the current frame is overwritten from `src`; the other frames' objects
     * keep their bytes.
     */
    method CopyFrame(frameIndex: nat, src: seq<Byte>)
      requires Valid() && frameIndex < |bufferObjects|
      requires bufferObjects[frameIndex].size <= |src| && bufferObjects[frameIndex].size <= |bufferObjects[frameIndex].data|
      modifies set o | o in bufferObjects[frameIndex..][..1] :: o`data
      ensures var o := bufferObjects[frameIndex];
        o.data == Overwrite(old(o.data), src, o.size)
      ensures forall j :: 0 <= j < |bufferObjects| && j != frameIndex ==> bufferObjects[j].data == old(bufferObjects[j].data)
    {
      var o := bufferObjects[frameIndex];
      assert o in bufferObjects[frameIndex..][..1];
      o.CopyFromHost(src, o.size);
    }

    /**
     * `VertexBuffer::bind` / `IndexBuffer::bind` bind object [0]; uniform and
     * storage buffers hand the current frame's object to `BufferObject::bind`,
     * which binds only vertex and index objects, so for them nothing is
     * recorded.
     */
    function Bind(frameIndex: nat): (c: Option<BindCommand>)
      requires |bufferObjects| >= 1
      requires (bufferType == UniformBuffer || bufferType == ShaderStorageBuffer) ==> frameIndex < |bufferObjects|
      reads this, bufferObjects
      ensures bufferType != UniformBuffer && bufferType != ShaderStorageBuffer ==> c == bufferObjects[0].Bind()
      ensures bufferType == UniformBuffer || bufferType == ShaderStorageBuffer ==> c == bufferObjects[frameIndex].Bind()
      ensures (bufferType == UniformBuffer || bufferType == ShaderStorageBuffer) && bufferObjects[frameIndex].bufferType == bufferType ==> c.None?
    {
      if bufferType == UniformBuffer || bufferType == ShaderStorageBuffer then bufferObjects[frameIndex].Bind()
      else bufferObjects[0].Bind()
    }
  }

  /** The buffer usage of the device-local object of a vertex or index buffer. */
  function DeviceUsage(bufferType: BufferType): bv32
  {
    (if bufferType == VertexBuffer then BUFFER_USAGE_VERTEX_BUFFER_BIT else BUFFER_USAGE_INDEX_BUFFER_BIT) | BUFFER_USAGE_TRANSFER_DST_BIT
  }

  /**
   * `VertexBuffer::make(size)` / `IndexBuffer::make(size)`: binding 0 and
   * exactly two objects of `size` bytes -- [0] device-local, the copy
   * destination, and [1] the host-visible, coherent staging object.
   */
  method MakeStagedBuffer(bufferType: BufferType, size: nat, deviceDriver: BufferDriver, stagingDriver: BufferDriver)
    returns (b: Buffer, err: Option<BufferError>)
    requires bufferType == VertexBuffer || bufferType == IndexBuffer
    requires |deviceDriver.memoryTypes| <= MAX_MEMORY_TYPES && deviceDriver.handle != NULL_HANDLE
    requires |stagingDriver.memoryTypes| <= MAX_MEMORY_TYPES && stagingDriver.handle != NULL_HANDLE
    ensures fresh(b) && b.Valid()
    ensures b.binding == 0 && b.bufferType == bufferType && b.size == size
    ensures err.None? <==>
      && deviceDriver.createResult == Success && AllocationSucceeds(deviceDriver, DEVICE_MEMORY)
      && stagingDriver.createResult == Success && AllocationSucceeds(stagingDriver, HOST_MEMORY)
    ensures err.None? ==>
      && |b.bufferObjects| == 2
      && fresh(b.bufferObjects[0]) && fresh(b.bufferObjects[1])
      && b.bufferObjects[0].bufferType == bufferType && b.bufferObjects[0].size == size
      && b.bufferObjects[0].usage == DeviceUsage(bufferType) && b.bufferObjects[0].memory.flags == DEVICE_MEMORY
      && b.bufferObjects[1].bufferType == StagingBuffer && b.bufferObjects[1].size == size
      && b.bufferObjects[1].usage == BUFFER_USAGE_TRANSFER_SRC_BIT && b.bufferObjects[1].memory.flags == HOST_MEMORY
  {
    b := new Buffer(0, bufferType, size);
    err := b.AddObject(bufferType, size, DeviceUsage(bufferType), DEVICE_MEMORY, deviceDriver);
    if err.Some? {
      return;
    }
    err := b.AddObject(StagingBuffer, size, BUFFER_USAGE_TRANSFER_SRC_BIT, HOST_MEMORY, stagingDriver);
  }

  /** The buffer usage of a per-frame uniform or storage object. */
  function FrameUsage(bufferType: BufferType): bv32
  {
    (if bufferType == UniformBuffer then BUFFER_USAGE_UNIFORM_BUFFER_BIT else BUFFER_USAGE_STORAGE_BUFFER_BIT) | BUFFER_USAGE_TRANSFER_SRC_BIT
  }

  /**
   * `UniformBuffer::allocFrameBuffer` / `ShaderStorageBuffer::allocFrameBuffer`:
   * appends one host-visible, coherent object of the buffer's size.
   * (`make` itself creates no objects: it is the constructor.)
   */
  method AllocFrameBuffer(b: Buffer, d: BufferDriver) returns (err: Option<BufferError>)
    requires b.Valid() && (b.bufferType == UniformBuffer || b.bufferType == ShaderStorageBuffer)
    requires |d.memoryTypes| <= MAX_MEMORY_TYPES && d.handle != NULL_HANDLE
    modifies b`bufferObjects
    ensures b.Valid()
    ensures err.Some? ==> b.bufferObjects == old(b.bufferObjects)
    ensures err.None? <==> d.createResult == Success && AllocationSucceeds(d, HOST_MEMORY)
    ensures err.None? ==>
      && |b.bufferObjects| == |old(b.bufferObjects)| + 1
      && b.bufferObjects[..|old(b.bufferObjects)|] == old(b.bufferObjects)
      && var o := b.bufferObjects[|old(b.bufferObjects)|];
         o.bufferType == b.bufferType && o.size == b.size && o.usage == FrameUsage(b.bufferType) && o.memory.flags == HOST_MEMORY
  {
    err := b.AddObject(b.bufferType, b.size, FrameUsage(b.bufferType), HOST_MEMORY, d);
  }

  /** Destroying a buffer object twice destroys its handles once: the second call changes nothing. */
  method DestroyTwice(o: BufferObject) returns (first: seq<Handle>, second: seq<Handle>)
    modifies o`memory, o`data, o`handle, o`size, o`released
    ensures first == DestroyedHandles(old(o.handle), old(o.memory.handle))
    ensures second == []
  {
    var before := o.released;
    o.Destroy();
    first := o.released[|before|..];
    var middle := o.released;
    o.Destroy();
    second := o.released[|middle|..];
  }
}

=== FILE: device.dfy ===
/**
 * `Device`: the renderer's state machine.  It owns the swapchain with its
 * image views, depth buffer and framebuffers, the ring of frames in flight,
 * and the list of registered materials.
 *
 * Everything the driver or the window system answers is an input: a
 * `SurfaceState` for the (re)build of the swapchain, result codes for
 * acquire, recording, submit and present, and the window state.  New
 * driver objects get fresh non-null handles from a counter.  What the
 * device asks of the driver is recorded: the number of idle waits, the
 * compile/destroy calls into materials, and the per-frame operations
 * (acquire, command-buffer recording, submit, present) in order.
 */
module Device {
  import opened Wrappers
  import opened Vk
  import opened Types
  import opened DeviceSetup
  import Frame

  /** `MAX_FRAMES`: frames in flight. */
  const MAX_FRAMES: nat := 2

  datatype Framebuffer = Framebuffer(handle: Handle, renderPass: Handle, colorView: Handle, depthView: Handle, width: nat, height: nat)

  /**
   * `SwapChainInfo`.  `createInfo` is the create-info the swapchain was
   * last requested with.
   */
  datatype SwapChainInfo = SwapChainInfo(
    handle: Handle,
    createInfo: SwapchainCreateInfo,
    format: Format,
    extent: Extent,
    images: seq<Handle>,
    imageViews: seq<ImageView>,
    depthImage: Handle,
    depthView: Option<ImageView>)

  const NO_SWAPCHAIN: SwapChainInfo := SwapChainInfo(
    NULL_HANDLE,
    SwapchainCreateInfo(0, SurfaceFormat(Undefined, SRGB_NONLINEAR), Extent(0, 0), Sharing(Exclusive, []), Fifo),
    Undefined, Extent(0, 0), [], [], NULL_HANDLE, None)

  /** What the driver answers while the swapchain is (re)built. */
  datatype SurfaceState = SurfaceState(
    caps: SurfaceCapabilities,
    swapchainResult: VkResult,
    swapchainImageCount: nat,
    depthFeatures: Format -> bv32)

  datatype DeviceError =
    | SetupFailed(setup: SetupError)
    | SwapchainCreationFailed(result: VkResult)
    | NoSwapchainImages
    | AcquireFailed(result: VkResult)
    | BeginRecordingFailed(result: VkResult)
    | EndRecordingFailed(result: VkResult)
    | SubmitFailed(result: VkResult)
    | PresentFailed(result: VkResult)

  datatype MaterialCall = CompileMaterial(material: nat) | DestroyMaterial(material: nat)

  datatype FrameOp =
    | AcquireImage(frame: nat)
    | ResetCommandBuffer(frame: nat)
    | BeginCommandBuffer(frame: nat)
    | BeginRenderPass(frame: nat, framebuffer: nat)
    | BindMaterial(material: nat)
    | SetViewport(extent: Extent)
    | SetScissor(extent: Extent)
    | EndRenderPass(frame: nat)
    | EndCommandBuffer(frame: nat)
    | Submit(frame: nat)
    | Present(imageIndex: nat)

  // ------------------------------------------------------ specification

  /** Whether no depth candidate can be used. */
  predicate NoUsableDepthFormat(depthFeatures: Format -> bv32)
  {
    forall j :: 0 <= j < |DEPTH_FORMAT_CANDIDATES| ==> !SupportsDepthAttachment(depthFeatures, DEPTH_FORMAT_CANDIDATES[j])
  }

  /**
   * Whether rebuilding the swapchain for an unminimized window raises, for
   * the causes the model covers: the swapchain result, no images, or no
   * depth format.  Image, view, render-pass, framebuffer and frame creation,
   * and the compile of each registered material, are taken to succeed.
   */
  predicate RebuildFails(surf: SurfaceState)
  {
    surf.swapchainResult != Success || surf.swapchainImageCount == 0 || NoUsableDepthFormat(surf.depthFeatures)
  }

  /** The error a failing rebuild raises: the first step that fails. */
  function RebuildError(surf: SurfaceState): DeviceError
  {
    if surf.swapchainResult != Success then SwapchainCreationFailed(surf.swapchainResult)
    else if surf.swapchainImageCount == 0 then NoSwapchainImages
    else SetupFailed(DeviceSetup.NoDepthFormat)
  }

  /** Acquire results `beginDraw` goes on with (OUT_OF_DATE after a rebuild). */
  predicate AcquireHandled(r: VkResult)
  {
    r == Success || r == Suboptimal || r == ErrorOutOfDate
  }

  /** Present results that make `endDraw` rebuild the swapchain. */
  predicate PresentNeedsRebuild(r: VkResult)
  {
    r == ErrorOutOfDate || r == Suboptimal
  }

  /**
   * Whether `beginDraw` goes through to recording: the acquire is handled,
   * an OUT_OF_DATE acquire's rebuild does not fail, and recording begins.
   * The fence wait's answer is ignored, and the material bind is taken to
   * succeed.
   */
  predicate BeginDrawSucceeds(window: WindowState, surf: SurfaceState, acquireResult: VkResult, beginResult: VkResult)
  {
    && AcquireHandled(acquireResult)
    && !(acquireResult == ErrorOutOfDate && !window.minimized && RebuildFails(surf))
    && beginResult == Success
  }

  /**
   * Whether `endDraw` completes: recording ends, the submit succeeds, and
   * the present succeeds or asks for a rebuild that does not fail.
   */
  predicate EndDrawSucceeds(window: WindowState, surf: SurfaceState, endResult: VkResult, submitResult: VkResult, presentResult: VkResult)
  {
    && endResult == Success
    && submitResult == Success
    && (presentResult == Success || (PresentNeedsRebuild(presentResult) && (window.minimized || !RebuildFails(surf))))
  }

  /** The swapchain state after `destroyDepthBuffer`, `destroyImageViews` and `destroySwapChain`. */
  function TearDown(s: SwapChainInfo): (t: SwapChainInfo)
    ensures t.handle == NULL_HANDLE && t.images == [] && t.imageViews == []
    ensures t.depthImage == NULL_HANDLE && t.depthView.None?
    ensures t.createInfo == s.createInfo && t.format == s.format && t.extent == s.extent
  {
    s.(handle := NULL_HANDLE, images := [], imageViews := [], depthImage := NULL_HANDLE, depthView := None)
  }

  /** `v` is the colour view of swapchain image `image`. */
  predicate SwapchainView(v: ImageView, image: Handle, format: Format)
  {
    v.handle != NULL_HANDLE && v.image == image && v.imageType == PixelBuffer
    && v.format == format && v.aspect == IMAGE_ASPECT_COLOR_BIT
  }

  /** A depth image and its depth view in the preferred depth format. */
  predicate DepthBufferReady(s: SwapChainInfo, depthFeatures: Format -> bv32)
  {
    && s.depthImage != NULL_HANDLE
    && s.depthView.Some?
    && s.depthView.value.handle != NULL_HANDLE
    && s.depthView.value.image == s.depthImage
    && s.depthView.value.imageType == DepthBuffer
    && s.depthView.value.aspect == IMAGE_ASPECT_DEPTH_BIT
    && PreferredDepthFormat(depthFeatures, s.depthView.value.format)
  }

  function DepthViewHandle(s: SwapChainInfo): Handle
  {
    if s.depthView.Some? then s.depthView.value.handle else NULL_HANDLE
  }

  /** One framebuffer per swapchain image view, each with the render pass, the depth view and the swapchain extent. */
  predicate FrameBuffersMatch(fbs: seq<Framebuffer>, s: SwapChainInfo, renderPass: Handle)
  {
    |fbs| == |s.imageViews|
    && forall i :: 0 <= i < |fbs| ==>
      && fbs[i].handle != NULL_HANDLE
      && fbs[i].renderPass == renderPass
      && fbs[i].colorView == s.imageViews[i].handle
      && fbs[i].depthView == DepthViewHandle(s)
      && fbs[i].width == s.extent.width && fbs[i].height == s.extent.height
  }

  /** Swapchain, image views and depth buffer after a successful build for `surf` and `window`. */
  predicate SwapChainReady(s: SwapChainInfo, info: PhysicalDeviceInfo, surf: SurfaceState, window: WindowState)
  {
    && s.handle != NULL_HANDLE
    && s.createInfo == SwapchainParameters(info, surf.caps, window)
    && s.extent == ViewportExtent(surf.caps, window)
    && s.format == info.surfaceFormat.format
    && |s.images| == surf.swapchainImageCount
    && |s.imageViews| == |s.images|
    && (forall i :: 0 <= i < |s.images| ==> SwapchainView(s.imageViews[i], s.images[i], info.surfaceFormat.format))
    && DepthBufferReady(s, surf.depthFeatures)
  }

  /** The complete swapchain state after a successful build for `surf` and `window`. */
  predicate Built(s: SwapChainInfo, fbs: seq<Framebuffer>, renderPass: Handle, info: PhysicalDeviceInfo, surf: SurfaceState, window: WindowState)
  {
    SwapChainReady(s, info, surf, window) && FrameBuffersMatch(fbs, s, renderPass)
  }

  /** Idle waits made by `reinitRenderer`: its own, and the one in `destroyFrameBuffers` when it tears down. */
  function ReinitWaits(wasVisible: bool): nat
  {
    if wasVisible then 2 else 1
  }

  function CompileTrace(materials: seq<nat>): (t: seq<MaterialCall>)
    ensures |t| == |materials|
    ensures forall i :: 0 <= i < |t| ==> t[i] == CompileMaterial(materials[i])
  {
    if materials == [] then [] else CompileTrace(materials[..|materials| - 1]) + [CompileMaterial(materials[|materials| - 1])]
  }

  function DestroyTrace(materials: seq<nat>): (t: seq<MaterialCall>)
    ensures |t| == |materials|
    ensures forall i :: 0 <= i < |t| ==> t[i] == DestroyMaterial(materials[i])
  {
    if materials == [] then [] else DestroyTrace(materials[..|materials| - 1]) + [DestroyMaterial(materials[|materials| - 1])]
  }

  function BindTrace(material: Option<nat>): seq<FrameOp>
  {
    if material.Some? then [BindMaterial(material.value)] else []
  }

  /** What `beginDraw` records after the acquire: resets, begin, render pass, material binding, viewport and scissor. */
  function RecordingOps(frame: nat, imageIndex: nat, material: Option<nat>, extent: Extent): seq<FrameOp>
  {
    [ResetCommandBuffer(frame), BeginCommandBuffer(frame), BeginRenderPass(frame, imageIndex)]
    + BindTrace(material) + [SetViewport(extent), SetScissor(extent)]
  }

  /** A frame after `Frame::destroy`. */
  ghost predicate FrameDestroyed(f: Frame.Frame)
    reads f, f.fence
  {
    f.index == 0 && f.commandBuffer == NULL_HANDLE && f.imageAvailable == NULL_HANDLE
    && f.renderFinished == NULL_HANDLE && f.fence.handle == NULL_HANDLE
  }

  /** A frame after `Frame::create(i)`: live handles and a fresh, signalled fence nobody has waited on. */
  ghost predicate FrameReady(f: Frame.Frame, i: nat)
    reads f, f.fence
  {
    f.index == i && f.commandBuffer != NULL_HANDLE && f.imageAvailable != NULL_HANDLE
    && f.renderFinished != NULL_HANDLE && f.fence.handle != NULL_HANDLE
    && f.fence.signaled && f.fence.ops == []
  }

  // ------------------------------------------------------------- Device

  class Device {
    var deviceCreated: bool
    var physicalDevice: nat
    var info: PhysicalDeviceInfo
    /** The queue families of the logical device's queue-create-infos. */
    var queueFamilies: seq<nat>
    var metrics: Extent
    var windowState: WindowState
    var visible: bool
    var swapChainInfo: SwapChainInfo
    var renderPass: Handle
    var frameBuffers: seq<Framebuffer>
    var frames: seq<Frame.Frame>
    var currentFrame: nat
    var currentImageIndex: nat
    /** Registered materials, by id, and the one bound at the start of each frame. */
    var materials: seq<nat>
    var material: Option<nat>
    /** `vkDeviceWaitIdle` calls so far. */
    var idleWaits: nat
    /** Compile and destroy calls into registered materials, oldest first. */
    var materialCalls: seq<MaterialCall>
    /** Acquire, recording, submit and present operations, oldest first. */
    var frameOps: seq<FrameOp>
    /** The next handle the driver hands out. */
    var nextHandle: nat

    /** The frame ring: the current frame is one of the frames, and no frame occurs twice. */
    ghost predicate Valid()
      reads this`frames, this`currentFrame
    {
      && (|frames| > 0 ==> currentFrame < |frames|)
      && (forall i, j :: 0 <= i < j < |frames| ==> frames[i] != frames[j])
    }

    constructor ()
      ensures Valid()
      ensures !deviceCreated && !visible
      ensures windowState == WindowState(0, 0, false)
      ensures swapChainInfo == NO_SWAPCHAIN && renderPass == NULL_HANDLE && frameBuffers == []
      ensures frames == [] && currentFrame == 0 && currentImageIndex == 0
      ensures materials == [] && material.None?
      ensures idleWaits == 0 && materialCalls == [] && frameOps == []
    {
      deviceCreated := false;
      physicalDevice := 0;
      info := PhysicalDeviceInfo(0, 0, false, SurfaceFormat(Undefined, SRGB_NONLINEAR));
      queueFamilies := [];
      metrics := Extent(0, 0);
      windowState := WindowState(0, 0, false);
      visible := false;
      swapChainInfo := NO_SWAPCHAIN;
      renderPass := NULL_HANDLE;
      frameBuffers := [];
      frames := [];
      currentFrame := 0;
      currentImageIndex := 0;
      materials := [];
      material := None;
      idleWaits := 0;
      materialCalls := [];
      frameOps := [];
      nextHandle := 0;
    }

    /** A new object from the driver. */
    method NewHandle() returns (h: Handle)
      modifies this`nextHandle
      ensures h == old(nextHandle) + 1 && nextHandle == h
      ensures h != NULL_HANDLE
    {
      nextHandle := nextHandle + 1;
      h := nextHandle;
    }

    /** `waitIdle`: waits only when a logical device exists. */
    method WaitIdle()
      modifies this`idleWaits
      ensures idleWaits == old(idleWaits) + (if deviceCreated then 1 else 0)
    {
      if deviceCreated {
        idleWaits := idleWaits + 1;
      }
    }

    /**
     * `createDevice` as far as it decides anything: physical-device
     * selection, the viewport extent, the logical device's queue families,
     * and `visible_` set at the end.
     */
    method CreateDevice(devices: seq<PhysicalDevice>, caps: SurfaceCapabilities) returns (err: Option<DeviceError>)
      modifies this`deviceCreated, this`physicalDevice, this`info, this`queueFamilies, this`metrics, this`visible
      ensures |devices| == 0 ==> err == Some(SetupFailed(NoVulkanDevice))
      ensures err.Some? && |devices| > 0 ==>
        err == Some(SetupFailed(NoSuitableDevice)) && forall j :: 0 <= j < |devices| ==> !Suitable(devices[j], REQUIRED_DEVICE_EXTENSIONS)
      ensures err.Some? ==>
        && deviceCreated == old(deviceCreated) && visible == old(visible)
        && physicalDevice == old(physicalDevice) && info == old(info)
        && queueFamilies == old(queueFamilies) && metrics == old(metrics)
      ensures err.None? ==>
        && FirstSuitable(devices, REQUIRED_DEVICE_EXTENSIONS, physicalDevice)
        && DescribesDevice(info, devices[physicalDevice])
        && metrics == ViewportExtent(caps, windowState)
        && queueFamilies == UniqueQueueFamilies(info.graphicsFamilyIndex, info.presentFamilyIndex)
        && deviceCreated && visible
    {
      var selection := SelectPhysicalDevice(devices, REQUIRED_DEVICE_EXTENSIONS);
      if selection.Err? {
        return Some(SetupFailed(selection.error));
      }
      physicalDevice := selection.value.index;
      info := selection.value.info;
      metrics := ViewportExtent(caps, windowState);
      queueFamilies := UniqueQueueFamilies(info.graphicsFamilyIndex, info.presentFamilyIndex);
      deviceCreated := true;
      visible := true;
      return None;
    }

    /** `addMaterial`: registers the material and makes it the current one. */
    method AddMaterial(id: nat)
      modifies this`materials, this`material
      ensures materials == old(materials) + [id] && material == Some(id)
    {
      materials := materials + [id];
      material := Some(id);
    }

    /**
     * `createSwapChain`: refreshes the extent (`getViewportExtent`), then
     * asks for a swapchain with the chosen image count, present mode and
     * sharing; a failure raises and leaves the handle as it was.
     */
    method CreateSwapChain(surf: SurfaceState) returns (err: Option<DeviceError>)
      modifies this`metrics, this`swapChainInfo, this`nextHandle
      ensures metrics == ViewportExtent(surf.caps, windowState)
      ensures err.Some? <==> surf.swapchainResult != Success
      ensures err.Some? ==>
        err.value == SwapchainCreationFailed(surf.swapchainResult)
        && swapChainInfo == old(swapChainInfo).(extent := metrics)
      ensures err.None? ==>
        && swapChainInfo.handle != NULL_HANDLE
        && swapChainInfo == old(swapChainInfo).(
             handle := swapChainInfo.handle,
             createInfo := SwapchainParameters(info, surf.caps, windowState),
             format := info.surfaceFormat.format,
             extent := metrics)
    {
      metrics := ViewportExtent(surf.caps, windowState);
      swapChainInfo := swapChainInfo.(extent := metrics);
      var createInfo := SwapchainParameters(info, surf.caps, windowState);
      if surf.swapchainResult != Success {
        return Some(SwapchainCreationFailed(surf.swapchainResult));
      }
      var h := NewHandle();
      swapChainInfo := swapChainInfo.(handle := h, createInfo := createInfo, format := createInfo.surfaceFormat.format);
      return None;
    }

    /**
     * `createImageViews`: zero swapchain images raise; otherwise each image
     * is attached (borrowed from the swapchain) as a pixel buffer in the
     * surface format and gets a colour view, in the driver's order.
     */
    method CreateImageViews(surf: SurfaceState) returns (err: Option<DeviceError>)
      modifies this`swapChainInfo, this`nextHandle
      ensures err.Some? <==> surf.swapchainImageCount == 0
      ensures err.Some? ==> err.value == NoSwapchainImages && swapChainInfo == old(swapChainInfo)
      ensures err.None? ==>
        && |swapChainInfo.images| == surf.swapchainImageCount
        && |swapChainInfo.imageViews| == surf.swapchainImageCount
        && (forall i :: 0 <= i < surf.swapchainImageCount ==>
             SwapchainView(swapChainInfo.imageViews[i], swapChainInfo.images[i], info.surfaceFormat.format))
        && swapChainInfo == old(swapChainInfo).(images := swapChainInfo.images, imageViews := swapChainInfo.imageViews)
    {
      if surf.swapchainImageCount == 0 {
        return Some(NoSwapchainImages);
      }
      var images: seq<Handle> := [];
      var views: seq<ImageView> := [];
      var k := 0;
      while k < surf.swapchainImageCount
        invariant 0 <= k <= surf.swapchainImageCount
        modifies this`nextHandle
        invariant |images| == k && |views| == k
        invariant forall i :: 0 <= i < k ==> SwapchainView(views[i], images[i], info.surfaceFormat.format)
      {
        var imageHandle := NewHandle();
        var image := new Image.Attach(imageHandle, PixelBuffer, info.surfaceFormat.format);
        var viewHandle := NewHandle();
        views := views + [MakeImageView(image, viewHandle)];
        images := images + [imageHandle];
        k := k + 1;
      }
      swapChainInfo := swapChainInfo.(images := images, imageViews := views);
      return None;
    }

    /**
     * `createDepthBuffer`: an owned depth image of the swapchain extent in
     * the preferred depth format, and its depth view; no usable format raises.
     */
    method CreateDepthBuffer(surf: SurfaceState) returns (err: Option<DeviceError>)
      requires deviceCreated
      modifies this`swapChainInfo, this`nextHandle
      ensures err.Some? <==> NoUsableDepthFormat(surf.depthFeatures)
      ensures err.Some? ==> err.value == SetupFailed(DeviceSetup.NoDepthFormat) && swapChainInfo == old(swapChainInfo)
      ensures err.None? ==>
        && DepthBufferReady(swapChainInfo, surf.depthFeatures)
        && swapChainInfo == old(swapChainInfo).(depthImage := swapChainInfo.depthImage, depthView := swapChainInfo.depthView)
    {
      var format := ChooseDepthFormat(surf.depthFeatures);
      if format.None? {
        return Some(SetupFailed(DeviceSetup.NoDepthFormat));
      }
      var imageHandle := NewHandle();
      var image := new Image.Make(DepthBuffer, swapChainInfo.extent.width, swapChainInfo.extent.height, format.value, imageHandle);
      var viewHandle := NewHandle();
      swapChainInfo := swapChainInfo.(depthImage := imageHandle, depthView := Some(MakeImageView(image, viewHandle)));
      return None;
    }

    /** `createRenderPass`: one colour and one depth attachment; only the new handle matters here. */
    method CreateRenderPass()
      modifies this`renderPass, this`nextHandle
      ensures renderPass != NULL_HANDLE
    {
      renderPass := NewHandle();
    }

    /** `createFrameBuffers`: exactly one framebuffer per swapchain image view. */
    method CreateFrameBuffers()
      requires deviceCreated
      modifies this`frameBuffers, this`nextHandle
      ensures FrameBuffersMatch(frameBuffers, swapChainInfo, renderPass)
    {
      var fbs: seq<Framebuffer> := [];
      var views := swapChainInfo.imageViews;
      var i := 0;
      while i < |views|
        invariant 0 <= i <= |views|
        modifies this`nextHandle
        invariant |fbs| == i
        invariant FrameBuffersMatch(fbs, swapChainInfo.(imageViews := views[..i]), renderPass)
      {
        var h := NewHandle();
        fbs := fbs + [Framebuffer(h, renderPass, views[i].handle, DepthViewHandle(swapChainInfo),
                                  swapChainInfo.extent.width, swapChainInfo.extent.height)];
        i := i + 1;
      }
      assert views[..i] == views;
      frameBuffers := fbs;
    }

    /** `frames_.resize(n)`: keeps the first `n` frames and appends default-constructed ones. */
    method ResizeFrames(n: nat)
      requires Valid() && currentFrame == 0
      modifies this`frames
      ensures Valid()
      ensures |frames| == n
      ensures forall i :: 0 <= i < |old(frames)| && i < n ==> frames[i] == old(frames)[i]
      ensures forall i :: |old(frames)| <= i < n ==> fresh(frames[i])
    {
      if |frames| > n {
        frames := frames[..n];
        return;
      }
      ghost var initial := frames;
      while |frames| < n
        invariant Valid()
        invariant |initial| <= |frames| <= n
        invariant frames[..|initial|] == initial
        invariant forall i :: |initial| <= i < |frames| ==> fresh(frames[i])
        modifies this`frames
      {
        var f := new Frame.Frame();
        frames := frames + [f];
      }
    }

    /** The frame loop of `createFrames`: frame `i` is created with index `i`. */
    method CreateEachFrame()
      requires Valid()
      modifies this`nextHandle, frames
      ensures Valid()
      ensures forall i :: 0 <= i < |frames| ==> FrameReady(frames[i], i) && fresh(frames[i].fence)
    {
      var i := 0;
      while i < |frames|
        invariant Valid()
        invariant 0 <= i <= |frames|
        invariant forall j :: 0 <= j < i ==> FrameReady(frames[j], j) && fresh(frames[j].fence)
        modifies this`nextHandle, frames
      {
        var cb := NewHandle();
        var ia := NewHandle();
        var rf := NewHandle();
        var fh := NewHandle();
        frames[i].Create(i, cb, ia, rf, fh);
        i := i + 1;
      }
    }

    /** The material loop of `createFrames`: every registered material is compiled, in registration order; a compile is taken to succeed. */
    method CompileMaterials()
      modifies this`materialCalls
      ensures materialCalls == old(materialCalls) + CompileTrace(materials)
    {
      var k := 0;
      while k < |materials|
        invariant 0 <= k <= |materials|
        invariant materialCalls == old(materialCalls) + CompileTrace(materials[..k])
      {
        assert materials[..k + 1][..k] == materials[..k];
        materialCalls := materialCalls + [CompileMaterial(materials[k])];
        k := k + 1;
      }
      assert materials[..k] == materials;
    }

    /**
     * `createFrames`: `currentFrame_` back to 0, `frames_` resized to
     * MAX_FRAMES (existing frames are kept), every frame created with its
     * position as index, then every registered material compiled.
     */
    method CreateFrames()
      requires Valid()
      modifies this`frames, this`currentFrame, this`nextHandle, this`materialCalls, frames
      ensures Valid()
      ensures currentFrame == 0 && |frames| == MAX_FRAMES
      ensures forall i :: 0 <= i < |old(frames)| && i < MAX_FRAMES ==> frames[i] == old(frames)[i]
      ensures forall i :: 0 <= i < |frames| ==> FrameReady(frames[i], i) && fresh(frames[i].fence)
      ensures materialCalls == old(materialCalls) + CompileTrace(materials)
    {
      currentFrame := 0;
      ResizeFrames(MAX_FRAMES);
      CreateEachFrame();
      CompileMaterials();
    }

    /** `createRenderer`: swapchain, image views, depth buffer, render pass, framebuffers, frames, in that order. */
    method CreateRenderer(surf: SurfaceState) returns (err: Option<DeviceError>)
      requires Valid() && deviceCreated
      modifies this`metrics, this`swapChainInfo, this`nextHandle, this`renderPass, this`frameBuffers
      modifies this`frames, this`currentFrame, this`materialCalls, frames
      ensures Valid()
      ensures err.Some? <==> RebuildFails(surf)
      ensures err.Some? ==> err.value == RebuildError(surf)
      ensures err.None? ==>
        && Built(swapChainInfo, frameBuffers, renderPass, info, surf, windowState)
        && renderPass != NULL_HANDLE
        && currentFrame == 0 && |frames| == MAX_FRAMES
        && (forall i :: 0 <= i < |frames| ==> FrameReady(frames[i], i))
        && materialCalls == old(materialCalls) + CompileTrace(materials)
    {
      err := CreateSwapChain(surf);
      if err.Some? { return; }
      err := CreateImageViews(surf);
      if err.Some? { return; }
      err := CreateDepthBuffer(surf);
      if err.Some? { return; }
      assert SwapChainReady(swapChainInfo, info, surf, windowState);
      CreatePassAndFrames(surf);
    }

    /** The steps of `createRenderer` after the depth buffer: render pass, framebuffers, frames. */
    method CreatePassAndFrames(surf: SurfaceState)
      requires Valid() && deviceCreated && SwapChainReady(swapChainInfo, info, surf, windowState)
      modifies this`nextHandle, this`renderPass, this`frameBuffers, this`frames, this`currentFrame, this`materialCalls, frames
      ensures Valid()
      ensures Built(swapChainInfo, frameBuffers, renderPass, info, surf, windowState)
      ensures renderPass != NULL_HANDLE
      ensures currentFrame == 0 && |frames| == MAX_FRAMES
      ensures forall i :: 0 <= i < |frames| ==> FrameReady(frames[i], i)
      ensures materialCalls == old(materialCalls) + CompileTrace(materials)
    {
      CreateRenderPass();
      CreateFrameBuffers();
      ghost var built := (frameBuffers, renderPass);
      assert Built(swapChainInfo, built.0, built.1, info, surf, windowState);
      CreateFrames();
      assert (frameBuffers, renderPass) == built;
    }

    // ------------------------------------------------------ teardown

    /** `destroyFrames`: with a logical device, waits for idle and destroys every frame. */
    method DestroyFrames()
      modifies this`idleWaits, frames, set i | 0 <= i < |frames| :: frames[i].fence
      ensures idleWaits == old(idleWaits) + (if deviceCreated then 1 else 0)
      ensures deviceCreated ==> forall i :: 0 <= i < |frames| ==> FrameDestroyed(frames[i])
    {
      if !deviceCreated {
        return;
      }
      WaitIdle();
      var i := 0;
      while i < |frames|
        invariant 0 <= i <= |frames|
        invariant forall j :: 0 <= j < i ==> FrameDestroyed(frames[j])
        invariant forall j :: 0 <= j < |frames| ==> frames[j].fence == old(frames[j].fence)
        modifies frames, set j | 0 <= j < |frames| :: frames[j].fence
      {
        frames[i].Destroy();
        i := i + 1;
      }
    }

    /** `destroyFrameBuffers`: with a logical device, waits for idle and drops every framebuffer. */
    method DestroyFrameBuffers()
      modifies this`idleWaits, this`frameBuffers
      ensures idleWaits == old(idleWaits) + (if deviceCreated then 1 else 0)
      ensures frameBuffers == (if deviceCreated then [] else old(frameBuffers))
    {
      if !deviceCreated {
        return;
      }
      WaitIdle();
      frameBuffers := [];
    }

    /** `destroyRenderPass`. */
    method DestroyRenderPass()
      modifies this`renderPass
      ensures renderPass == NULL_HANDLE
    {
      renderPass := NULL_HANDLE;
    }

    /** `destroyDepthBuffer`: frees the depth view and the depth image. */
    method DestroyDepthBuffer()
      requires deviceCreated
      modifies this`swapChainInfo
      ensures swapChainInfo == old(swapChainInfo).(depthImage := NULL_HANDLE, depthView := None)
    {
      swapChainInfo := swapChainInfo.(depthImage := NULL_HANDLE, depthView := None);
    }

    /** `destroyImageViews`: with a logical device, drops the views and the borrowed images. */
    method DestroyImageViews()
      modifies this`swapChainInfo
      ensures swapChainInfo == if deviceCreated then old(swapChainInfo).(images := [], imageViews := []) else old(swapChainInfo)
    {
      if !deviceCreated {
        return;
      }
      swapChainInfo := swapChainInfo.(images := [], imageViews := []);
    }

    /** `destroySwapChain`: with a logical device, destroys a non-null swapchain. */
    method DestroySwapChain()
      modifies this`swapChainInfo
      ensures swapChainInfo == if deviceCreated then old(swapChainInfo).(handle := NULL_HANDLE) else old(swapChainInfo)
    {
      if !deviceCreated {
        return;
      }
      if swapChainInfo.handle != NULL_HANDLE {
        swapChainInfo := swapChainInfo.(handle := NULL_HANDLE);
      }
    }

    /** `freeGraphicsPipelineObjects`: with a logical device, waits for idle, destroys every material in order, then forgets them. */
    method FreeGraphicsPipelineObjects()
      modifies this`idleWaits, this`materialCalls, this`materials, this`material
      ensures !deviceCreated ==>
        idleWaits == old(idleWaits) && materialCalls == old(materialCalls) && materials == old(materials) && material == old(material)
      ensures deviceCreated ==>
        && idleWaits == old(idleWaits) + 1
        && materialCalls == old(materialCalls) + DestroyTrace(old(materials))
        && materials == [] && material.None?
    {
      if !deviceCreated {
        return;
      }
      WaitIdle();
      var k := 0;
      while k < |materials|
        invariant 0 <= k <= |materials|
        invariant materialCalls == old(materialCalls) + DestroyTrace(materials[..k])
        modifies this`materialCalls
      {
        assert materials[..k + 1][..k] == materials[..k];
        materialCalls := materialCalls + [DestroyMaterial(materials[k])];
        k := k + 1;
      }
      assert materials[..k] == materials;
      materials := [];
      material := None;
    }

    /**
     * `destroyRenderer`: always clears `visible_`; with a logical device it
     * waits for idle, optionally frees the pipeline objects, then destroys
     * frames, framebuffers, render pass, depth buffer, image views and
     * swapchain.
     */
    method DestroyRenderer(freePipelineResources: bool)
      modifies this`visible, this`idleWaits, this`materialCalls, this`materials, this`material
      modifies this`frameBuffers, this`renderPass, this`swapChainInfo
      modifies frames, set i | 0 <= i < |frames| :: frames[i].fence
      ensures !visible
      ensures !deviceCreated ==>
        && idleWaits == old(idleWaits) && materialCalls == old(materialCalls)
        && materials == old(materials) && material == old(material)
        && swapChainInfo == old(swapChainInfo) && frameBuffers == old(frameBuffers) && renderPass == old(renderPass)
      ensures deviceCreated ==>
        && idleWaits == old(idleWaits) + (if freePipelineResources then 4 else 3)
        && (freePipelineResources ==>
              materialCalls == old(materialCalls) + DestroyTrace(old(materials)) && materials == [] && material.None?)
        && (!freePipelineResources ==>
              materialCalls == old(materialCalls) && materials == old(materials) && material == old(material))
        && frameBuffers == [] && renderPass == NULL_HANDLE
        && swapChainInfo == TearDown(old(swapChainInfo))
        && forall i :: 0 <= i < |frames| ==> FrameDestroyed(frames[i])
    {
      visible := false;
      if !deviceCreated {
        return;
      }
      WaitIdle();
      if freePipelineResources {
        FreeGraphicsPipelineObjects();
      }
      DestroyFrames();
      DestroyFrameBuffers();
      DestroyRenderPass();
      DestroyDepthBuffer();
      DestroyImageViews();
      DestroySwapChain();
    }

    /**
     * `reinitRenderer`: waits for idle; tears the swapchain down only if it
     * was visible (which clears `visible_`); stops there when the window is
     * minimized; otherwise rebuilds swapchain, image views, depth buffer and
     * framebuffers (keeping render pass and frames) and sets `visible_`.
     */
    method ReinitRenderer(surf: SurfaceState) returns (err: Option<DeviceError>)
      requires deviceCreated
      modifies this`visible, this`metrics, this`swapChainInfo, this`frameBuffers, this`nextHandle, this`idleWaits
      ensures idleWaits == old(idleWaits) + ReinitWaits(old(visible))
      ensures err.Some? <==> !windowState.minimized && RebuildFails(surf)
      ensures err.Some? ==> err.value == RebuildError(surf)
      ensures err.None? ==> visible == !windowState.minimized
      ensures err.Some? ==> !visible
      ensures windowState.minimized && old(visible) ==>
        swapChainInfo == TearDown(old(swapChainInfo)) && frameBuffers == []
      ensures windowState.minimized && !old(visible) ==>
        swapChainInfo == old(swapChainInfo) && frameBuffers == old(frameBuffers)
      ensures !windowState.minimized && err.None? ==>
        Built(swapChainInfo, frameBuffers, renderPass, info, surf, windowState)
    {
      WaitIdle();
      if visible {
        visible := false;
        DestroyDepthBuffer();
        DestroyFrameBuffers();
        DestroyImageViews();
        DestroySwapChain();
      }
      if windowState.minimized {
        return None;
      }
      err := CreateSwapChain(surf);
      if err.Some? { return; }
      err := CreateImageViews(surf);
      if err.Some? { return; }
      err := CreateDepthBuffer(surf);
      if err.Some? { return; }
      CreateFrameBuffers();
      visible := true;
    }

    // --------------------------------------------------------- drawing

    /**
     * The recording half of `beginDraw`: resets the frame's fence and
     * command buffer and begins recording; when that succeeds, begins the
     * render pass into framebuffer `imageIndex`, binds the current material
     * and sets viewport and scissor to the swapchain extent.
     */
    method RecordFrameStart(frame: Frame.Frame, cur: nat, imageIndex: nat, beginResult: VkResult) returns (err: Option<DeviceError>)
      modifies frame.fence, this`frameOps, this`currentImageIndex
      ensures frame.fence.ops == old(frame.fence.ops) + [ResetOp] && !frame.fence.signaled
      ensures err.Some? <==> beginResult != Success
      ensures err.Some? ==> err.value == BeginRecordingFailed(beginResult)
      ensures err.None? ==>
        && frameOps == old(frameOps) + RecordingOps(cur, imageIndex, material, swapChainInfo.extent)
        && currentImageIndex == imageIndex
    {
      var _ := frame.fence.Reset(Success);
      frameOps := frameOps + [ResetCommandBuffer(cur), BeginCommandBuffer(cur)];
      if beginResult != Success {
        return Some(BeginRecordingFailed(beginResult));
      }
      frameOps := frameOps + [BeginRenderPass(cur, imageIndex)] + BindTrace(material)
        + [SetViewport(swapChainInfo.extent), SetScissor(swapChainInfo.extent)];
      currentImageIndex := imageIndex;
      return None;
    }

    /**
     * `beginDraw`: waits on the current frame's fence (no timeout), acquires
     * an image, then records the start of the frame (`RecordFrameStart`).
     *
     * After an OUT_OF_DATE acquire it rebuilds and goes on recording with an
     * image index that the acquire never set (`staleIndex`).
     */
    method BeginDraw(surf: SurfaceState, fenceResult: VkResult, acquireResult: VkResult, acquiredIndex: nat, staleIndex: nat, beginResult: VkResult)
      returns (err: Option<DeviceError>)
      requires deviceCreated && currentFrame < |frames|
      modifies this`visible, this`metrics, this`swapChainInfo, this`frameBuffers, this`nextHandle, this`idleWaits, this`frameOps
      modifies this`currentImageIndex, frames[currentFrame].fence
      ensures var goesOn := AcquireHandled(acquireResult) && !(acquireResult == ErrorOutOfDate && !windowState.minimized && RebuildFails(surf));
        frames[currentFrame].fence.ops == old(frames[currentFrame].fence.ops) + [WaitOp(UINT64_MAX)] + (if goesOn then [ResetOp] else [])
      ensures err.None? <==> BeginDrawSucceeds(windowState, surf, acquireResult, beginResult)
      ensures !AcquireHandled(acquireResult) <==> err == Some(AcquireFailed(acquireResult))
      ensures acquireResult == ErrorOutOfDate && !windowState.minimized && RebuildFails(surf) ==> err.Some?
      ensures err.None? ==> beginResult == Success
      ensures idleWaits == old(idleWaits) + (if acquireResult == ErrorOutOfDate then ReinitWaits(old(visible)) else 0)
      ensures err.None? ==>
        var cur := currentFrame;
        var index := if acquireResult == ErrorOutOfDate then staleIndex else acquiredIndex;
        && currentImageIndex == index
        && !frames[cur].fence.signaled
        && frameOps == old(frameOps) + [AcquireImage(cur)] + RecordingOps(cur, index, material, swapChainInfo.extent)
      ensures err.None? && acquireResult != ErrorOutOfDate ==>
        visible == old(visible) && swapChainInfo == old(swapChainInfo) && frameBuffers == old(frameBuffers)
      ensures err.None? && acquireResult == ErrorOutOfDate ==> visible == !windowState.minimized
      ensures err.None? && acquireResult == ErrorOutOfDate && windowState.minimized && old(visible) ==> frameBuffers == []
    {
      var cur := currentFrame;
      var frame := frames[cur];
      var _ := frame.fence.Wait(-1, fenceResult);
      assert WaitTimeout(-1) == UINT64_MAX;
      frameOps := frameOps + [AcquireImage(cur)];
      var imageIndex: nat;
      if acquireResult == ErrorOutOfDate {
        err := ReinitRenderer(surf);
        if err.Some? {
          return;
        }
        imageIndex := staleIndex;
      } else if acquireResult != Success && acquireResult != Suboptimal {
        return Some(AcquireFailed(acquireResult));
      } else {
        imageIndex := acquiredIndex;
      }
      err := RecordFrameStart(frame, cur, imageIndex, beginResult);
    }

    /**
     * `endDraw`: ends the render pass and the recording, submits (signalling
     * the frame's fence when the GPU is done), presents the current image,
     * rebuilds after an OUT_OF_DATE or SUBOPTIMAL present, and moves to the
     * next frame of the ring.
     */
    method EndDraw(surf: SurfaceState, endResult: VkResult, submitResult: VkResult, presentResult: VkResult)
      returns (err: Option<DeviceError>)
      requires deviceCreated && currentFrame < |frames|
      modifies this`visible, this`metrics, this`swapChainInfo, this`frameBuffers, this`nextHandle, this`idleWaits, this`frameOps
      modifies this`currentImageIndex, this`currentFrame
      ensures currentFrame < |frames|
      ensures err.None? <==> EndDrawSucceeds(windowState, surf, endResult, submitResult, presentResult)
      ensures endResult != Success ==> err == Some(EndRecordingFailed(endResult))
      ensures endResult == Success && submitResult != Success ==> err == Some(SubmitFailed(submitResult))
      ensures endResult == Success && submitResult == Success ==>
        && (!PresentNeedsRebuild(presentResult) && presentResult != Success <==> err == Some(PresentFailed(presentResult)))
        && (PresentNeedsRebuild(presentResult) ==> (err.Some? <==> !windowState.minimized && RebuildFails(surf)))
      ensures err.None? ==>
        var cur := old(currentFrame);
        && currentFrame == (cur + 1) % |frames|
        && currentImageIndex == 0
        && frameOps == old(frameOps) + [EndRenderPass(cur), EndCommandBuffer(cur), Submit(cur), Present(old(currentImageIndex))]
        && idleWaits == old(idleWaits) + (if PresentNeedsRebuild(presentResult) then ReinitWaits(old(visible)) else 0)
      ensures err.None? && PresentNeedsRebuild(presentResult) ==> visible == !windowState.minimized
      ensures err.None? && !PresentNeedsRebuild(presentResult) ==>
        visible == old(visible) && swapChainInfo == old(swapChainInfo) && frameBuffers == old(frameBuffers)
    {
      var cur := currentFrame;
      frameOps := frameOps + [EndRenderPass(cur), EndCommandBuffer(cur)];
      if endResult != Success {
        return Some(EndRecordingFailed(endResult));
      }
      frameOps := frameOps + [Submit(cur)];
      if submitResult != Success {
        return Some(SubmitFailed(submitResult));
      }
      frameOps := frameOps + [Present(currentImageIndex)];
      if presentResult == ErrorOutOfDate || presentResult == Suboptimal {
        err := ReinitRenderer(surf);
        if err.Some? {
          return;
        }
      } else if presentResult != Success {
        return Some(PresentFailed(presentResult));
      }
      currentFrame := (currentFrame + 1) % |frames|;
      currentImageIndex := 0;
      return None;
    }

    /**
     * `begin(window)`: reads the window state; when not visible it either
     * rebuilds (window restored) or returns false without drawing
     * (minimized); then begins the frame and returns true.
     */
    method Begin(window: WindowState, surf: SurfaceState, fenceResult: VkResult, acquireResult: VkResult,
                 acquiredIndex: nat, staleIndex: nat, beginResult: VkResult)
      returns (r: Result<bool, DeviceError>)
      requires deviceCreated && currentFrame < |frames|
      modifies this`windowState, this`visible, this`metrics, this`swapChainInfo, this`frameBuffers, this`nextHandle
      modifies this`idleWaits, this`frameOps, this`currentImageIndex, frames[currentFrame].fence
      ensures windowState == window
      ensures r == Ok(false) <==> !old(visible) && window.minimized
      ensures r.Ok? <==>
                (!old(visible) && window.minimized)
                || ((old(visible) || !RebuildFails(surf)) && BeginDrawSucceeds(window, surf, acquireResult, beginResult))
      ensures r.Ok? ==> r.value == (old(visible) || !window.minimized)
      ensures r == Ok(false) ==>
        && idleWaits == old(idleWaits) && frameOps == old(frameOps)
        && !visible && swapChainInfo == old(swapChainInfo) && frameBuffers == old(frameBuffers)
      ensures r == Ok(true) ==> |frameOps| > |old(frameOps)| && frameOps[|old(frameOps)|] == AcquireImage(currentFrame)
      ensures r == Ok(true) && !old(visible) ==> idleWaits > old(idleWaits)
      ensures r == Ok(true) && !old(visible) ==> visible
      ensures !old(visible) && !window.minimized && RebuildFails(surf) ==> r == Err(RebuildError(surf))
      // a minimized window whose acquire reports OUT_OF_DATE tears the swapchain down, yet the frame still begins
      ensures r == Ok(true) ==> (visible <==> !(window.minimized && acquireResult == ErrorOutOfDate))
    {
      windowState := window;
      if !visible {
        if !windowState.minimized {
          var err := ReinitRenderer(surf);
          if err.Some? {
            return Err(err.value);
          }
        } else {
          return Ok(false);
        }
      }
      var err := BeginDraw(surf, fenceResult, acquireResult, acquiredIndex, staleIndex, beginResult);
      if err.Some? {
        return Err(err.value);
      }
      return Ok(true);
    }

    /** `end()`: ends the frame and reports true. */
    method End(surf: SurfaceState, endResult: VkResult, submitResult: VkResult, presentResult: VkResult)
      returns (r: Result<bool, DeviceError>)
      requires deviceCreated && currentFrame < |frames|
      modifies this`visible, this`metrics, this`swapChainInfo, this`frameBuffers, this`nextHandle, this`idleWaits, this`frameOps
      modifies this`currentImageIndex, this`currentFrame
      ensures currentFrame < |frames|
      ensures r.Ok? <==> EndDrawSucceeds(windowState, surf, endResult, submitResult, presentResult)
      ensures r.Ok? ==> r.value && currentFrame == (old(currentFrame) + 1) % |frames|
      ensures r.Ok? ==>
                frameOps == old(frameOps)
                + [EndRenderPass(old(currentFrame)), EndCommandBuffer(old(currentFrame)), Submit(old(currentFrame)), Present(old(currentImageIndex))]
    {
      var err := EndDraw(surf, endResult, submitResult, presentResult);
      if err.Some? {
        return Err(err.value);
      }
      return Ok(true);
    }
  }
}

=== FILE: device_setup.dfy ===
/**
 * The decisions `Device` makes from what Vulkan reports about the hardware
 * and the surface: which physical device and queue families to use, the
 * swapchain parameters, the viewport extent and the depth format.  Every
 * query result is an input.
 */
module DeviceSetup {
  import opened Wrappers
  import opened Vk

  datatype PhysicalDeviceType = OtherDeviceType | IntegratedGpu | DiscreteGpu | VirtualGpu | CpuDevice
  datatype SurfaceFormat = SurfaceFormat(format: Format, colorSpace: ColorSpace)
  datatype QueueFamily = QueueFamily(queueFlags: bv32, presentSupport: bool)

  /** What the enumeration calls report about one physical device for the kit's surface. */
  datatype PhysicalDevice = PhysicalDevice(
    deviceType: PhysicalDeviceType,
    extensions: seq<string>,
    surfaceFormats: seq<SurfaceFormat>,
    presentModes: seq<PresentMode>,
    queueFamilies: seq<QueueFamily>)

  /** `PhysicalDeviceInfo` of the chosen device. */
  datatype PhysicalDeviceInfo = PhysicalDeviceInfo(
    graphicsFamilyIndex: int,
    presentFamilyIndex: int,
    mailboxSupport: bool,
    surfaceFormat: SurfaceFormat)

  datatype Selection = Selection(index: nat, info: PhysicalDeviceInfo)

  datatype SetupError = NoVulkanDevice | NoSuitableDevice | NoDepthFormat

  /** `requiredDeviceExtensions_`, set in the `Device` constructor. */
  const REQUIRED_DEVICE_EXTENSIONS: seq<string> := ["VK_KHR_swapchain", "VK_EXT_extended_dynamic_state"]

  /** The only surface format the swapchain is built with. */
  const SWAPCHAIN_SURFACE_FORMAT: SurfaceFormat := SurfaceFormat(B8G8R8A8_SRGB, SRGB_NONLINEAR)

  /** Depth formats in order of preference. */
  const DEPTH_FORMAT_CANDIDATES: seq<Format> := [D32_SFLOAT, D32_SFLOAT_S8_UINT, D24_UNORM_S8_UINT]

  // ------------------------------------------------------------ predicates

  predicate IsGpu(t: PhysicalDeviceType) { t == DiscreteGpu || t == IntegratedGpu }

  predicate HasGraphicsQueue(f: QueueFamily) { f.queueFlags & QUEUE_GRAPHICS_BIT != 0 }

  /** `i` is the lowest graphics-capable family. */
  predicate FirstGraphicsFamily(families: seq<QueueFamily>, i: int)
  {
    0 <= i < |families| && HasGraphicsQueue(families[i])
    && forall j :: 0 <= j < i ==> !HasGraphicsQueue(families[j])
  }

  /** `i` is the lowest family that can present to the surface. */
  predicate FirstPresentFamily(families: seq<QueueFamily>, i: int)
  {
    0 <= i < |families| && families[i].presentSupport
    && forall j :: 0 <= j < i ==> !families[j].presentSupport
  }

  predicate HasGraphicsFamily(families: seq<QueueFamily>)
  {
    exists i :: 0 <= i < |families| && HasGraphicsQueue(families[i])
  }

  predicate HasPresentFamily(families: seq<QueueFamily>)
  {
    exists i :: 0 <= i < |families| && families[i].presentSupport
  }

  /** The checks a physical device must pass, in the order `createPhysicalDevice` makes them. */
  predicate Suitable(d: PhysicalDevice, required: seq<string>)
  {
    && IsGpu(d.deviceType)
    && (forall e :: e in required ==> e in d.extensions)
    && SWAPCHAIN_SURFACE_FORMAT in d.surfaceFormats
    && |d.presentModes| > 0
    && HasGraphicsFamily(d.queueFamilies)
    && HasPresentFamily(d.queueFamilies)
  }

  /** `k` is the first device, in enumeration order, that passes every check. */
  predicate FirstSuitable(devices: seq<PhysicalDevice>, required: seq<string>, k: nat)
  {
    k < |devices| && Suitable(devices[k], required)
    && forall j :: 0 <= j < k ==> !Suitable(devices[j], required)
  }

  /** `info` is what the selection records for device `d`. */
  predicate DescribesDevice(info: PhysicalDeviceInfo, d: PhysicalDevice)
  {
    && info.surfaceFormat == SWAPCHAIN_SURFACE_FORMAT
    && (info.mailboxSupport <==> Mailbox in d.presentModes)
    && FirstGraphicsFamily(d.queueFamilies, info.graphicsFamilyIndex)
    && FirstPresentFamily(d.queueFamilies, info.presentFamilyIndex)
  }

  // ------------------------------------------------------------ searches

  /** A linear search with early exit (the format and present-mode loops). */
  method Contains<T(==)>(s: seq<T>, x: T) returns (found: bool)
    ensures found <==> x in s
  {
    found := false;
    var i := 0;
    while i < |s|
      invariant 0 <= i <= |s|
      invariant x !in s[..i]
    {
      if s[i] == x {
        found := true;
        break;
      }
      i := i + 1;
    }
  }

  /** The extension check: start from the required set and erase every extension the device offers. */
  method MissingExtensions(required: seq<string>, available: seq<string>) returns (missing: set<string>)
    ensures forall e :: e in missing <==> e in required && e !in available
  {
    missing := set e | e in required;
    var i := 0;
    while i < |available|
      invariant 0 <= i <= |available|
      invariant forall e :: e in missing <==> e in required && e !in available[..i]
    {
      missing := missing - {available[i]};
      i := i + 1;
    }
    assert available[..i] == available;
  }

  /**
   * The queue-family loop: both indices start at -1; the graphics index is
   * set at the first family with the GRAPHICS bit, the present index at the
   * first family that can present, and the scan stops once both are set.
   */
  method FindQueueFamilies(families: seq<QueueFamily>) returns (graphics: int, present: int)
    ensures graphics == -1 || FirstGraphicsFamily(families, graphics)
    ensures present == -1 || FirstPresentFamily(families, present)
    ensures graphics == -1 <==> !HasGraphicsFamily(families)
    ensures present == -1 <==> !HasPresentFamily(families)
  {
    graphics, present := -1, -1;
    var i := 0;
    while i < |families|
      invariant 0 <= i <= |families|
      invariant graphics == -1 ==> forall j :: 0 <= j < i ==> !HasGraphicsQueue(families[j])
      invariant graphics != -1 ==> FirstGraphicsFamily(families, graphics) && graphics < i
      invariant present == -1 ==> forall j :: 0 <= j < i ==> !families[j].presentSupport
      invariant present != -1 ==> FirstPresentFamily(families, present) && present < i
      invariant !(graphics != -1 && present != -1)
    {
      if graphics == -1 && HasGraphicsQueue(families[i]) {
        graphics := i;
      }
      if present == -1 && families[i].presentSupport {
        present := i;
      }
      if graphics != -1 && present != -1 {
        break;
      }
      i := i + 1;
    }
  }

  /**
   * `createPhysicalDevice`: no device at all is an error; otherwise the
   * first device in enumeration order that passes every check is chosen,
   * with its first graphics and first present family, whether it offers
   * MAILBOX, and the sRGB surface format.  No passing device is an error.
   */
  method SelectPhysicalDevice(devices: seq<PhysicalDevice>, required: seq<string>) returns (r: Result<Selection, SetupError>)
    ensures |devices| == 0 <==> r == Err(NoVulkanDevice)
    ensures r.Ok? ==> FirstSuitable(devices, required, r.value.index)
    ensures r.Ok? ==> DescribesDevice(r.value.info, devices[r.value.index])
    ensures r.Err? && |devices| > 0 ==>
      r.error == NoSuitableDevice && forall j :: 0 <= j < |devices| ==> !Suitable(devices[j], required)
  {
    if |devices| == 0 {
      return Err(NoVulkanDevice);
    }
    var k := 0;
    while k < |devices|
      invariant 0 <= k <= |devices|
      invariant forall j :: 0 <= j < k ==> !Suitable(devices[j], required)
    {
      var d := devices[k];
      if !IsGpu(d.deviceType) {
        k := k + 1;
        continue;
      }
      var missing := MissingExtensions(required, d.extensions);
      if missing != {} {
        assert exists e :: e in missing;
        k := k + 1;
        continue;
      }
      var hasFormat := Contains(d.surfaceFormats, SWAPCHAIN_SURFACE_FORMAT);
      if !hasFormat {
        k := k + 1;
        continue;
      }
      if |d.presentModes| == 0 {
        k := k + 1;
        continue;
      }
      var mailbox := Contains(d.presentModes, Mailbox);
      var graphics, present := FindQueueFamilies(d.queueFamilies);
      if graphics == -1 || present == -1 {
        k := k + 1;
        continue;
      }
      return Ok(Selection(k, PhysicalDeviceInfo(graphics, present, mailbox, SWAPCHAIN_SURFACE_FORMAT)));
    }
    return Err(NoSuitableDevice);
  }

  /**
   * `createLogicalDevice`: one queue-create-info per element of the
   * `std::set` {graphics, present}, so one or two, in ascending order.
   */
  function UniqueQueueFamilies(graphics: nat, present: nat): (r: seq<nat>)
    ensures |r| == (if graphics == present then 1 else 2)
    ensures forall x :: x in r <==> x == graphics || x == present
    ensures forall i :: 0 < i < |r| ==> r[i - 1] < r[i]
  {
    if graphics == present then [graphics]
    else if graphics < present then [graphics, present]
    else [present, graphics]
  }

  /** Whether the optimal-tiling features of `f` include depth/stencil attachment. */
  predicate SupportsDepthAttachment(optimalTilingFeatures: Format -> bv32, f: Format)
  {
    optimalTilingFeatures(f) & FORMAT_FEATURE_DEPTH_STENCIL_ATTACHMENT_BIT == FORMAT_FEATURE_DEPTH_STENCIL_ATTACHMENT_BIT
  }

  /** `f` is the first candidate, in preference order, that supports depth attachment. */
  predicate PreferredDepthFormat(optimalTilingFeatures: Format -> bv32, f: Format)
  {
    exists i :: (
      && 0 <= i < |DEPTH_FORMAT_CANDIDATES| && DEPTH_FORMAT_CANDIDATES[i] == f
      && SupportsDepthAttachment(optimalTilingFeatures, f)
      && forall j :: 0 <= j < i ==> !SupportsDepthAttachment(optimalTilingFeatures, DEPTH_FORMAT_CANDIDATES[j]))
  }

  /** The depth-format loop of `createDepthBuffer`: the first candidate whose optimal tiling supports depth attachments. */
  method ChooseDepthFormat(optimalTilingFeatures: Format -> bv32) returns (r: Option<Format>)
    ensures r.Some? ==> PreferredDepthFormat(optimalTilingFeatures, r.value)
    ensures r.None? <==> forall j :: 0 <= j < |DEPTH_FORMAT_CANDIDATES| ==>
      !SupportsDepthAttachment(optimalTilingFeatures, DEPTH_FORMAT_CANDIDATES[j])
  {
    var i := 0;
    while i < |DEPTH_FORMAT_CANDIDATES|
      invariant 0 <= i <= |DEPTH_FORMAT_CANDIDATES|
      invariant forall j :: 0 <= j < i ==> !SupportsDepthAttachment(optimalTilingFeatures, DEPTH_FORMAT_CANDIDATES[j])
    {
      var f := DEPTH_FORMAT_CANDIDATES[i];
      if optimalTilingFeatures(f) & FORMAT_FEATURE_DEPTH_STENCIL_ATTACHMENT_BIT == FORMAT_FEATURE_DEPTH_STENCIL_ATTACHMENT_BIT {
        return Some(f);
      }
      i := i + 1;
    }
    return None;
  }

  // ------------------------------------------------------- swapchain setup

  datatype Extent = Extent(width: nat, height: nat)

  /** `VkSurfaceCapabilitiesKHR`, the fields the kit reads. */
  datatype SurfaceCapabilities = SurfaceCapabilities(
    minImageCount: nat,
    maxImageCount: nat,
    currentExtent: Extent,
    minImageExtent: Extent,
    maxImageExtent: Extent)

  /** `WindowState` as `Window::getState` reports it. */
  datatype WindowState = WindowState(width: int, height: int, minimized: bool)

  /** The `(uint32_t)` cast of a window dimension. */
  function ToUint32(x: int): (r: nat)
    ensures IsUint32(r)
    ensures IsUint32(x) ==> r == x
  {
    x % (UINT32_MAX + 1)
  }

  /** `std::clamp(v, lo, hi)`: `lo` if below, `hi` if above, else `v`. */
  function Clamp(v: int, lo: int, hi: int): (r: int)
    ensures lo <= hi ==> lo <= r <= hi
    ensures lo <= v <= hi ==> r == v
    ensures v < lo ==> r == lo
  {
    if v < lo then lo else if hi < v then hi else v
  }

  /**
   * `getViewportExtent`: the surface's current extent, unless its width is
   * the "decided by the swapchain" marker UINT32_MAX; then each window
   * dimension, cast to `uint32_t`, is clamped into the allowed range.
   */
  function ViewportExtent(caps: SurfaceCapabilities, window: WindowState): (e: Extent)
    ensures caps.currentExtent.width != UINT32_MAX ==> e == caps.currentExtent
    ensures caps.currentExtent.width == UINT32_MAX && caps.minImageExtent.width <= caps.maxImageExtent.width ==>
      caps.minImageExtent.width <= e.width <= caps.maxImageExtent.width
    ensures caps.currentExtent.width == UINT32_MAX && caps.minImageExtent.height <= caps.maxImageExtent.height ==>
      caps.minImageExtent.height <= e.height <= caps.maxImageExtent.height
    ensures (caps.currentExtent.width == UINT32_MAX && IsUint32(window.width)
             && caps.minImageExtent.width <= window.width <= caps.maxImageExtent.width) ==> e.width == window.width
    ensures (caps.currentExtent.width == UINT32_MAX && IsUint32(window.height)
             && caps.minImageExtent.height <= window.height <= caps.maxImageExtent.height) ==> e.height == window.height
  {
    if caps.currentExtent.width != UINT32_MAX then caps.currentExtent
    else Extent(
      Clamp(ToUint32(window.width), caps.minImageExtent.width, caps.maxImageExtent.width),
      Clamp(ToUint32(window.height), caps.minImageExtent.height, caps.maxImageExtent.height))
  }

  /**
   * The swapchain image count: one more than the minimum (a `uint32_t`
   * addition), lowered to the maximum only when a maximum is given.
   */
  function SwapchainImageCount(caps: SurfaceCapabilities): (n: nat)
    ensures caps.maxImageCount > 0 ==> n <= caps.maxImageCount
    ensures caps.minImageCount < UINT32_MAX && (caps.maxImageCount == 0 || caps.minImageCount < caps.maxImageCount) ==>
      n == caps.minImageCount + 1
    ensures caps.minImageCount < UINT32_MAX && (caps.maxImageCount == 0 || caps.minImageCount <= caps.maxImageCount) ==>
      caps.minImageCount <= n <= caps.minImageCount + 1
  {
    var imageCount := (caps.minImageCount + 1) % (UINT32_MAX + 1);
    if caps.maxImageCount > 0 && imageCount > caps.maxImageCount then caps.maxImageCount else imageCount
  }

  /** MAILBOX ("triple buffering") when the device offers it, else FIFO (v-sync), which every device offers. */
  function SwapchainPresentMode(mailboxSupport: bool): (m: PresentMode)
    ensures m == Mailbox || m == Fifo
    ensures m == Mailbox <==> mailboxSupport
  {
    if mailboxSupport then Mailbox else Fifo
  }

  datatype SharingMode = Exclusive | Concurrent
  datatype Sharing = Sharing(mode: SharingMode, queueFamilyIndices: seq<int>)

  /** Images are shared CONCURRENTly between the two families when they differ, else owned EXCLUSIVEly. */
  function SwapchainSharing(graphics: int, present: int): (s: Sharing)
    ensures s.mode == Concurrent <==> graphics != present
    ensures s.mode == Concurrent ==> s.queueFamilyIndices == [graphics, present]
    ensures s.mode == Exclusive ==> s.queueFamilyIndices == []
  {
    if graphics != present then Sharing(Concurrent, [graphics, present]) else Sharing(Exclusive, [])
  }

  /** The parts of `VkSwapchainCreateInfoKHR` the kit chooses. */
  datatype SwapchainCreateInfo = SwapchainCreateInfo(
    minImageCount: nat,
    surfaceFormat: SurfaceFormat,
    extent: Extent,
    sharing: Sharing,
    presentMode: PresentMode)

  /** The create-info `createSwapChain` fills in for the chosen device, surface and window. */
  function SwapchainParameters(info: PhysicalDeviceInfo, caps: SurfaceCapabilities, window: WindowState): (c: SwapchainCreateInfo)
    ensures c.surfaceFormat == info.surfaceFormat
    ensures c.extent == ViewportExtent(caps, window)
    ensures c.minImageCount == SwapchainImageCount(caps)
    ensures c.presentMode == SwapchainPresentMode(info.mailboxSupport)
    ensures c.sharing == SwapchainSharing(info.graphicsFamilyIndex, info.presentFamilyIndex)
  {
    SwapchainCreateInfo(
      SwapchainImageCount(caps),
      info.surfaceFormat,
      ViewportExtent(caps, window),
      SwapchainSharing(info.graphicsFamilyIndex, info.presentFamilyIndex),
      SwapchainPresentMode(info.mailboxSupport))
  }
}

=== FILE: frame.dfy ===
/**
 * `Frame`: the per-frame-in-flight objects — a command buffer, the two
 * semaphores that order acquire, render and present, and the fence the CPU
 * waits on before reusing the frame.
 *
 * Handles are assigned through `Reference` move assignment, so overwriting a
 * live handle destroys it; every handle a frame destroys is appended to
 * `released`.
 */
module Frame {
  import opened Vk
  import opened Reference
  import opened Types


  class Frame {
    var index: nat
    var commandBuffer: Handle
    var imageAvailable: Handle
    var renderFinished: Handle
    var fence: Fence
    /** Every handle this frame has destroyed, oldest first. */
    var released: seq<Handle>

    /** A default-constructed frame (`frames_.resize`): all handles null. */
    constructor ()
      ensures index == 0
      ensures commandBuffer == NULL_HANDLE && imageAvailable == NULL_HANDLE && renderFinished == NULL_HANDLE
      ensures fresh(fence) && fence.handle == NULL_HANDLE && !fence.signaled && fence.ops == []
      ensures released == []
    {
      index := 0;
      commandBuffer := NULL_HANDLE;
      imageAvailable := NULL_HANDLE;
      renderFinished := NULL_HANDLE;
      fence := new Fence.Empty();
      released := [];
    }

    /**
     * `Frame::create(index)`: new command buffer, semaphores and a fence
     * created SIGNALED (so the first wait on it returns at once); each
     * assignment destroys the handle it replaces, in declaration order.
     */
    method Create(i: nat, cb: Handle, ia: Handle, rf: Handle, fh: Handle)
      modifies this
      ensures index == i
      ensures commandBuffer == cb && imageAvailable == ia && renderFinished == rf
      ensures fresh(fence) && fence.handle == fh && fence.signaled && fence.ops == []
      ensures released == old(released) + Freed(old(commandBuffer)) + Freed(old(imageAvailable))
        + Freed(old(renderFinished)) + Freed(old(fence.handle))
    {
      index := i;
      released := released + Freed(commandBuffer);
      commandBuffer := cb;
      released := released + Freed(imageAvailable);
      imageAvailable := ia;
      released := released + Freed(renderFinished);
      renderFinished := rf;
      released := released + Freed(fence.handle);
      fence := new Fence.Make(fh, true);
    }

    /** `Frame::destroy()`: index back to 0 and every handle freed, in declaration order. */
    method Destroy()
      modifies this`index, this`commandBuffer, this`imageAvailable, this`renderFinished, this`released, fence`handle
      ensures index == 0
      ensures commandBuffer == NULL_HANDLE && imageAvailable == NULL_HANDLE && renderFinished == NULL_HANDLE
      ensures fence.handle == NULL_HANDLE
      ensures released == old(released) + Freed(old(commandBuffer)) + Freed(old(imageAvailable))
        + Freed(old(renderFinished)) + Freed(old(fence.handle))
    {
      index := 0;
      released := released + Freed(commandBuffer) + Freed(imageAvailable) + Freed(renderFinished) + Freed(fence.handle);
      commandBuffer := NULL_HANDLE;
      imageAvailable := NULL_HANDLE;
      renderFinished := NULL_HANDLE;
      fence.Destroy();
    }
  }

  /**
   * A frame's life: creating a default frame destroys nothing, destroying it
   * destroys exactly the four handles it was given, in order, and a second
   * destroy (as `destroyFrames` after a failed rebuild) destroys nothing more.
   */
  method FrameLifecycle(cb: Handle, ia: Handle, rf: Handle, fh: Handle) returns (onCreate: seq<Handle>, onDestroy: seq<Handle>, onSecondDestroy: seq<Handle>)
    requires cb != NULL_HANDLE && ia != NULL_HANDLE && rf != NULL_HANDLE && fh != NULL_HANDLE
    ensures onCreate == []
    ensures onDestroy == [cb, ia, rf, fh]
    ensures onSecondDestroy == []
  {
    var f := new Frame();
    f.Create(0, cb, ia, rf, fh);
    onCreate := f.released;
    f.Destroy();
    onDestroy := f.released[|onCreate|..];
    var before := |f.released|;
    f.Destroy();
    onSecondDestroy := f.released[before..];
  }
}

=== FILE: material.dfy ===
/**
 * `Material`: the shaders, uniform buffers, textures and push-constant
 * ranges a draw call uses, and the graphics pipeline and descriptor sets
 * built from them.
 *
 * The material rebuilds only while its `modified` flag is set.  `make` sets
 * the flag and a successful rebuild clears it; no attach call and no setter
 * sets it again, so after the first successful compile later changes do not
 * reach the pipeline.  This compile-once behaviour is modelled as it is.
 *
 * Driver answers are a `MaterialDriver` value; the handles the driver hands
 * out are drawn from the counter `nextHandle`.  Every handle the material
 * frees is appended to `released`.  Textures are identified by a number, and
 * an attached buffer by its number together with the type, binding and size
 * it reports; each descriptor set records which buffers it asked for a
 * fresh per-frame object.
 */
module Material {
  import opened Wrappers
  import opened Vk
  import opened Types
  import opened Buffers
  import Reference

  datatype BlendMode = Normal | Additive | Multiply
  datatype BlendFactor = FactorZero | FactorOne | SrcAlpha | OneMinusSrcAlpha | DstColor
  datatype CullMode = CullNone | CullBack
  datatype FrontFace = CounterClockwise | Clockwise

  /** The six fixed-function settings, with their defaults from the header. */
  datatype Settings = Settings(
    enableBlending: bool,
    blendMode: BlendMode,
    backfaceCulling: bool,
    frontFaceClockwise: bool,
    depthTesting: bool,
    depthWriting: bool)

  const DEFAULT_SETTINGS := Settings(false, Normal, true, false, false, false)

  /**
   * Colour blend factors (source, destination) for a blend mode.  Only
   * Multiply reads the destination colour; Additive and Normal weight the
   * source by its alpha and differ in what they keep of the destination.
   */
  function BlendFactors(mode: BlendMode): (f: (BlendFactor, BlendFactor))
    ensures f.0 == DstColor <==> mode == Multiply
    ensures f.0 == SrcAlpha <==> mode != Multiply
    ensures f.1 == FactorOne <==> mode == Additive
    ensures f.1 == OneMinusSrcAlpha <==> mode == Normal
    ensures f.1 == FactorZero <==> mode == Multiply
  {
    match mode
    case Normal => (SrcAlpha, OneMinusSrcAlpha)
    case Additive => (SrcAlpha, FactorOne)
    case Multiply => (DstColor, FactorZero)
  }

  /** The blend mode a pair of colour blend factors comes from, if any. */
  function BlendModeOf(src: BlendFactor, dst: BlendFactor): (r: Option<BlendMode>)
    ensures r.Some? ==> BlendFactors(r.value) == (src, dst)
    ensures r.None? ==> forall m: BlendMode :: BlendFactors(m) != (src, dst)
  {
    if (src, dst) == (SrcAlpha, OneMinusSrcAlpha) then Some(Normal)
    else if (src, dst) == (SrcAlpha, FactorOne) then Some(Additive)
    else if (src, dst) == (DstColor, FactorZero) then Some(Multiply)
    else None
  }

  /** Distinct blend modes give distinct factor pairs, so the pipeline determines the mode. */
  lemma BlendFactorsRoundTrip(mode: BlendMode)
    ensures BlendModeOf(BlendFactors(mode).0, BlendFactors(mode).1) == Some(mode)
  {
  }

  // ------------------------------------------------------------ Shaders

  /** One entry of the pipeline's shader-stage list. */
  datatype ShaderStage = ShaderStage(stage: bv32, shaderModule: Handle, entryPoint: string)

  /** The stage `addShader` records: FRAGMENT for a fragment shader, VERTEX for any other type, entry "main". */
  function StageFor(shader: Shader): (s: ShaderStage)
    ensures s.stage == SHADER_STAGE_FRAGMENT_BIT <==> shader.shaderType == FragmentShaderType
    ensures s.stage == SHADER_STAGE_FRAGMENT_BIT || s.stage == SHADER_STAGE_VERTEX_BIT
    ensures s.shaderModule == shader.handle && s.entryPoint == "main"
  {
    ShaderStage(
      if shader.shaderType == FragmentShaderType then SHADER_STAGE_FRAGMENT_BIT else SHADER_STAGE_VERTEX_BIT,
      shader.handle, "main")
  }

  // ------------------------------------------- Descriptor layout and writes

  /** One `VkDescriptorSetLayoutBinding`. */
  datatype LayoutBinding = LayoutBinding(descriptorType: DescriptorType, binding: nat, descriptorCount: nat, stageFlags: bv32)

  /** One `VkWriteDescriptorSet`: a whole uniform buffer object, or a texture's view and sampler. */
  datatype DescriptorWrite =
    | BufferWrite(binding: nat, range: nat)
    | ImageWrite(binding: nat, texture: nat)
  {
    function DescriptorKind(): DescriptorType {
      if BufferWrite? then UniformBufferDescriptor else CombinedImageSampler
    }
  }

  datatype TextureInfo = TextureInfo(texture: nat, binding: nat)

  /** An attached buffer: its number, and the type, binding and size it reports. */
  datatype AttachedBuffer = AttachedBuffer(id: nat, bufferType: BufferType, binding: nat, size: nat)

  datatype PushConstantRange = PushConstantRange(offset: nat, size: nat, stageFlags: bv32)

  /** How many of the attached buffers are uniform buffers. */
  function UniformCount(bs: seq<AttachedBuffer>): (n: nat)
    ensures n <= |bs|
  {
    if bs == [] then 0
    else UniformCount(bs[..|bs| - 1]) + (if bs[|bs| - 1].bufferType == UniformBuffer then 1 else 0)
  }

  /** The numbers of the uniform buffers, in attach order: one per-frame allocation each. */
  function UniformIds(bs: seq<AttachedBuffer>): (r: seq<nat>)
    ensures |r| == UniformCount(bs)
  {
    if bs == [] then []
    else UniformIds(bs[..|bs| - 1]) + (if bs[|bs| - 1].bufferType == UniformBuffer then [bs[|bs| - 1].id] else [])
  }

  /** The layout bindings of the uniform buffers, in attach order. */
  function UniformBindings(bs: seq<AttachedBuffer>): (r: seq<LayoutBinding>)
    ensures |r| == UniformCount(bs)
  {
    if bs == [] then []
    else
      var b := bs[|bs| - 1];
      UniformBindings(bs[..|bs| - 1])
      + (if b.bufferType == UniformBuffer then [LayoutBinding(UniformBufferDescriptor, b.binding, 1, SHADER_STAGE_ALL_GRAPHICS)] else [])
  }

  function TextureBindings(textures: seq<TextureInfo>): (r: seq<LayoutBinding>)
    ensures |r| == |textures|
  {
    seq(|textures|, i requires 0 <= i < |textures| => LayoutBinding(CombinedImageSampler, textures[i].binding, 1, SHADER_STAGE_ALL_GRAPHICS))
  }

  /** The descriptor-set layout: uniform buffers first, then textures. */
  function LayoutBindings(bs: seq<AttachedBuffer>, textures: seq<TextureInfo>): seq<LayoutBinding>
  {
    UniformBindings(bs) + TextureBindings(textures)
  }

  /** The writes that fill one descriptor set, in the same order as the layout. */
  function BufferWrites(bs: seq<AttachedBuffer>): (r: seq<DescriptorWrite>)
  {
    if bs == [] then []
    else
      var b := bs[|bs| - 1];
      BufferWrites(bs[..|bs| - 1]) + (if b.bufferType == UniformBuffer then [BufferWrite(b.binding, b.size)] else [])
  }

  function TextureWrites(textures: seq<TextureInfo>): (r: seq<DescriptorWrite>)
  {
    seq(|textures|, i requires 0 <= i < |textures| => ImageWrite(textures[i].binding, textures[i].texture))
  }

  function SetWrites(bs: seq<AttachedBuffer>, textures: seq<TextureInfo>): seq<DescriptorWrite>
  {
    BufferWrites(bs) + TextureWrites(textures)
  }

  /** Every uniform buffer in the list, and only those, has a layout binding under its own binding number. */
  lemma {:induction false} UniformBindingsExactly(bs: seq<AttachedBuffer>, n: nat)
    ensures (exists k :: 0 <= k < |UniformBindings(bs)| && UniformBindings(bs)[k].binding == n)
        <==> (exists i :: 0 <= i < |bs| && bs[i].bufferType == UniformBuffer && bs[i].binding == n)
    ensures forall k :: 0 <= k < |UniformBindings(bs)| ==> UniformBindings(bs)[k].descriptorType == UniformBufferDescriptor
    decreases |bs|
  {
    if bs != [] {
      var init := bs[..|bs| - 1];
      UniformBindingsExactly(init, n);
      if exists i :: 0 <= i < |bs| && bs[i].bufferType == UniformBuffer && bs[i].binding == n {
        var i :| 0 <= i < |bs| && bs[i].bufferType == UniformBuffer && bs[i].binding == n;
        if i < |bs| - 1 {
          assert init[i] == bs[i];
          var k :| 0 <= k < |UniformBindings(init)| && UniformBindings(init)[k].binding == n;
          assert UniformBindings(bs)[k] == UniformBindings(init)[k];
        } else {
          assert UniformBindings(bs)[|UniformBindings(init)|].binding == n;
        }
      }
      if exists k :: 0 <= k < |UniformBindings(bs)| && UniformBindings(bs)[k].binding == n {
        var k :| 0 <= k < |UniformBindings(bs)| && UniformBindings(bs)[k].binding == n;
        if k < |UniformBindings(init)| {
          assert UniformBindings(init)[k] == UniformBindings(bs)[k];
          var i :| 0 <= i < |init| && init[i].bufferType == UniformBuffer && init[i].binding == n;
          assert bs[i] == init[i];
        } else {
          assert bs[|bs| - 1].bufferType == UniformBuffer && bs[|bs| - 1].binding == n;
        }
      }
    }
  }

  /** Every uniform buffer in the list, and only those, is asked for a per-frame object by each set. */
  lemma {:induction false} UniformIdsExactly(bs: seq<AttachedBuffer>, x: nat)
    ensures x in UniformIds(bs) <==> exists i :: 0 <= i < |bs| && bs[i].bufferType == UniformBuffer && bs[i].id == x
    decreases |bs|
  {
    if bs != [] {
      var init := bs[..|bs| - 1];
      UniformIdsExactly(init, x);
      if exists i :: 0 <= i < |bs| && bs[i].bufferType == UniformBuffer && bs[i].id == x {
        var i :| 0 <= i < |bs| && bs[i].bufferType == UniformBuffer && bs[i].id == x;
        if i < |bs| - 1 {
          assert init[i] == bs[i];
        }
      }
      if x in UniformIds(bs) && x !in UniformIds(init) {
        assert bs[|bs| - 1].bufferType == UniformBuffer && bs[|bs| - 1].id == x;
      }
      if x in UniformIds(init) {
        var i :| 0 <= i < |init| && init[i].bufferType == UniformBuffer && init[i].id == x;
        assert bs[i] == init[i];
      }
    }
  }

  /**
   * The writes of a descriptor set line up with the layout: one write per
   * layout binding, at the same position, with the same binding number and
   * descriptor type; a uniform write covers the buffer's whole size.
   */
  lemma {:induction false} WritesMatchLayout(bs: seq<AttachedBuffer>, textures: seq<TextureInfo>)
    ensures |SetWrites(bs, textures)| == |LayoutBindings(bs, textures)|
    ensures forall k :: 0 <= k < |SetWrites(bs, textures)| ==>
      && SetWrites(bs, textures)[k].binding == LayoutBindings(bs, textures)[k].binding
      && SetWrites(bs, textures)[k].DescriptorKind() == LayoutBindings(bs, textures)[k].descriptorType
  {
    UniformWritesMatch(bs);
  }

  lemma {:induction false} UniformWritesMatch(bs: seq<AttachedBuffer>)
    ensures |BufferWrites(bs)| == |UniformBindings(bs)|
    ensures forall k :: 0 <= k < |BufferWrites(bs)| ==>
      && BufferWrites(bs)[k].BufferWrite?
      && BufferWrites(bs)[k].binding == UniformBindings(bs)[k].binding
      && UniformBindings(bs)[k].descriptorType == UniformBufferDescriptor
    decreases |bs|
  {
    if bs != [] {
      UniformWritesMatch(bs[..|bs| - 1]);
    }
  }

  /**
   * The descriptor count `createDescriptorSets` sizes the pool with: none
   * exactly when there are no frames or nothing to bind, and otherwise at
   * least one per uniform buffer and texture.
   */
  function PoolSize(numFrames: nat, numUniformBuffers: nat, numTextures: nat): (n: nat)
    ensures n == 0 <==> numFrames == 0 || numUniformBuffers + numTextures == 0
    ensures numFrames > 0 ==> n >= numUniformBuffers + numTextures
  {
    numFrames * (numUniformBuffers + numTextures)
  }

  /**
   * That pool counts one descriptor per layout binding for each of the
   * frameCount sets, as long as the uniform counter agrees with the list.
   * The count is right; the type is not (`PoolTypeMatchesUniformsOnly`).
   */
  lemma PoolCoversSets(numFrames: nat, bs: seq<AttachedBuffer>, textures: seq<TextureInfo>, numUniformBuffers: nat)
    requires numUniformBuffers == UniformCount(bs)
    ensures PoolSize(numFrames, numUniformBuffers, |textures|) == numFrames * |LayoutBindings(bs, textures)|
  {
  }

  /**
   * The pool's single descriptor type is the uniform buffer, so of the
   * layout's bindings exactly the uniform ones are of the pool's type: every
   * texture binding asks for a combined image sampler the pool does not hold.
   */
  lemma PoolTypeMatchesUniformsOnly(n: nat, h: Handle, bs: seq<AttachedBuffer>, textures: seq<TextureInfo>)
    ensures var p := MakeDescriptorPool(n, h);
      forall k :: 0 <= k < |LayoutBindings(bs, textures)| ==>
        (LayoutBindings(bs, textures)[k].descriptorType == p.descriptorType <==> k < |UniformBindings(bs)|)
  {
    UniformBindingsExactly(bs, 0);
  }

  // ------------------------------------------------------ Pipeline state

  /** What the created graphics pipeline and its layout were built from. */
  datatype PipelineState = PipelineState(
    stages: seq<ShaderStage>,
    cullMode: CullMode,
    frontFace: FrontFace,
    depthTest: bool,
    depthWrite: bool,
    blendEnable: bool,
    srcColorBlend: BlendFactor,
    dstColorBlend: BlendFactor,
    setLayoutCount: nat,
    pushConstantRangeCount: nat,
    layout: Handle)

  const NO_PIPELINE := PipelineState([], CullNone, CounterClockwise, false, false, false, FactorOne, FactorOne, 0, 0, NULL_HANDLE)

  /** The state `createGraphicsPipeline` creates from the settings; blending is always on. */
  function PipelineFor(s: Settings, stages: seq<ShaderStage>, setLayout: Handle, numPushRanges: nat, layout: Handle): PipelineState
  {
    PipelineState(
      stages,
      if s.backfaceCulling then CullBack else CullNone,
      if s.frontFaceClockwise then Clockwise else CounterClockwise,
      s.depthTesting, s.depthWriting,
      true,
      BlendFactors(s.blendMode).0, BlendFactors(s.blendMode).1,
      if setLayout != NULL_HANDLE then 1 else 0,
      numPushRanges,
      layout)
  }

  /** `enableBlending` has no effect on the pipeline: blending is enabled whatever it says. */
  lemma PipelineIgnoresEnableBlending(s: Settings, on: bool, stages: seq<ShaderStage>, setLayout: Handle, n: nat, layout: Handle)
    ensures PipelineFor(s.(enableBlending := on), stages, setLayout, n, layout) == PipelineFor(s, stages, setLayout, n, layout)
    ensures PipelineFor(s, stages, setLayout, n, layout).blendEnable
  {
  }

  /** Cull mode and front face follow their two settings, and the blend factors determine the blend mode. */
  lemma PipelineReflectsSettings(s: Settings, stages: seq<ShaderStage>, setLayout: Handle, n: nat, layout: Handle)
    ensures var p := PipelineFor(s, stages, setLayout, n, layout);
      && (p.cullMode == CullBack <==> s.backfaceCulling)
      && (p.frontFace == Clockwise <==> s.frontFaceClockwise)
      && p.depthTest == s.depthTesting && p.depthWrite == s.depthWriting
      && BlendModeOf(p.srcColorBlend, p.dstColorBlend) == Some(s.blendMode)
      && (p.setLayoutCount == 1 <==> setLayout != NULL_HANDLE)
  {
    BlendFactorsRoundTrip(s.blendMode);
  }

  // ------------------------------------------------------------ Driver

  /** What the driver answers while a material is compiled. */
  datatype MaterialDriver = MaterialDriver(
    layoutResult: VkResult,
    pipelineLayoutResult: VkResult,
    pipelineResult: VkResult,
    poolResult: VkResult,
    setResult: VkResult,
    frameBufferError: Option<BufferError>)

  /**
   * Whether `createGraphicsPipeline()` then `createDescriptorSets()` both
   * succeed under the driver's answers, for a material with or without
   * layout bindings and with `uniforms` uniform buffers attached.
   */
  predicate BuildSucceeds(d: MaterialDriver, numFrames: nat, hasBindings: bool, uniforms: nat)
  {
    && (!hasBindings || d.layoutResult == Success)
    && d.pipelineLayoutResult == Success
    && d.pipelineResult == Success
    && d.poolResult == Success
    && (numFrames == 0 || (d.setResult == Success && (d.frameBufferError.None? || uniforms == 0)))
  }

  datatype MaterialError =
    | LayoutCreationFailed(result: VkResult)
    | PipelineLayoutCreationFailed(result: VkResult)
    | PipelineCreationFailed(result: VkResult)
    | PoolCreationFailed(result: VkResult)
    | SetAllocationFailed(result: VkResult)
    | FrameBufferFailed(error: BufferError)

  /** Commands `bind()` records into the current frame's command buffer. */
  datatype MaterialCommand =
    | BindPipeline(pipeline: Handle)
    | SetDepthTestEnable(enable: bool)
    | SetDepthWriteEnable(enable: bool)
    | BindDescriptorSets(layout: Handle, descriptorSet: Handle)

  /**
   * One allocated descriptor set: the layout it was allocated for, the
   * writes that filled it, and the numbers of the buffers whose newly
   * allocated per-frame objects its uniform writes point at.
   */
  datatype DescriptorSetState = DescriptorSetState(handle: Handle, layout: Handle, writes: seq<DescriptorWrite>, frameObjects: seq<nat>)

  /**
   * The descriptor sets of `numFrames` frames: consecutive handles, one
   * layout, the same writes, and each with its own fresh object in the
   * same buffers.
   */
  function FrameSets(numFrames: nat, firstHandle: nat, layout: Handle, writes: seq<DescriptorWrite>, ids: seq<nat>): (r: seq<DescriptorSetState>)
    ensures |r| == numFrames
  {
    seq(numFrames, f requires 0 <= f < numFrames => DescriptorSetState(firstHandle + f, layout, writes, ids))
  }

  lemma {:induction false} UniformCountPrefix(bs: seq<AttachedBuffer>, k: nat)
    requires k <= |bs|
    ensures UniformCount(bs[..k]) <= UniformCount(bs)
    decreases |bs|
  {
    if k < |bs| {
      var init := bs[..|bs| - 1];
      assert init[..k] == bs[..k];
      UniformCountPrefix(init, k);
    } else {
      assert bs[..k] == bs;
    }
  }

  class Material {
    var settings: Settings
    var modified: bool
    var descriptorPool: DescriptorPool
    var descriptorSetLayout: Handle
    var pipelineLayout: Handle
    var graphicsPipeline: Handle
    var pipeline: PipelineState
    var descriptorSets: seq<DescriptorSetState>

    var buffers: seq<AttachedBuffer>
    var numVertexBuffers: nat
    var numUniformBuffers: nat
    var textures: seq<TextureInfo>
    var shaders: seq<Shader>
    var shaderStages: seq<ShaderStage>
    var pushConstantRanges: seq<PushConstantRange>

    var nextHandle: nat
    var released: seq<Handle>

    /** The stage list mirrors the shader list, and the driver hands out non-null handles. */
    predicate Valid()
      reads this`shaders, this`shaderStages, this`nextHandle
    {
      && |shaderStages| == |shaders|
      && (forall i :: 0 <= i < |shaders| ==> shaderStages[i] == StageFor(shaders[i]))
      && nextHandle > 0
    }

    /** A default-constructed material: default settings, nothing attached, not modified. */
    constructor ()
      ensures Valid()
      ensures settings == DEFAULT_SETTINGS && !modified
      ensures buffers == [] && textures == [] && shaders == [] && pushConstantRanges == []
      ensures numVertexBuffers == 0 && numUniformBuffers == 0
      ensures graphicsPipeline == NULL_HANDLE && pipelineLayout == NULL_HANDLE && descriptorSetLayout == NULL_HANDLE
      ensures descriptorPool.handle == NULL_HANDLE && descriptorSets == [] && released == []
    {
      settings := DEFAULT_SETTINGS;
      modified := false;
      descriptorPool := DescriptorPool(NULL_HANDLE, 0, 0, UniformBufferDescriptor, 0);
      descriptorSetLayout := NULL_HANDLE;
      pipelineLayout := NULL_HANDLE;
      graphicsPipeline := NULL_HANDLE;
      pipeline := NO_PIPELINE;
      descriptorSets := [];
      buffers := [];
      numVertexBuffers := 0;
      numUniformBuffers := 0;
      textures := [];
      shaders := [];
      shaderStages := [];
      pushConstantRanges := [];
      nextHandle := 1;
      released := [];
    }

    /** `create()`: the one place the modified flag is set. */
    method Create()
      modifies this`modified
      ensures modified
    {
      modified := true;
    }

    // -------------------------------------------------------- Setters

    method SetEnableBlending(on: bool)
      modifies this`settings
      ensures settings == old(settings).(enableBlending := on)
    {
      settings := settings.(enableBlending := on);
    }

    method SetBlendMode(mode: BlendMode)
      modifies this`settings
      ensures settings == old(settings).(blendMode := mode)
    {
      settings := settings.(blendMode := mode);
    }

    method SetBackfaceCulling(on: bool)
      modifies this`settings
      ensures settings == old(settings).(backfaceCulling := on)
    {
      settings := settings.(backfaceCulling := on);
    }

    method SetFrontFaceClockwise(on: bool)
      modifies this`settings
      ensures settings == old(settings).(frontFaceClockwise := on)
    {
      settings := settings.(frontFaceClockwise := on);
    }

    method SetDepthTesting(on: bool)
      modifies this`settings
      ensures settings == old(settings).(depthTesting := on)
    {
      settings := settings.(depthTesting := on);
    }

    method SetDepthWriting(on: bool)
      modifies this`settings
      ensures settings == old(settings).(depthWriting := on)
    {
      settings := settings.(depthWriting := on);
    }

    // ---------------------------------------------------- Attach calls

    /** `addShader`: appends the shader and its stage, in call order. */
    method AddShader(shader: Shader)
      requires Valid()
      modifies this`shaders, this`shaderStages
      ensures Valid()
      ensures shaders == old(shaders) + [shader]
      ensures shaderStages == old(shaderStages) + [StageFor(shader)]
    {
      shaders := shaders + [shader];
      shaderStages := shaderStages + [StageFor(shader)];
    }

    /** `addBuffer`: appends the buffer; vertex and uniform buffers are counted, other types are not. */
    method AddBuffer(b: AttachedBuffer)
      modifies this`buffers, this`numVertexBuffers, this`numUniformBuffers
      ensures buffers == old(buffers) + [b]
      ensures numVertexBuffers == old(numVertexBuffers) + (if b.bufferType == VertexBuffer then 1 else 0)
      ensures numUniformBuffers == old(numUniformBuffers) + (if b.bufferType == UniformBuffer then 1 else 0)
      ensures old(numUniformBuffers == UniformCount(buffers)) ==> numUniformBuffers == UniformCount(buffers)
    {
      buffers := buffers + [b];
      assert buffers[..|buffers| - 1] == old(buffers);
      if b.bufferType == VertexBuffer {
        numVertexBuffers := numVertexBuffers + 1;
      } else if b.bufferType == UniformBuffer {
        numUniformBuffers := numUniformBuffers + 1;
      }
    }

    /** `addTexture`: appends the texture under its binding. */
    method AddTexture(texture: nat, binding: nat)
      modifies this`textures
      ensures textures == old(textures) + [TextureInfo(texture, binding)]
    {
      textures := textures + [TextureInfo(texture, binding)];
    }

    /** `getTexture`: the first attached texture with this binding, or none. */
    method GetTexture(binding: nat) returns (r: Option<nat>)
      ensures r.None? <==> forall i :: 0 <= i < |textures| ==> textures[i].binding != binding
      ensures r.Some? ==> exists i :: (0 <= i < |textures| && textures[i] == TextureInfo(r.value, binding)
        && forall j :: 0 <= j < i ==> textures[j].binding != binding)
    {
      var i := 0;
      while i < |textures|
        invariant 0 <= i <= |textures|
        invariant forall j :: 0 <= j < i ==> textures[j].binding != binding
      {
        if textures[i].binding == binding {
          return Some(textures[i].texture);
        }
        i := i + 1;
      }
      return None;
    }

    /** `addPushConstants`: a range at offset 0 over the block's size cast to 32 bits, for all graphics stages. */
    method AddPushConstants(size: nat)
      modifies this`pushConstantRanges
      ensures pushConstantRanges == old(pushConstantRanges) + [PushConstantRange(0, size % (UINT32_MAX + 1), SHADER_STAGE_ALL_GRAPHICS)]
    {
      pushConstantRanges := pushConstantRanges + [PushConstantRange(0, size % (UINT32_MAX + 1), SHADER_STAGE_ALL_GRAPHICS)];
    }

    // ------------------------------------------------ Freeing objects

    /** `freeDescriptorSets`: frees the pool and forgets the sets. */
    method FreeDescriptorSets()
      modifies this`descriptorPool, this`descriptorSets, this`released
      ensures released == old(released) + Reference.Freed(old(descriptorPool.handle))
      ensures descriptorPool == old(descriptorPool).(handle := NULL_HANDLE)
      ensures descriptorSets == []
    {
      released := released + Reference.Freed(descriptorPool.handle);
      descriptorPool := descriptorPool.(handle := NULL_HANDLE);
      descriptorSets := [];
    }

    /**
     * `freeGraphicsPipeline`: nothing when there is no pipeline; otherwise
     * frees the pipeline, its layout and the descriptor-set layout, in
     * that order, and nulls all three.
     */
    method FreeGraphicsPipeline()
      modifies this`graphicsPipeline, this`pipelineLayout, this`descriptorSetLayout, this`released
      ensures old(graphicsPipeline) == NULL_HANDLE ==>
        && released == old(released) && graphicsPipeline == NULL_HANDLE
        && pipelineLayout == old(pipelineLayout) && descriptorSetLayout == old(descriptorSetLayout)
      ensures old(graphicsPipeline) != NULL_HANDLE ==>
        && released == old(released) + [old(graphicsPipeline)] + Reference.Freed(old(pipelineLayout)) + Reference.Freed(old(descriptorSetLayout))
        && graphicsPipeline == NULL_HANDLE && pipelineLayout == NULL_HANDLE && descriptorSetLayout == NULL_HANDLE
    {
      if graphicsPipeline == NULL_HANDLE {
        return;
      }
      released := released + Reference.Freed(graphicsPipeline) + Reference.Freed(pipelineLayout) + Reference.Freed(descriptorSetLayout);
      graphicsPipeline := NULL_HANDLE;
      pipelineLayout := NULL_HANDLE;
      descriptorSetLayout := NULL_HANDLE;
    }

    /**
     * `destroy`: frees the descriptor sets and the pipeline objects, then
     * forgets every attached object and zeroes both counters.  The
     * modified flag and the settings are left as they are.
     */
    method Destroy()
      requires Valid()
      modifies this`descriptorPool, this`descriptorSets, this`released, this`graphicsPipeline, this`pipelineLayout,
        this`descriptorSetLayout, this`buffers, this`textures, this`shaders, this`shaderStages, this`pushConstantRanges,
        this`numVertexBuffers, this`numUniformBuffers
      ensures Valid()
      ensures descriptorSets == [] && descriptorPool.handle == NULL_HANDLE && graphicsPipeline == NULL_HANDLE
      ensures old(graphicsPipeline) != NULL_HANDLE ==> pipelineLayout == NULL_HANDLE && descriptorSetLayout == NULL_HANDLE
      ensures buffers == [] && textures == [] && shaders == [] && shaderStages == [] && pushConstantRanges == []
      ensures numVertexBuffers == 0 && numUniformBuffers == 0
    {
      FreeDescriptorSets();
      FreeGraphicsPipeline();
      buffers := [];
      textures := [];
      shaders := [];
      shaderStages := [];
      pushConstantRanges := [];
      numVertexBuffers := 0;
      numUniformBuffers := 0;
    }

    // ------------------------------------------------ Building objects

    /** The loops of `createGraphicsPipeline` that collect the layout bindings. */
    method CollectBindings() returns (bindings: seq<LayoutBinding>)
      ensures bindings == LayoutBindings(buffers, textures)
    {
      bindings := [];
      var i := 0;
      while i < |buffers|
        invariant 0 <= i <= |buffers|
        invariant bindings == UniformBindings(buffers[..i])
      {
        var b := buffers[i];
        assert buffers[..i + 1][..i] == buffers[..i];
        if b.bufferType == UniformBuffer {
          bindings := bindings + [LayoutBinding(UniformBufferDescriptor, b.binding, 1, SHADER_STAGE_ALL_GRAPHICS)];
        }
        i := i + 1;
      }
      assert buffers[..i] == buffers;
      var j := 0;
      while j < |textures|
        invariant 0 <= j <= |textures|
        invariant bindings == UniformBindings(buffers) + TextureBindings(textures[..j])
      {
        bindings := bindings + [LayoutBinding(CombinedImageSampler, textures[j].binding, 1, SHADER_STAGE_ALL_GRAPHICS)];
        j := j + 1;
      }
      assert textures[..j] == textures;
    }

    /**
     * `createGraphicsPipeline`: a descriptor-set layout only when there is at
     * least one binding, then the pipeline layout (one set layout iff a
     * descriptor-set layout exists, plus the push-constant ranges), then the
     * pipeline from the current settings and shader stages.  The first
     * failing driver call ends it with that call's error.
     */
    method CreateGraphicsPipeline(d: MaterialDriver) returns (err: Option<MaterialError>)
      requires Valid()
      modifies this`descriptorSetLayout, this`pipelineLayout, this`graphicsPipeline, this`pipeline, this`nextHandle
      ensures Valid() && nextHandle >= old(nextHandle)
      ensures var hasBindings := |LayoutBindings(buffers, textures)| > 0;
        && (err.None? <==> (!hasBindings || d.layoutResult == Success) && d.pipelineLayoutResult == Success && d.pipelineResult == Success)
        && (err == Some(LayoutCreationFailed(d.layoutResult)) <==> hasBindings && d.layoutResult != Success)
        && (hasBindings && d.layoutResult == Success ==> descriptorSetLayout != NULL_HANDLE)
        && (!hasBindings ==> descriptorSetLayout == old(descriptorSetLayout))
      ensures err.None? ==>
        && d.pipelineLayoutResult == Success && d.pipelineResult == Success
        && graphicsPipeline != NULL_HANDLE && pipelineLayout != NULL_HANDLE
        && pipeline == PipelineFor(settings, shaderStages, descriptorSetLayout, |pushConstantRanges|, pipelineLayout)
      ensures err.Some? ==> graphicsPipeline == old(graphicsPipeline)
    {
      var bindings := CollectBindings();
      if |bindings| > 0 {
        if d.layoutResult != Success {
          return Some(LayoutCreationFailed(d.layoutResult));
        }
        descriptorSetLayout := nextHandle;
        nextHandle := nextHandle + 1;
      }
      if d.pipelineLayoutResult != Success {
        return Some(PipelineLayoutCreationFailed(d.pipelineLayoutResult));
      }
      pipelineLayout := nextHandle;
      nextHandle := nextHandle + 1;
      if d.pipelineResult != Success {
        return Some(PipelineCreationFailed(d.pipelineResult));
      }
      graphicsPipeline := nextHandle;
      nextHandle := nextHandle + 1;
      pipeline := PipelineFor(settings, shaderStages, descriptorSetLayout, |pushConstantRanges|, pipelineLayout);
      return None;
    }

    /**
     * `createDescriptorSet`: allocates one set from the pool for the current
     * layout; then, in attach order, every uniform buffer allocates a fresh
     * per-frame object (once per occurrence) and contributes a write over
     * the buffer's size; then one write per texture.  The first failure ends
     * it.
     */
    method CreateDescriptorSet(d: MaterialDriver) returns (ds: DescriptorSetState, err: Option<MaterialError>)
      requires Valid()
      modifies this`nextHandle
      ensures Valid() && nextHandle == old(nextHandle) + 1
      ensures err.None? <==> d.setResult == Success && (d.frameBufferError.None? || UniformCount(buffers) == 0)
      ensures err.Some? ==> err == (if d.setResult != Success then Some(SetAllocationFailed(d.setResult))
                                    else Some(FrameBufferFailed(d.frameBufferError.value)))
      ensures err.Some? ==> err.value.SetAllocationFailed? || err.value.FrameBufferFailed?
      ensures err.None? ==>
        && ds == DescriptorSetState(old(nextHandle), descriptorSetLayout, SetWrites(buffers, textures), UniformIds(buffers))
    {
      ds := DescriptorSetState(nextHandle, descriptorSetLayout, [], []);
      nextHandle := nextHandle + 1;
      if d.setResult != Success {
        return ds, Some(SetAllocationFailed(d.setResult));
      }
      var writes: seq<DescriptorWrite> := [];
      var objects: seq<nat> := [];
      var j := 0;
      while j < |buffers|
        invariant 0 <= j <= |buffers|
        invariant nextHandle == old(nextHandle) + 1
        invariant writes == BufferWrites(buffers[..j])
        invariant objects == UniformIds(buffers[..j])
        invariant d.frameBufferError.Some? ==> UniformCount(buffers[..j]) == 0
      {
        var b := buffers[j];
        assert buffers[..j + 1][..j] == buffers[..j];
        if b.bufferType == UniformBuffer {
          if d.frameBufferError.Some? {
            assert UniformCount(buffers[..j + 1]) > 0;
            UniformCountPrefix(buffers, j + 1);
            return ds, Some(FrameBufferFailed(d.frameBufferError.value));
          }
          objects := objects + [b.id];
          writes := writes + [BufferWrite(b.binding, b.size)];
        }
        j := j + 1;
      }
      assert buffers[..j] == buffers;
      ds := ds.(writes := writes + TextureWrites(textures), frameObjects := objects);
      return ds, None;
    }

    /**
     * `createDescriptorSets`: a pool sized frameCount × (uniform buffers +
     * textures), then exactly frameCount descriptor sets, one per frame in
     * frame order, each with consecutive handles.  Every uniform buffer is
     * asked for one per-frame object per frame and per occurrence.
     */
    method CreateDescriptorSets(numFrames: nat, d: MaterialDriver) returns (err: Option<MaterialError>)
      requires Valid()
      modifies this`descriptorPool, this`descriptorSets, this`nextHandle
      ensures Valid() && nextHandle >= old(nextHandle)
      ensures err == Some(PoolCreationFailed(d.poolResult)) <==> d.poolResult != Success
      ensures err.None? <==>
        d.poolResult == Success && (numFrames == 0 || (d.setResult == Success && (d.frameBufferError.None? || UniformCount(buffers) == 0)))
      ensures err.None? ==>
        && descriptorPool == MakeDescriptorPool(PoolSize(numFrames, numUniformBuffers, |textures|), old(nextHandle))
        && descriptorSets == FrameSets(numFrames, descriptorPool.handle + 1, descriptorSetLayout, SetWrites(buffers, textures), UniformIds(buffers))
    {
      if d.poolResult != Success {
        return Some(PoolCreationFailed(d.poolResult));
      }
      descriptorPool := MakeDescriptorPool(PoolSize(numFrames, numUniformBuffers, |textures|), nextHandle);
      nextHandle := nextHandle + 1;
      err := AllocateSets(numFrames, d);
    }

    /** The frame loop of `createDescriptorSets`: the old sets are dropped and one set per frame is made, in frame order. */
    method AllocateSets(numFrames: nat, d: MaterialDriver) returns (err: Option<MaterialError>)
      requires Valid()
      modifies this`descriptorSets, this`nextHandle
      ensures Valid() && nextHandle >= old(nextHandle)
      ensures err.None? <==> numFrames == 0 || (d.setResult == Success && (d.frameBufferError.None? || UniformCount(buffers) == 0))
      ensures err.Some? ==> err.value.SetAllocationFailed? || err.value.FrameBufferFailed?
      ensures err.None? ==>
        && descriptorSets == FrameSets(numFrames, old(nextHandle), descriptorSetLayout, SetWrites(buffers, textures), UniformIds(buffers))
    {
      descriptorSets := [];
      var f := 0;
      while f < numFrames
        invariant 0 <= f <= numFrames
        invariant Valid() && nextHandle == old(nextHandle) + f
        invariant descriptorSets == FrameSets(f, old(nextHandle), descriptorSetLayout, SetWrites(buffers, textures), UniformIds(buffers))
        invariant f > 0 ==> d.setResult == Success && (d.frameBufferError.None? || UniformCount(buffers) == 0)
      {
        var ds, e := CreateDescriptorSet(d);
        if e.Some? {
          return e;
        }
        descriptorSets := descriptorSets + [ds];
        f := f + 1;
      }
      return None;
    }

    /**
     * The part of `update()` that runs when the material is modified: frees
     * the descriptor sets and the pipeline objects, then creates the
     * pipeline and then the descriptor sets.
     */
    method Rebuild(numFrames: nat, d: MaterialDriver) returns (err: Option<MaterialError>)
      requires Valid()
      modifies this`descriptorPool, this`descriptorSets, this`released, this`graphicsPipeline,
        this`pipelineLayout, this`descriptorSetLayout, this`pipeline, this`nextHandle
      ensures Valid()
      ensures released == old(released) + Reference.Freed(old(descriptorPool.handle))
        + (if old(graphicsPipeline) == NULL_HANDLE then []
           else [old(graphicsPipeline)] + Reference.Freed(old(pipelineLayout)) + Reference.Freed(old(descriptorSetLayout)))
      ensures err.None? <==> BuildSucceeds(d, numFrames, |LayoutBindings(buffers, textures)| > 0, UniformCount(buffers))
      ensures err.None? ==>
        && graphicsPipeline != NULL_HANDLE
        && pipeline == PipelineFor(settings, shaderStages, descriptorSetLayout, |pushConstantRanges|, pipelineLayout)
        && descriptorPool.size == PoolSize(numFrames, numUniformBuffers, |textures|)
        && descriptorSets == FrameSets(numFrames, descriptorPool.handle + 1, descriptorSetLayout, SetWrites(buffers, textures), UniformIds(buffers))
    {
      FreeDescriptorSets();
      FreeGraphicsPipeline();
      err := Build(numFrames, d);
    }

    /**
     * The creating half of `update()`: `createGraphicsPipeline()` then
     * `createDescriptorSets()`.  It neither looks at the modified flag nor
     * frees anything; `Update` frees first.
     */
    method Build(numFrames: nat, d: MaterialDriver) returns (err: Option<MaterialError>)
      requires Valid()
      modifies this`descriptorPool, this`descriptorSets, this`graphicsPipeline,
        this`pipelineLayout, this`descriptorSetLayout, this`pipeline, this`nextHandle
      ensures Valid()
      ensures err.None? <==> BuildSucceeds(d, numFrames, |LayoutBindings(buffers, textures)| > 0, UniformCount(buffers))
      ensures err.None? ==>
        && graphicsPipeline != NULL_HANDLE
        && pipeline == PipelineFor(settings, shaderStages, descriptorSetLayout, |pushConstantRanges|, pipelineLayout)
        && descriptorPool.size == PoolSize(numFrames, numUniformBuffers, |textures|)
        && descriptorSets == FrameSets(numFrames, descriptorPool.handle + 1, descriptorSetLayout, SetWrites(buffers, textures), UniformIds(buffers))
    {
      err := CreateGraphicsPipeline(d);
      if err.Some? {
        return;
      }
      err := CreateDescriptorSets(numFrames, d);
    }

    /**
     * `update()` (and `compile()`): nothing unless modified; otherwise a
     * rebuild, and only a successful one clears the flag.  A failure leaves
     * the flag set, so the next call starts over.
     */
    method Update(numFrames: nat, d: MaterialDriver) returns (err: Option<MaterialError>)
      requires Valid()
      modifies this`modified, this`descriptorPool, this`descriptorSets, this`released, this`graphicsPipeline,
        this`pipelineLayout, this`descriptorSetLayout, this`pipeline, this`nextHandle
      ensures Valid()
      ensures !old(modified) ==> err.None? && unchanged(this)
      ensures old(modified) ==> (err.None? <==> !modified)
      ensures err.None? <==> !old(modified) || BuildSucceeds(d, numFrames, |LayoutBindings(buffers, textures)| > 0, UniformCount(buffers))
      ensures old(modified) ==>
        released == old(released) + Reference.Freed(old(descriptorPool.handle))
          + (if old(graphicsPipeline) == NULL_HANDLE then []
             else [old(graphicsPipeline)] + Reference.Freed(old(pipelineLayout)) + Reference.Freed(old(descriptorSetLayout)))
      ensures old(modified) && err.None? ==>
        && graphicsPipeline != NULL_HANDLE
        && pipeline == PipelineFor(settings, shaderStages, descriptorSetLayout, |pushConstantRanges|, pipelineLayout)
        && descriptorPool.size == PoolSize(numFrames, numUniformBuffers, |textures|)
        && descriptorSets == FrameSets(numFrames, descriptorPool.handle + 1, descriptorSetLayout, SetWrites(buffers, textures), UniformIds(buffers))
    {
      if !modified {
        return None;
      }
      err := Rebuild(numFrames, d);
      if err.None? {
        modified := false;
      }
    }

    /**
     * `bind()`: updates, then binds the pipeline, sets the two dynamic depth
     * states from the current settings and binds the set of the current
     * frame.
     */
    method Bind(frameIndex: nat, numFrames: nat, d: MaterialDriver) returns (cmds: seq<MaterialCommand>, err: Option<MaterialError>)
      requires Valid()
      requires frameIndex < numFrames && (modified || frameIndex < |descriptorSets|)
      modifies this`modified, this`descriptorPool, this`descriptorSets, this`released, this`graphicsPipeline,
        this`pipelineLayout, this`descriptorSetLayout, this`pipeline, this`nextHandle
      ensures Valid()
      ensures err.None? <==> !old(modified) || BuildSucceeds(d, numFrames, |LayoutBindings(buffers, textures)| > 0, UniformCount(buffers))
      ensures err.Some? ==> cmds == [] && old(modified) && modified
      ensures err.None? ==> !modified && frameIndex < |descriptorSets| && cmds == [
        BindPipeline(graphicsPipeline),
        SetDepthTestEnable(settings.depthTesting),
        SetDepthWriteEnable(settings.depthWriting),
        BindDescriptorSets(pipelineLayout, descriptorSets[frameIndex].handle)]
      ensures !old(modified) ==> err.None? && cmds[0] == BindPipeline(old(graphicsPipeline))
    {
      cmds := [];
      err := Update(numFrames, d);
      if err.Some? {
        return;
      }
      cmds := [
        BindPipeline(graphicsPipeline),
        SetDepthTestEnable(settings.depthTesting),
        SetDepthWriteEnable(settings.depthWriting),
        BindDescriptorSets(pipelineLayout, descriptorSets[frameIndex].handle)];
    }
  }

  /** `Material::make()`: a default material with the modified flag set, so its first update builds it. */
  method MakeMaterial() returns (m: Material)
    ensures fresh(m) && m.Valid() && m.modified && m.settings == DEFAULT_SETTINGS
    ensures m.buffers == [] && m.textures == [] && m.shaders == [] && m.graphicsPipeline == NULL_HANDLE
  {
    m := new Material();
    m.Create();
  }

  /**
   * Compile-once: after a successful update, changing a setting and
   * updating again leaves the pipeline exactly as it was, although the
   * setting now differs from what the pipeline was built from.
   */
  method SetAfterCompile(m: Material, mode: BlendMode, numFrames: nat, d: MaterialDriver) returns (err: Option<MaterialError>)
    requires m.Valid() && m.modified
    modifies m
    ensures err.None? ==> m.settings.blendMode == mode && m.graphicsPipeline != NULL_HANDLE
    ensures err.None? ==> var p := m.pipeline;
      (p.srcColorBlend, p.dstColorBlend) == BlendFactors(old(m.settings.blendMode))
  {
    err := m.Update(numFrames, d);
    if err.Some? {
      return;
    }
    var built := m.pipeline;
    assert (built.srcColorBlend, built.dstColorBlend) == BlendFactors(old(m.settings.blendMode));
    m.SetBlendMode(mode);
    err := m.Update(numFrames, d);
    assert m.pipeline == built;
  }
}

=== FILE: primitives.dfy ===
/** The resource descriptor the asset compiler generates and `Resources` looks up. */
module Primitives {
  newtype Byte = x: int | 0 <= x < 256

  datatype ResourceType = Unknown | Data | Text | Bitmap | VertexShader | FragmentShader

  /** `ResourceDescriptor`: a named blob; `data` stands for the `data`/`dataSize` pair. */
  datatype ResourceDescriptor = ResourceDescriptor(name: string, data: seq<Byte>, resourceType: ResourceType)
}

=== FILE: reference.dfy ===
/**
 * `Reference<T>`: the wrapper every Vulkan object of the kit keeps its handle
 * in.  It either owns the handle (and destroys it when freed) or merely
 * borrows it (`attached`, e.g. swapchain images owned by the driver).
 *
 * The per-type `destroy()` specialisation is the Vulkan call; here it is
 * recorded by appending the handle to `destroyed`, so every contract can say
 * exactly which handles were destroyed and how often.
 */
module Reference {
  import opened Vk

  /**
   * The handles one `free()` passes to `destroy()`.  For a pointer handle a
   * null handle is skipped; a non-pointer handle cannot be null, so an owned
   * one is always destroyed.
   */
  function DestroyedByFree(pointerHandle: bool, h: Handle, attached: bool): (r: seq<Handle>)
    ensures |r| <= 1
    ensures forall x :: x in r ==> x == h
    ensures r != [] <==> !attached && (h != NULL_HANDLE || !pointerHandle)
  {
    if attached then []
    else if pointerHandle && h == NULL_HANDLE then []
    else [h]
  }

  /** The handles freeing one owned pointer handle destroys: the handle itself, unless it is null. */
  function Freed(h: Handle): (r: seq<Handle>)
    ensures r == [] <==> h == NULL_HANDLE
    ensures |r| <= 1 && forall x :: x in r ==> x == h
  {
    DestroyedByFree(true, h, false)
  }

  class Reference {
    /** Whether T is a pointer type (`std::is_pointer_v<T>`); every Vulkan handle is on 64-bit targets. */
    const pointerHandle: bool
    var handle: Handle
    var attached: bool
    /** Every handle this wrapper has passed to `destroy()`, oldest first. */
    var destroyed: seq<Handle>

    /** `Reference()`: a null, owned slot. */
    constructor Empty(pointerHandle: bool)
      ensures this.pointerHandle == pointerHandle
      ensures handle == NULL_HANDLE && !attached && destroyed == []
    {
      this.pointerHandle := pointerHandle;
      handle := NULL_HANDLE;
      attached := false;
      destroyed := [];
    }

    /** `Reference(T handle)`: takes ownership of `h`. */
    constructor Wrap(pointerHandle: bool, h: Handle)
      ensures this.pointerHandle == pointerHandle
      ensures handle == h && !attached && destroyed == []
    {
      this.pointerHandle := pointerHandle;
      handle := h;
      attached := false;
      destroyed := [];
    }

    /** The move constructor: takes over handle and flag, leaves `src` null and unattached. */
    constructor MoveFrom(src: Reference)
      requires src.pointerHandle
      modifies src
      ensures pointerHandle
      ensures handle == old(src.handle) && attached == old(src.attached) && destroyed == []
      ensures src.handle == NULL_HANDLE && !src.attached && src.destroyed == old(src.destroyed)
    {
      pointerHandle := true;
      handle := src.handle;
      attached := src.attached;
      destroyed := [];
      new;
      src.handle := NULL_HANDLE;
      src.attached := false;
    }

    function IsNull(): (r: bool)
      reads this
      ensures pointerHandle ==> (r <==> handle == NULL_HANDLE)
      ensures !pointerHandle ==> !r
    {
      if pointerHandle then handle == NULL_HANDLE else false
    }

    function NotNull(): (r: bool)
      reads this
      ensures r <==> !IsNull()
    {
      if pointerHandle then handle != NULL_HANDLE else true
    }

    /** `free()`: destroys an owned handle, then leaves the slot null and owned. */
    method Free()
      modifies this`handle, this`attached, this`destroyed
      ensures handle == NULL_HANDLE && !attached
      ensures destroyed == old(destroyed) + DestroyedByFree(pointerHandle, old(handle), old(attached))
    {
      if pointerHandle {
        if handle != NULL_HANDLE {
          if !attached {
            destroyed := destroyed + [handle];
          }
          handle := NULL_HANDLE;
        }
      } else {
        if !attached {
          destroyed := destroyed + [handle];
        }
        handle := NULL_HANDLE;
      }
      attached := false;
    }

    /** `attach(h)`: stores a borrowed handle; the previous one is neither freed nor destroyed. */
    method Attach(h: Handle)
      modifies this`handle, this`attached
      ensures handle == h && attached
    {
      handle := h;
      attached := true;
    }

    /** `operator=(T)`: frees the current handle, then owns `h`. */
    method Assign(h: Handle)
      modifies this`handle, this`attached, this`destroyed
      ensures handle == h && !attached
      ensures destroyed == old(destroyed) + DestroyedByFree(pointerHandle, old(handle), old(attached))
    {
      Free();
      handle := h;
    }

    /** Move assignment: a self-move does nothing; otherwise free, then take over `src`. */
    method MoveAssign(src: Reference)
      requires pointerHandle && src.pointerHandle
      modifies this, src
      ensures src == this ==> handle == old(handle) && attached == old(attached) && destroyed == old(destroyed)
      ensures src != this ==>
        && handle == old(src.handle) && attached == old(src.attached)
        && destroyed == old(destroyed) + DestroyedByFree(pointerHandle, old(handle), old(attached))
        && src.handle == NULL_HANDLE && !src.attached && src.destroyed == old(src.destroyed)
    {
      if src == this {
        return;
      }
      Free();
      handle := src.handle;
      src.handle := NULL_HANDLE;
      attached := src.attached;
      src.attached := false;
    }

    /** The destructor `~Reference()`: one last `free()`. */
    method Dispose()
      modifies this`handle, this`attached, this`destroyed
      ensures handle == NULL_HANDLE && !attached
      ensures destroyed == old(destroyed) + DestroyedByFree(pointerHandle, old(handle), old(attached))
    {
      Free();
    }
  }

  /**
   * An owned handle is destroyed exactly once over its lifetime even when the
   * destructor runs after an explicit `free()`; a borrowed one never is.
   */
  method FreeThenDispose(pointerHandle: bool, h: Handle, borrowed: bool) returns (destroyed: seq<Handle>)
    requires pointerHandle
    ensures borrowed ==> destroyed == []
    ensures !borrowed && h != NULL_HANDLE ==> destroyed == [h]
    ensures !borrowed && h == NULL_HANDLE ==> destroyed == []
  {
    var r := new Reference.Empty(pointerHandle);
    if borrowed {
      r.Attach(h);
    } else {
      r.Assign(h);
    }
    r.Free();
    r.Dispose();
    destroyed := r.destroyed;
  }
}

=== FILE: resources.dfy ===
/**
 * `Resources`: a table of resource descriptors by name, and three caches of
 * objects built from them on first request: shaders, images and textures.
 *
 * A shader is built with `Types.MakeShader`, whose driver answer is a
 * parameter.  Image decoding and texture creation lie outside this model:
 * a built image or texture is a record of the handle it was given and what
 * it was built from.  Handles come from the counter `nextHandle`.  A lookup
 * of an unknown name is an error value where the source raises.
 */
module Registry {
  import opened Wrappers
  import opened Vk
  import opened Primitives
  import opened Types

  datatype ImageRecord = ImageRecord(handle: Handle, source: ResourceDescriptor)
  datatype TextureRecord = TextureRecord(handle: Handle, image: ImageRecord)

  datatype ResourceError = NotFound(id: string) | ShaderFailed(error: ShaderError)

  /** The table after storing each descriptor of `ds` in turn under its name. */
  function Register(m: map<string, ResourceDescriptor>, ds: seq<ResourceDescriptor>): map<string, ResourceDescriptor>
  {
    if ds == [] then m
    else Register(m, ds[..|ds| - 1])[ds[|ds| - 1].name := ds[|ds| - 1]]
  }

  /**
   * Registering adds exactly the names in `ds`, keeps every entry whose name
   * is not in `ds`, and for a repeated name keeps the last descriptor.
   */
  lemma {:induction false} RegisterLookup(m: map<string, ResourceDescriptor>, ds: seq<ResourceDescriptor>, k: string)
    ensures k in Register(m, ds) <==> k in m || exists i :: 0 <= i < |ds| && ds[i].name == k
    ensures (forall i :: 0 <= i < |ds| ==> ds[i].name != k) && k in m ==> Register(m, ds)[k] == m[k]
    ensures forall i :: 0 <= i < |ds| && ds[i].name == k && (forall j :: i < j < |ds| ==> ds[j].name != k) ==>
      (k in Register(m, ds) && Register(m, ds)[k] == ds[i])
  {
    if ds != [] {
      var n := |ds| - 1;
      var p := ds[..n];
      RegisterLookup(m, p, k);
      assert forall i :: 0 <= i < n ==> p[i] == ds[i];
      if ds[n].name != k {
        assert (exists i :: 0 <= i < |ds| && ds[i].name == k) <==> (exists i :: 0 <= i < n && p[i].name == k);
      }
    }
  }

  class Resources {
    var descriptors: map<string, ResourceDescriptor>
    var shaders: map<string, Shader>
    var images: map<string, ImageRecord>
    var textures: map<string, TextureRecord>
    var nextHandle: Handle

    /**
     * Only names with a descriptor are cached, a cached texture was made
     * from the image cached under the same name, and every cached handle
     * was handed out before `nextHandle`.
     */
    predicate Valid()
      reads this
    {
      shaders.Keys <= descriptors.Keys && images.Keys <= descriptors.Keys
      && textures.Keys <= images.Keys
      && (forall id :: id in textures ==> textures[id].image == images[id])
      && 0 < nextHandle
      && (forall id :: id in shaders ==> 0 < shaders[id].handle < nextHandle)
      && (forall id :: id in images ==> 0 < images[id].handle < nextHandle)
      && (forall id :: id in textures ==> 0 < textures[id].handle < nextHandle)
    }

    constructor ()
      ensures Valid()
      ensures descriptors == map[] && shaders == map[] && images == map[] && textures == map[]
    {
      descriptors := map[];
      shaders := map[];
      images := map[];
      textures := map[];
      nextHandle := 1;
    }

    /** `create`: stores every descriptor under its name, in list order. */
    method Create(ds: seq<ResourceDescriptor>)
      requires Valid()
      modifies this`descriptors
      ensures Valid()
      ensures descriptors == Register(old(descriptors), ds)
    {
      var i := 0;
      while i < |ds|
        invariant i <= |ds|
        invariant descriptors == Register(old(descriptors), ds[..i])
        invariant old(descriptors).Keys <= descriptors.Keys
      {
        var id := ds[i].name;
        descriptors := descriptors[id := ds[i]];
        assert ds[..i + 1][..i] == ds[..i];
        i := i + 1;
      }
      assert ds[..i] == ds;
    }

    /** `destroy`: empties the three caches; the descriptor table stays. */
    method Destroy()
      requires Valid()
      modifies this`shaders, this`images, this`textures
      ensures Valid()
      ensures shaders == map[] && images == map[] && textures == map[]
    {
      shaders := map[];
      images := map[];
      textures := map[];
    }

    /** `get`: the descriptor stored under `id`. */
    function Get(id: string): (r: Result<ResourceDescriptor, ResourceError>)
      reads this
      ensures r.Ok? <==> id in descriptors
      ensures r.Ok? ==> r.value == descriptors[id] && r.value in descriptors.Values
      ensures r.Err? ==> r.error == NotFound(id)
    {
      if id in descriptors then Ok(descriptors[id]) else Err(NotFound(id))
    }

    /**
     * `getShader`: the cached shader if there is one; otherwise builds it
     * from the descriptor and caches it.  A failed build caches nothing.
     */
    method GetShader(id: string, createResult: VkResult) returns (r: Result<Shader, ResourceError>)
      requires Valid()
      modifies this`shaders, this`nextHandle
      ensures Valid()
      ensures id in old(shaders) ==> r == Ok(old(shaders)[id]) && shaders == old(shaders) && nextHandle == old(nextHandle)
      ensures id !in old(shaders) && id !in descriptors ==> r == Err(NotFound(id)) && shaders == old(shaders)
      ensures id !in old(shaders) && id in descriptors ==>
        match MakeShader(descriptors[id], createResult, old(nextHandle))
        case Ok(s) => r == Ok(s) && shaders == old(shaders)[id := s] && nextHandle == old(nextHandle) + 1
        case Err(e) => r == Err(ShaderFailed(e)) && shaders == old(shaders) && nextHandle == old(nextHandle)
      ensures r.Ok? ==> id in shaders && shaders[id] == r.value
    {
      if id in shaders {
        return Ok(shaders[id]);
      }
      var d := Get(id);
      if d.Err? {
        return Err(d.error);
      }
      var s := MakeShader(d.value, createResult, nextHandle);
      if s.Err? {
        return Err(ShaderFailed(s.error));
      }
      shaders := shaders[id := s.value];
      nextHandle := nextHandle + 1;
      return Ok(s.value);
    }

    /** `getImage`: the cached image if there is one; otherwise builds it from the descriptor and caches it. */
    method GetImage(id: string) returns (r: Result<ImageRecord, ResourceError>)
      requires Valid()
      modifies this`images, this`nextHandle
      ensures Valid()
      ensures id in old(images) ==> r == Ok(old(images)[id]) && images == old(images) && nextHandle == old(nextHandle)
      ensures id !in old(images) && id !in descriptors ==> r == Err(NotFound(id)) && images == old(images) && nextHandle == old(nextHandle)
      ensures id !in old(images) && id in descriptors ==>
        r == Ok(ImageRecord(old(nextHandle), descriptors[id])) && images == old(images)[id := r.value]
        && nextHandle == old(nextHandle) + 1
      ensures r.Ok? ==> id in images && images[id] == r.value
    {
      if id in images {
        return Ok(images[id]);
      }
      var d := Get(id);
      if d.Err? {
        return Err(d.error);
      }
      var image := ImageRecord(nextHandle, d.value);
      images := images[id := image];
      nextHandle := nextHandle + 1;
      return Ok(image);
    }

    /**
     * `getTexture`: the cached texture if there is one; otherwise builds it
     * from `getImage(id)`, so the image is cached under the same name too.
     */
    method GetTexture(id: string) returns (r: Result<TextureRecord, ResourceError>)
      requires Valid()
      modifies this`images, this`textures, this`nextHandle
      ensures Valid()
      ensures id in old(textures) ==> r == Ok(old(textures)[id]) && textures == old(textures) && images == old(images)
      ensures id !in old(textures) && id !in descriptors ==> r == Err(NotFound(id)) && textures == old(textures) && images == old(images)
      ensures id !in old(textures) && id in descriptors ==>
        r.Ok? && textures == old(textures)[id := r.value]
        && (id in old(images) ==> images == old(images) && r.value.image == old(images)[id])
        && (id !in old(images) ==> images == old(images)[id := r.value.image] && r.value.image.source == descriptors[id])
      ensures r.Ok? ==> id in textures && textures[id] == r.value && id in images && r.value.image == images[id]
    {
      if id in textures {
        return Ok(textures[id]);
      }
      var image := GetImage(id);
      if image.Err? {
        return Err(image.error);
      }
      var texture := TextureRecord(nextHandle, image.value);
      textures := textures[id := texture];
      nextHandle := nextHandle + 1;
      return Ok(texture);
    }
  }

  /**
   * After `destroy` every descriptor can still be looked up, and the next
   * request builds the object again with a new handle.
   */
  method DestroyKeepsDescriptors(res: Resources, id: string) returns (r: Result<ImageRecord, ResourceError>)
    requires res.Valid() && id in res.descriptors
    modifies res
    ensures res.Valid() && res.Get(id) == Ok(old(res.descriptors)[id])
    ensures r.Ok? && r.value.handle >= old(res.nextHandle) && r.value.source == res.descriptors[id]
  {
    res.Destroy();
    r := res.GetImage(id);
  }
}

=== FILE: sprite.dfy ===
/**
 * `Quad`: one textured rectangle with its own four vertices, six indices
 * and vertex/index buffers, and `Sprite`, the plain record a sprite batch
 * copies a quad's appearance from.
 *
 * A quad keeps its appearance (`coords` as x, y, width, height; `color`;
 * `texcoords` as u, v, width, height; `texmask`; `flags`) separately from
 * its vertices.  Every setter only records the new value and sets
 * `modified`; `update` turns the appearance into four vertices and copies
 * them into the vertex buffer, which is modelled as the sequence
 * `vertexBuffer`.  The draw call is returned as a list of commands.
 */
module Sprites {
  import opened VertexLayout

  /** The two triangles of a quad, as offsets into its four corners: (2,1,0) and (0,3,2). */
  const QUAD_INDICES: seq<nat> := [2, 1, 0, 0, 3, 2]

  const DEFAULT_COORDS := Vec4(0.0, 0.0, 100.0, 100.0)
  const DEFAULT_COLOR := Vec4(1.0, 1.0, 1.0, 1.0)
  const DEFAULT_TEXTURE_COORDS := Vec4(0.0, 0.0, 1.0, 1.0)
  const DEFAULT_TEXTURE_MASK: nat := 1
  const DEFAULT_FLAGS: nat := 0

  /** A vertex nothing has been written to yet. */
  const BLANK_VERTEX := Vertex(Vec3(0.0, 0.0, 0.0), Vec4(0.0, 0.0, 0.0, 0.0), Vec2(0.0, 0.0), 0, 0)

  /** What a draw asks the device for: bind both buffers, then draw this many indices. */
  datatype DrawCommand = BindVertexBuffer | BindIndexBuffer | DrawIndexed(indexCount: nat)

  /** Corner c of the rectangle (x, y, w, h), going (x,y), (x+w,y), (x+w,y+h), (x,y+h). */
  function Corner(r: Vec4, c: nat): Vec2
    requires c < 4
  {
    var x1 := r.x + r.z;
    var y1 := r.y + r.w;
    if c == 0 then Vec2(r.x, r.y)
    else if c == 1 then Vec2(x1, r.y)
    else if c == 2 then Vec2(x1, y1)
    else Vec2(r.x, y1)
  }

  /** The rectangle (x, y, w, h) whose first corner is `c0` and whose opposite corner is `c2`. */
  function RectOf(c0: Vec2, c2: Vec2): Vec4
  {
    Vec4(c0.x, c0.y, c2.x - c0.x, c2.y - c0.y)
  }

  /**
   * The four corners go round an axis-aligned rectangle (each edge keeps
   * one coordinate), and the first and third give the rectangle back.
   */
  lemma CornersFormRect(r: Vec4)
    ensures RectOf(Corner(r, 0), Corner(r, 2)) == r
    ensures Corner(r, 0).y == Corner(r, 1).y && Corner(r, 1).x == Corner(r, 2).x
    ensures Corner(r, 2).y == Corner(r, 3).y && Corner(r, 3).x == Corner(r, 0).x
  {
  }

  /** The position of corner c, in the z = 0 plane. */
  function CornerPos(r: Vec4, c: nat): Vec3
    requires c < 4
  {
    Vec3(Corner(r, c).x, Corner(r, c).y, 0.0)
  }

  /** The four vertices of a quad with this appearance, in corner order. */
  function QuadVertices(coords: Vec4, color: Vec4, texcoords: Vec4, texmask: nat, flags: nat): seq<Vertex>
  {
    seq(4, c requires 0 <= c < 4 => Vertex(CornerPos(coords, c), color, Corner(texcoords, c), texmask, flags))
  }

  /**
   * The vertices of a quad describe it completely: one colour, texture mask
   * and flags word on all four, z = 0, and the position and texture
   * rectangles can be read back from the first and third vertex.
   */
  lemma QuadVerticesDescribeQuad(coords: Vec4, color: Vec4, texcoords: Vec4, texmask: nat, flags: nat)
    ensures var vs := QuadVertices(coords, color, texcoords, texmask, flags);
      |vs| == 4
      && (forall c :: 0 <= c < 4 ==> vs[c].color == color && vs[c].texmask == texmask && vs[c].flags == flags && vs[c].pos.z == 0.0)
      && RectOf(Vec2(vs[0].pos.x, vs[0].pos.y), Vec2(vs[2].pos.x, vs[2].pos.y)) == coords
      && RectOf(vs[0].texcoord, vs[2].texcoord) == texcoords
  {
    CornersFormRect(coords);
    CornersFormRect(texcoords);
  }

  class Quad {
    var vertices: array<Vertex>
    var indices: array<nat>
    var vertexBuffer: seq<Vertex>
    var indexBuffer: seq<nat>
    var modified: bool
    var coords: Vec4
    var color: Vec4
    var texcoords: Vec4
    var texmask: nat
    var flags: nat

    /**
     * Sizes are fixed, the index pattern is in place and uploaded, and
     * whenever `modified` is clear the vertices and the vertex buffer show
     * the current appearance.
     */
    predicate Valid()
      reads this, vertices, indices
    {
      vertices.Length == 4 && indices[..] == QUAD_INDICES && indexBuffer == QUAD_INDICES
      && |vertexBuffer| == 4
      && (!modified ==> vertices[..] == vertexBuffer == QuadVertices(coords, color, texcoords, texmask, flags))
    }

    /** `Quad::make`: fill the index pattern, create both buffers and set the default appearance. */
    constructor ()
      ensures Valid() && fresh(vertices) && fresh(indices)
      ensures coords == DEFAULT_COORDS && color == DEFAULT_COLOR && texcoords == DEFAULT_TEXTURE_COORDS
      ensures texmask == DEFAULT_TEXTURE_MASK && flags == DEFAULT_FLAGS
      ensures modified
    {
      var pattern := new nat[|QUAD_INDICES|](i requires 0 <= i < |QUAD_INDICES| => QUAD_INDICES[i]);
      assert pattern[..] == QUAD_INDICES;
      vertices := new Vertex[4](_ => BLANK_VERTEX);
      indices := pattern;
      indexBuffer := pattern[..];
      vertexBuffer := seq(4, _ => BLANK_VERTEX);
      modified := true;
      coords := Vec4(0.0, 0.0, 0.0, 0.0);
      color := Vec4(0.0, 0.0, 0.0, 0.0);
      texcoords := Vec4(0.0, 0.0, 0.0, 0.0);
      texmask := 0;
      flags := 0;
      new;
      SetCoords(DEFAULT_COORDS);
      SetTextureCoords(DEFAULT_TEXTURE_COORDS);
      SetColor(DEFAULT_COLOR);
      SetTextureMask(DEFAULT_TEXTURE_MASK);
      SetFlags(DEFAULT_FLAGS);
    }

    /** `textureMask()`. */
    function TextureMask(): (m: nat)
      reads this
      ensures m == texmask
    {
      texmask
    }

    /** `flags()`: answers with the texture mask, not the flags word. */
    function Flags(): (f: nat)
      reads this
      ensures f == TextureMask()
      ensures f == flags <==> texmask == flags
    {
      texmask
    }

    /** `setPosition`: moves the quad; its size is kept. */
    method SetPosition(x: real, y: real)
      modifies this`coords, this`modified
      ensures coords == old(coords).(x := x, y := y) && modified
    {
      coords := coords.(x := x, y := y);
      modified := true;
    }

    /** `setSize`: resizes the quad; its position is kept. */
    method SetSize(w: real, h: real)
      modifies this`coords, this`modified
      ensures coords == old(coords).(z := w, w := h) && modified
    {
      coords := coords.(z := w, w := h);
      modified := true;
    }

    /** Both `setCoords` overloads. */
    method SetCoords(r: Vec4)
      modifies this`coords, this`modified
      ensures coords == r && modified
    {
      coords := r;
      modified := true;
    }

    method SetColor(c: Vec4)
      modifies this`color, this`modified
      ensures color == c && modified
    {
      color := c;
      modified := true;
    }

    method SetTextureCoords(t: Vec4)
      modifies this`texcoords, this`modified
      ensures texcoords == t && modified
    {
      texcoords := t;
      modified := true;
    }

    method SetTextureMask(m: nat)
      modifies this`texmask, this`modified
      ensures texmask == m && modified
    {
      texmask := m;
      modified := true;
    }

    method SetFlags(f: nat)
      modifies this`flags, this`modified
      ensures flags == f && modified
    {
      flags := f;
      modified := true;
    }

    /**
     * `update`: when modified, writes the four corner vertices from the
     * appearance, clears the flag and uploads all four; otherwise nothing.
     */
    method Update()
      requires Valid()
      modifies vertices, this`modified, this`vertexBuffer
      ensures Valid() && !modified
      ensures !old(modified) ==> unchanged(vertices) && vertexBuffer == old(vertexBuffer)
      ensures vertexBuffer == vertices[..] == QuadVertices(coords, color, texcoords, texmask, flags)
    {
      if !modified {
        return;
      }
      var x0 := coords.x;
      var y0 := coords.y;
      var x1 := x0 + coords.z;
      var y1 := y0 + coords.w;
      var z := 0.0;
      var u0 := texcoords.x;
      var v0 := texcoords.y;
      var u1 := u0 + texcoords.z;
      var v1 := v0 + texcoords.w;
      vertices[0] := Vertex(Vec3(x0, y0, z), color, Vec2(u0, v0), texmask, flags);
      vertices[1] := Vertex(Vec3(x1, y0, z), color, Vec2(u1, v0), texmask, flags);
      vertices[2] := Vertex(Vec3(x1, y1, z), color, Vec2(u1, v1), texmask, flags);
      vertices[3] := Vertex(Vec3(x0, y1, z), color, Vec2(u0, v1), texmask, flags);
      modified := false;
      vertexBuffer := vertices[..];
    }

    /**
     * `draw`: updates first, so what is drawn is always the current
     * appearance, then draws the six indices.
     */
    method Draw() returns (cmds: seq<DrawCommand>)
      requires Valid()
      modifies vertices, this`modified, this`vertexBuffer
      ensures Valid() && !modified
      ensures vertexBuffer == QuadVertices(coords, color, texcoords, texmask, flags)
      ensures cmds == [BindVertexBuffer, BindIndexBuffer, DrawIndexed(|QUAD_INDICES|)]
    {
      Update();
      cmds := [BindVertexBuffer, BindIndexBuffer, DrawIndexed(indices.Length)];
    }
  }

  /** `Sprite`: a position/size rectangle, colour, texture mask, flags and frame number. */
  class Sprite {
    var coords: Vec4
    var color: Vec4
    var texmask: nat
    var flags: nat
    var frame: int

    /** `Sprite::make`; the rectangle and colour start as zero here, the rest as in the header. */
    constructor ()
      ensures texmask == 0 && flags == 0 && frame == 0
    {
      coords := Vec4(0.0, 0.0, 0.0, 0.0);
      color := Vec4(0.0, 0.0, 0.0, 0.0);
      texmask := 0;
      flags := 0;
      frame := 0;
    }

    method SetCoords(r: Vec4)
      modifies this`coords
      ensures coords == r
    {
      coords := r;
    }

    method SetColor(c: Vec4)
      modifies this`color
      ensures color == c
    {
      color := c;
    }

    method SetTextureMask(m: nat)
      modifies this`texmask
      ensures texmask == m
    {
      texmask := m;
    }

    method SetFlags(f: nat)
      modifies this`flags
      ensures flags == f
    {
      flags := f;
    }

    method SetFrame(f: int)
      modifies this`frame
      ensures frame == f
    {
      frame := f;
    }
  }
}

=== FILE: sprite_batch.dfy ===
/**
 * `VertexQueue` and the two batches built on it, `QuadBatch` and
 * `SpriteBatch`: a fixed number of quad slots sharing one vertex array
 * (four vertices per slot) and one index array (six indices per slot).
 *
 * Slots `0 .. reserved-1` are reserved up front and written by index; the
 * `count` slots after them are pushed one by one.  Pushing, reserving and
 * storing report errors as values where the source raises.  A slot index
 * argument is an `Option`: `None` is the source's `npos` ("the next free
 * slot").  The two batch classes add no state, so their operations are
 * methods of `VertexQueue` here, named after the batch they come from.
 * The vertex buffer is the sequence `vertexBuffer`; index values are
 * 16-bit, so they are taken modulo 2^16 as the source's cast does.
 */
module SpriteBatches {
  import opened Wrappers
  import opened VertexLayout
  import opened Sprites

  datatype QueueError = ReserveAfterPush | Overflow | IndexOutOfBounds

  /** The source's `static_cast<uint16_t>`. */
  function U16(x: nat): nat
  {
    x % 0x1_0000
  }

  /** The six indices of slot q, as the fill loop writes them. */
  function IndexBlock(q: nat): seq<nat>
  {
    [U16(4 * q + 2), U16(4 * q + 1), U16(4 * q), U16(4 * q), U16(4 * q + 3), U16(4 * q + 2)]
  }

  /** Slot q's block is the single-quad pattern shifted to the slot's first vertex. */
  lemma IndexBlockIsShiftedPattern(q: nat)
    ensures |IndexBlock(q)| == |QUAD_INDICES|
    ensures forall k :: 0 <= k < 6 ==> IndexBlock(q)[k] == U16(4 * q + QUAD_INDICES[k])
  {
  }

  /** The index array of a queue with `n` slots: the blocks of slots 0 .. n-1 in order. */
  function QuadIndexSeq(n: nat): seq<nat>
  {
    if n == 0 then [] else QuadIndexSeq(n - 1) + IndexBlock(n - 1)
  }

  /** The six indices at slot q of an index array. */
  function Block(s: seq<nat>, q: nat): seq<nat>
    requires 6 * q + 6 <= |s|
  {
    s[6 * q .. 6 * q + 6]
  }

  lemma {:induction false} QuadIndexSeqLength(n: nat)
    ensures |QuadIndexSeq(n)| == 6 * n
  {
    if n > 0 {
      QuadIndexSeqLength(n - 1);
    }
  }

  /** Appending to an index array keeps the blocks it already has. */
  lemma BlockOfPrefix(p: seq<nat>, b: seq<nat>, q: nat)
    requires 6 * q + 6 <= |p|
    ensures Block(p + b, q) == Block(p, q)
  {
    assert (p + b)[..|p|] == p;
  }

  /** `QuadIndexSeq(n)` has six indices per slot and holds slot q's block at 6q. */
  lemma {:induction false} QuadIndexSeqBlocks(n: nat)
    ensures |QuadIndexSeq(n)| == 6 * n
    ensures forall q :: 0 <= q < n ==> Block(QuadIndexSeq(n), q) == IndexBlock(q)
  {
    QuadIndexSeqLength(n);
    if n > 0 {
      QuadIndexSeqBlocks(n - 1);
      var p := QuadIndexSeq(n - 1);
      var b := IndexBlock(n - 1);
      forall q | 0 <= q < n
        ensures Block(p + b, q) == IndexBlock(q)
      {
        if q < n - 1 {
          BlockOfPrefix(p, b, q);
        } else {
          assert (p + b)[|p|..] == b;
        }
      }
    }
  }

  /**
   * Below 2^16 vertices every index of slot q names one of the slot's own
   * four vertices, and together the two triangles use all four.
   */
  lemma IndexBlockUsesSlot(q: nat)
    requires 4 * q + 3 < 0x1_0000
    ensures forall k :: 0 <= k < 6 ==> 4 * q <= IndexBlock(q)[k] < 4 * q + 4
    ensures (set k | 0 <= k < 6 :: IndexBlock(q)[k]) == {4 * q, 4 * q + 1, 4 * q + 2, 4 * q + 3}
  {
    var b := IndexBlock(q);
    assert b == [4 * q + 2, 4 * q + 1, 4 * q, 4 * q, 4 * q + 3, 4 * q + 2];
    var s := set k | 0 <= k < 6 :: b[k];
    assert b[2] == 4 * q && b[1] == 4 * q + 1 && b[0] == 4 * q + 2 && b[4] == 4 * q + 3;
    assert 4 * q in s && 4 * q + 1 in s && 4 * q + 2 in s && 4 * q + 3 in s;
  }

  /** With 2^14 slots or more the 16-bit indices wrap: slot 16384 draws the vertices of slot 0. */
  lemma IndexBlockWraps()
    ensures IndexBlock(0x4000) == IndexBlock(0) == QUAD_INDICES
  {
  }

  /** Which of a slot's fields a write sets; `None` leaves that field of all four vertices alone. */
  datatype SlotUpdate = SlotUpdate(
    rect: Option<Vec4>,
    color: Option<Vec4>,
    texcoords: Option<Vec4>,
    texmask: Option<nat>,
    flags: Option<nat>)

  const NO_UPDATE := SlotUpdate(None, None, None, None, None)

  /** Every field set, as the full-argument pushes and stores do. */
  function FullUpdate(rect: Vec4, color: Vec4, texcoords: Vec4, texmask: nat, flags: nat): SlotUpdate
  {
    SlotUpdate(Some(rect), Some(color), Some(texcoords), Some(texmask), Some(flags))
  }

  /** `u2` applied after `u1`: each field from `u2` where it sets one, else from `u1`. */
  function Then(u1: SlotUpdate, u2: SlotUpdate): SlotUpdate
  {
    SlotUpdate(
      if u2.rect.Some? then u2.rect else u1.rect,
      if u2.color.Some? then u2.color else u1.color,
      if u2.texcoords.Some? then u2.texcoords else u1.texcoords,
      if u2.texmask.Some? then u2.texmask else u1.texmask,
      if u2.flags.Some? then u2.flags else u1.flags)
  }

  /** Corner c of a slot after the update: rectangle corners for position and texture coordinates. */
  function SlotVertex(v: Vertex, c: nat, u: SlotUpdate): Vertex
    requires c < 4
  {
    Vertex(
      if u.rect.Some? then CornerPos(u.rect.value, c) else v.pos,
      if u.color.Some? then u.color.value else v.color,
      if u.texcoords.Some? then Corner(u.texcoords.value, c) else v.texcoord,
      if u.texmask.Some? then u.texmask.value else v.texmask,
      if u.flags.Some? then u.flags.value else v.flags)
  }

  /** The vertex array after writing slot s: vertices 4s .. 4s+3 are updated and no other. */
  function WriteSlot(vs: seq<Vertex>, s: nat, u: SlotUpdate): (r: seq<Vertex>)
    requires 4 * s + 4 <= |vs|
    ensures |r| == |vs|
    ensures r[..4 * s] == vs[..4 * s] && r[4 * s + 4..] == vs[4 * s + 4..]
    ensures r[4 * s .. 4 * s + 4] == seq(4, c requires 0 <= c < 4 => SlotVertex(vs[4 * s + c], c, u))
  {
    seq(|vs|, k requires 0 <= k < |vs| => if 4 * s <= k < 4 * s + 4 then SlotVertex(vs[k], k - 4 * s, u) else vs[k])
  }

  /** An update that sets nothing changes nothing. */
  lemma WriteNothing(vs: seq<Vertex>, s: nat)
    requires 4 * s + 4 <= |vs|
    ensures WriteSlot(vs, s, NO_UPDATE) == vs
  {
    var r := WriteSlot(vs, s, NO_UPDATE);
    forall k | 0 <= k < |vs|
      ensures r[k] == vs[k]
    {
    }
  }

  /** Two writes to the same slot are one write with the later fields winning. */
  lemma WriteSlotThen(vs: seq<Vertex>, s: nat, u1: SlotUpdate, u2: SlotUpdate)
    requires 4 * s + 4 <= |vs|
    ensures WriteSlot(WriteSlot(vs, s, u1), s, u2) == WriteSlot(vs, s, Then(u1, u2))
  {
    var a := WriteSlot(WriteSlot(vs, s, u1), s, u2);
    var b := WriteSlot(vs, s, Then(u1, u2));
    forall k | 0 <= k < |vs|
      ensures a[k] == b[k]
    {
    }
  }

  /** Writes to different slots do not interfere, so their order does not matter. */
  lemma {:induction false} WritesToDistinctSlotsCommute(vs: seq<Vertex>, s: nat, t: nat, u: SlotUpdate, w: SlotUpdate)
    requires 4 * s + 4 <= |vs| && 4 * t + 4 <= |vs| && s != t
    ensures WriteSlot(WriteSlot(vs, s, u), t, w) == WriteSlot(WriteSlot(vs, t, w), s, u)
  {
    var a := WriteSlot(WriteSlot(vs, s, u), t, w);
    var b := WriteSlot(WriteSlot(vs, t, w), s, u);
    forall k | 0 <= k < |vs|
      ensures a[k] == b[k]
    {
    }
  }

  /** A write that sets every field leaves in the slot exactly the vertices a `Quad` would have. */
  lemma FullWriteIsQuad(vs: seq<Vertex>, s: nat, rect: Vec4, color: Vec4, texcoords: Vec4, texmask: nat, flags: nat)
    requires 4 * s + 4 <= |vs|
    ensures WriteSlot(vs, s, FullUpdate(rect, color, texcoords, texmask, flags))[4 * s .. 4 * s + 4]
         == QuadVertices(rect, color, texcoords, texmask, flags)
  {
  }

  /** `VertexQueue::npos`, the largest `size_t` and the default slot argument. */
  const NPOS: nat := 0xFFFF_FFFF_FFFF_FFFF

  /**
   * Whether a slot argument asks for the next free slot: the omitted
   * argument (`None`) and an explicit `npos` are the same `size_t` value.
   */
  predicate IsPush(index: Option<nat>)
  {
    index.None? || index.value == NPOS
  }

  /** The slot a write goes to: the next free one for a push, else the one named. */
  function SlotOf(index: Option<nat>, used: nat): nat
  {
    if IsPush(index) then used else index.value
  }

  /** Whether a write to `index` is accepted when `used` of `capacity` slots are taken. */
  predicate SlotAvailable(index: Option<nat>, used: nat, capacity: nat)
  {
    if IsPush(index) then used < capacity else index.value < used
  }

  class VertexQueue {
    var capacity: nat
    var reserved: nat
    var count: nat
    var modified: bool
    var vertices: array<Vertex>
    var indices: array<nat>
    var vertexBuffer: seq<Vertex>
    var indexBuffer: seq<nat>

    /** The arrays and buffers have room for every slot, and no more slots are in use than exist. */
    predicate Valid()
      reads this
    {
      0 < capacity && count + reserved <= capacity
      && vertices.Length == 4 * capacity && indices.Length == 6 * capacity
      && |vertexBuffer| == 4 * capacity && |indexBuffer| == 6 * capacity
    }

    /** `make`/`create`: sizes both arrays, fills the index pattern in a loop and uploads it. */
    constructor (c: nat)
      requires c > 0
      ensures Valid() && fresh(vertices) && fresh(indices)
      ensures capacity == c && count == 0 && reserved == 0 && !modified
      ensures indices[..] == indexBuffer == QuadIndexSeq(c)
      ensures forall q :: 0 <= q < c ==> Block(indexBuffer, q) == IndexBlock(q)
    {
      capacity := c;
      reserved := 0;
      count := 0;
      modified := false;
      vertices := new Vertex[4 * c](_ => BLANK_VERTEX);
      indices := new nat[6 * c];
      vertexBuffer := seq(4 * c, _ => BLANK_VERTEX);
      indexBuffer := [];
      new;
      FillIndices();
      indexBuffer := indices[..];
      QuadIndexSeqBlocks(c);
    }

    /** The index fill loop of `create`: the pattern block of every slot, in slot order. */
    method FillIndices()
      requires indices.Length == 6 * capacity
      modifies indices
      ensures indices[..] == QuadIndexSeq(capacity)
    {
      var idx := 0;
      var ofs := 0;
      ghost var q := 0;
      while idx < capacity * 6
        invariant q <= capacity && idx == 6 * q && ofs == 4 * q
        invariant indices[..idx] == QuadIndexSeq(q)
      {
        WriteBlock(idx, ofs);
        assert indices[..idx + 6] == indices[..idx] + indices[idx..idx + 6];
        idx := idx + 6;
        ofs := ofs + 4;
        q := q + 1;
      }
      assert indices[..] == indices[..idx];
    }

    /** One pass of the fill loop: the six indices of the quad whose first vertex is `ofs`, from `idx` on. */
    method WriteBlock(idx: nat, ofs: nat)
      requires idx + 6 <= indices.Length
      modifies indices
      ensures indices[..idx] == old(indices[..idx])
      ensures indices[idx..idx + 6] == [U16(ofs + 2), U16(ofs + 1), U16(ofs + 0), U16(ofs + 0), U16(ofs + 3), U16(ofs + 2)]
    {
      indices[idx] := U16(ofs + 2);
      indices[idx + 1] := U16(ofs + 1);
      indices[idx + 2] := U16(ofs + 0);
      indices[idx + 3] := U16(ofs + 0);
      indices[idx + 4] := U16(ofs + 3);
      indices[idx + 5] := U16(ofs + 2);
    }

    /** Slots in use: the reserved ones and the pushed ones. */
    function Used(): (n: nat)
      reads this
      ensures n == count + reserved
    {
      count + reserved
    }

    /** `begin`: forgets the pushed slots; reserved slots stay. */
    method Begin()
      requires Valid()
      modifies this`count
      ensures Valid() && count == 0
    {
      count := 0;
    }

    /** `clear`: forgets pushed and reserved slots. */
    method Clear()
      requires Valid()
      modifies this`count, this`reserved
      ensures Valid() && count == 0 && reserved == 0
    {
      count := 0;
      reserved := 0;
    }

    /**
     * `reserve(n)`: only before anything is pushed, and only while the
     * reserved slots fit; answers the first of the `n` new slots.  The sum
     * `count_ + reserved_ + n` and the new `reserved_` are `size_t`, so a
     * huge `n` wraps: the check passes and fewer slots stay reserved.
     */
    method Reserve(n: nat) returns (r: Result<nat, QueueError>)
      requires Valid() && n <= NPOS && reserved <= NPOS
      modifies this`reserved
      ensures Valid()
      ensures r == Err(ReserveAfterPush) <==> old(count) > 0
      ensures r == Err(Overflow) <==> old(count) == 0 && (old(reserved) + n) % (NPOS + 1) > capacity
      ensures r.Ok? ==> r.value == old(reserved) && reserved == (old(reserved) + n) % (NPOS + 1)
      ensures r.Ok? && old(reserved) + n <= NPOS ==> reserved == old(reserved) + n
      ensures r.Ok? && old(reserved) + n > NPOS ==> reserved < old(reserved)
      ensures r.Err? ==> reserved == old(reserved)
    {
      if count > 0 {
        return Err(ReserveAfterPush);
      }
      var total := (count + reserved + n) % (NPOS + 1);
      if total > capacity {
        return Err(Overflow);
      }
      var index := reserved;
      reserved := total;
      return Ok(index);
    }

    /**
     * `checkIndex`: for `None`, takes the next free slot and counts it as
     * pushed; for an explicit index, accepts only a slot already in use.
     */
    method CheckIndex(index: Option<nat>) returns (r: Result<nat, QueueError>)
      requires Valid()
      modifies this`count
      ensures Valid()
      ensures r.Ok? <==> SlotAvailable(index, old(Used()), capacity)
      ensures r.Err? ==> count == old(count) && r.error == (if IsPush(index) then Overflow else IndexOutOfBounds)
      ensures r.Ok? ==> r.value == SlotOf(index, old(Used())) && r.value < capacity
      ensures r.Ok? ==> count == old(count) + (if IsPush(index) then 1 else 0)
    {
      if IsPush(index) {
        if count + reserved >= capacity {
          return Err(Overflow);
        }
        var slot := count + reserved;
        count := count + 1;
        return Ok(slot);
      } else {
        if index.value >= count + reserved {
          return Err(IndexOutOfBounds);
        }
        return Ok(index.value);
      }
    }

    /** `setCoords`: the four corner positions of the slot's rectangle, at z = 0. */
    method SetCoords(index: nat, rect: Vec4)
      requires Valid() && index < capacity
      modifies vertices
      ensures vertices[..] == WriteSlot(old(vertices[..]), index, NO_UPDATE.(rect := Some(rect)))
    {
      var x0 := rect.x;
      var y0 := rect.y;
      var x1 := x0 + rect.z;
      var y1 := y0 + rect.w;
      var z := 0.0;
      var ofs := index * 4;
      vertices[ofs] := vertices[ofs].(pos := Vec3(x0, y0, z));
      vertices[ofs + 1] := vertices[ofs + 1].(pos := Vec3(x1, y0, z));
      vertices[ofs + 2] := vertices[ofs + 2].(pos := Vec3(x1, y1, z));
      vertices[ofs + 3] := vertices[ofs + 3].(pos := Vec3(x0, y1, z));
    }

    /** `setColor`: one colour on all four vertices of the slot. */
    method SetColor(index: nat, color: Vec4)
      requires Valid() && index < capacity
      modifies vertices
      ensures vertices[..] == WriteSlot(old(vertices[..]), index, NO_UPDATE.(color := Some(color)))
    {
      var ofs := index * 4;
      vertices[ofs] := vertices[ofs].(color := color);
      vertices[ofs + 1] := vertices[ofs + 1].(color := color);
      vertices[ofs + 2] := vertices[ofs + 2].(color := color);
      vertices[ofs + 3] := vertices[ofs + 3].(color := color);
    }

    /** `setTextureCoords`: the corners of the texture rectangle, in the same order as the positions. */
    method SetTextureCoords(index: nat, texcoords: Vec4)
      requires Valid() && index < capacity
      modifies vertices
      ensures vertices[..] == WriteSlot(old(vertices[..]), index, NO_UPDATE.(texcoords := Some(texcoords)))
    {
      var u0 := texcoords.x;
      var v0 := texcoords.y;
      var u1 := u0 + texcoords.z;
      var v1 := v0 + texcoords.w;
      var ofs := index * 4;
      vertices[ofs] := vertices[ofs].(texcoord := Vec2(u0, v0));
      vertices[ofs + 1] := vertices[ofs + 1].(texcoord := Vec2(u1, v0));
      vertices[ofs + 2] := vertices[ofs + 2].(texcoord := Vec2(u1, v1));
      vertices[ofs + 3] := vertices[ofs + 3].(texcoord := Vec2(u0, v1));
    }

    /** `setTextureMask`. */
    method SetTextureMask(index: nat, texmask: nat)
      requires Valid() && index < capacity
      modifies vertices
      ensures vertices[..] == WriteSlot(old(vertices[..]), index, NO_UPDATE.(texmask := Some(texmask)))
    {
      var ofs := index * 4;
      vertices[ofs] := vertices[ofs].(texmask := texmask);
      vertices[ofs + 1] := vertices[ofs + 1].(texmask := texmask);
      vertices[ofs + 2] := vertices[ofs + 2].(texmask := texmask);
      vertices[ofs + 3] := vertices[ofs + 3].(texmask := texmask);
    }

    /** `setFlags`. */
    method SetFlags(index: nat, flags: nat)
      requires Valid() && index < capacity
      modifies vertices
      ensures vertices[..] == WriteSlot(old(vertices[..]), index, NO_UPDATE.(flags := Some(flags)))
    {
      var ofs := index * 4;
      vertices[ofs] := vertices[ofs].(flags := flags);
      vertices[ofs + 1] := vertices[ofs + 1].(flags := flags);
      vertices[ofs + 2] := vertices[ofs + 2].(flags := flags);
      vertices[ofs + 3] := vertices[ofs + 3].(flags := flags);
    }

    /**
     * The five slot writers in the source's order, each only for a field
     * that is given; together one write of `u` to slot `slot`.
     */
    method WriteFields(slot: nat, u: SlotUpdate)
      requires Valid() && slot < capacity
      modifies vertices
      ensures vertices[..] == WriteSlot(old(vertices[..]), slot, u)
    {
      ghost var v0 := vertices[..];
      ghost var done := NO_UPDATE;
      WriteNothing(v0, slot);
      if u.rect.Some? {
        SetCoords(slot, u.rect.value);
        WriteSlotThen(v0, slot, done, NO_UPDATE.(rect := u.rect));
        done := done.(rect := u.rect);
      }
      if u.color.Some? {
        SetColor(slot, u.color.value);
        WriteSlotThen(v0, slot, done, NO_UPDATE.(color := u.color));
        done := done.(color := u.color);
      }
      if u.texcoords.Some? {
        SetTextureCoords(slot, u.texcoords.value);
        WriteSlotThen(v0, slot, done, NO_UPDATE.(texcoords := u.texcoords));
        done := done.(texcoords := u.texcoords);
      }
      if u.texmask.Some? {
        SetTextureMask(slot, u.texmask.value);
        WriteSlotThen(v0, slot, done, NO_UPDATE.(texmask := u.texmask));
        done := done.(texmask := u.texmask);
      }
      if u.flags.Some? {
        SetFlags(slot, u.flags.value);
        WriteSlotThen(v0, slot, done, NO_UPDATE.(flags := u.flags));
        done := done.(flags := u.flags);
      }
      assert done == u;
    }

    /**
     * `VertexQueue::set`: checks the slot, writes the given fields of its
     * four vertices and marks the queue modified.  On an error nothing
     * changes.
     */
    method Set(u: SlotUpdate, index: Option<nat>) returns (err: Option<QueueError>)
      requires Valid()
      modifies this`count, this`modified, vertices
      ensures Valid() && reserved == old(reserved)
      ensures err.None? <==> SlotAvailable(index, old(Used()), capacity)
      ensures err.Some? ==> err.value == (if IsPush(index) then Overflow else IndexOutOfBounds)
      ensures err.Some? ==> count == old(count) && modified == old(modified) && vertices[..] == old(vertices[..])
      ensures err.None? ==> count == old(count) + (if IsPush(index) then 1 else 0) && modified
      ensures err.None? ==> vertices[..] == WriteSlot(old(vertices[..]), SlotOf(index, old(Used())), u)
    {
      var r := CheckIndex(index);
      if r.Err? {
        return Some(r.error);
      }
      WriteFields(r.value, u);
      modified := true;
      return None;
    }

    /**
     * The float-argument `QuadBatch::push`: its own overflow check, then
     * every field of the next free slot.
     */
    method PushQuad(rect: Vec4, color: Vec4, texcoords: Vec4, texmask: nat, flags: nat) returns (err: Option<QueueError>)
      requires Valid()
      modifies this`count, this`modified, vertices
      ensures Valid() && reserved == old(reserved)
      ensures err.None? <==> old(Used()) < capacity
      ensures err.Some? ==> err.value == Overflow && count == old(count) && modified == old(modified) && vertices[..] == old(vertices[..])
      ensures err.None? ==> count == old(count) + 1 && modified
      ensures err.None? ==> vertices[..] == WriteSlot(old(vertices[..]), old(Used()), FullUpdate(rect, color, texcoords, texmask, flags))
    {
      if count + reserved >= capacity {
        return Some(Overflow);
      }
      var index := count + reserved;
      count := count + 1;
      WriteFields(index, FullUpdate(rect, color, texcoords, texmask, flags));
      modified := true;
      return None;
    }

    /** The float-argument `QuadBatch::store`: every field of a slot already in use. */
    method StoreQuad(index: nat, rect: Vec4, color: Vec4, texcoords: Vec4, texmask: nat, flags: nat) returns (err: Option<QueueError>)
      requires Valid()
      modifies this`modified, vertices
      ensures Valid()
      ensures err.None? <==> index < Used()
      ensures err.Some? ==> err.value == IndexOutOfBounds && modified == old(modified) && vertices[..] == old(vertices[..])
      ensures err.None? ==> modified
      ensures err.None? ==> vertices[..] == WriteSlot(old(vertices[..]), index, FullUpdate(rect, color, texcoords, texmask, flags))
    {
      if index >= count + reserved {
        return Some(IndexOutOfBounds);
      }
      WriteFields(index, FullUpdate(rect, color, texcoords, texmask, flags));
      modified := true;
      return None;
    }

    /** `QuadBatch::push(rect)`: the rectangle with the default colour, texture rectangle, mask and flags. */
    method PushRect(rect: Vec4) returns (err: Option<QueueError>)
      requires Valid()
      modifies this`count, this`modified, vertices
      ensures Valid() && reserved == old(reserved)
      ensures err.None? <==> old(Used()) < capacity
      ensures err.Some? ==> err.value == Overflow && count == old(count) && modified == old(modified) && vertices[..] == old(vertices[..])
      ensures err.None? ==> count == old(count) + 1 && modified
      ensures err.None? ==> vertices[..] == WriteSlot(old(vertices[..]), old(Used()),
        FullUpdate(rect, DEFAULT_COLOR, DEFAULT_TEXTURE_COORDS, DEFAULT_TEXTURE_MASK, DEFAULT_FLAGS))
    {
      err := Set(FullUpdate(rect, DEFAULT_COLOR, DEFAULT_TEXTURE_COORDS, DEFAULT_TEXTURE_MASK, DEFAULT_FLAGS), None);
    }

    /**
     * `QuadBatch::store(index, rect)`: as `PushRect`, into a slot already in
     * use -- except that `store(npos, rect)` goes through `set` and pushes.
     */
    method StoreRect(index: nat, rect: Vec4) returns (err: Option<QueueError>)
      requires Valid()
      modifies this`count, this`modified, vertices
      ensures Valid() && reserved == old(reserved)
      ensures index != NPOS ==> count == old(count) && (err.None? <==> index < old(Used()))
      ensures index == NPOS ==> (err.None? <==> old(Used()) < capacity) && count == old(count) + (if err.None? then 1 else 0)
      ensures err.Some? ==> err.value == (if index == NPOS then Overflow else IndexOutOfBounds)
      ensures err.Some? ==> modified == old(modified) && vertices[..] == old(vertices[..])
      ensures err.None? ==> modified && vertices[..] == WriteSlot(old(vertices[..]), SlotOf(Some(index), old(Used())),
        FullUpdate(rect, DEFAULT_COLOR, DEFAULT_TEXTURE_COORDS, DEFAULT_TEXTURE_MASK, DEFAULT_FLAGS))
    {
      err := Set(FullUpdate(rect, DEFAULT_COLOR, DEFAULT_TEXTURE_COORDS, DEFAULT_TEXTURE_MASK, DEFAULT_FLAGS), Some(index));
    }

    /** The vector-argument `QuadBatch::push` and `store`: every field, given. */
    method SetQuad(rect: Vec4, color: Vec4, texcoords: Vec4, texmask: nat, flags: nat, index: Option<nat>) returns (err: Option<QueueError>)
      requires Valid()
      modifies this`count, this`modified, vertices
      ensures Valid() && reserved == old(reserved)
      ensures err.None? <==> SlotAvailable(index, old(Used()), capacity)
      ensures err.Some? ==> err.value == (if IsPush(index) then Overflow else IndexOutOfBounds)
      ensures err.Some? ==> count == old(count) && modified == old(modified) && vertices[..] == old(vertices[..])
      ensures err.None? ==> count == old(count) + (if IsPush(index) then 1 else 0) && modified
      ensures err.None? ==> vertices[..] == WriteSlot(old(vertices[..]), SlotOf(index, old(Used())),
        FullUpdate(rect, color, texcoords, texmask, flags))
    {
      err := Set(FullUpdate(rect, color, texcoords, texmask, flags), index);
    }

    /**
     * `SpriteBatch::set` (and so `push` and `store`): the sprite's
     * rectangle, colour, texture mask and flags, over the whole texture.
     */
    method SetSprite(sprite: Sprite, index: Option<nat>) returns (err: Option<QueueError>)
      requires Valid()
      modifies this`count, this`modified, vertices
      ensures Valid() && reserved == old(reserved)
      ensures err.None? <==> SlotAvailable(index, old(Used()), capacity)
      ensures err.Some? ==> err.value == (if IsPush(index) then Overflow else IndexOutOfBounds)
      ensures err.Some? ==> count == old(count) && modified == old(modified) && vertices[..] == old(vertices[..])
      ensures err.None? ==> count == old(count) + (if IsPush(index) then 1 else 0) && modified
      ensures err.None? ==> vertices[..] == WriteSlot(old(vertices[..]), SlotOf(index, old(Used())),
        FullUpdate(sprite.coords, sprite.color, DEFAULT_TEXTURE_COORDS, sprite.texmask, sprite.flags))
    {
      var texcoords := Vec4(0.0, 0.0, 1.0, 1.0);
      err := Set(FullUpdate(sprite.coords, sprite.color, texcoords, sprite.texmask, sprite.flags), index);
    }

    /**
     * `update`: when modified and not empty, copies the vertices of every
     * slot in use to the front of the vertex buffer and clears the flag.
     * An empty queue keeps the flag.
     */
    method Update()
      requires Valid()
      modifies this`modified, this`vertexBuffer
      ensures Valid()
      ensures old(modified) && Used() > 0 ==>
        !modified && vertexBuffer == vertices[..4 * Used()] + old(vertexBuffer)[4 * Used()..]
      ensures !(old(modified) && Used() > 0) ==> modified == old(modified) && vertexBuffer == old(vertexBuffer)
    {
      var num := count + reserved;
      if !modified || 0 == num {
        return;
      }
      modified := false;
      var numVertices := num * 4;
      vertexBuffer := vertices[..numVertices] + vertexBuffer[numVertices..];
    }

    /** `draw`: updates, then draws six indices per slot in use, or nothing when empty. */
    method Draw() returns (cmds: seq<DrawCommand>)
      requires Valid()
      modifies this`modified, this`vertexBuffer
      ensures Valid()
      ensures old(modified) && Used() > 0 ==>
        !modified && vertexBuffer[..4 * Used()] == vertices[..4 * Used()]
      ensures !(old(modified) && Used() > 0) ==> modified == old(modified) && vertexBuffer == old(vertexBuffer)
      ensures cmds == if Used() == 0 then [] else [BindVertexBuffer, BindIndexBuffer, DrawIndexed(6 * Used())]
    {
      Update();
      var num := count + reserved;
      if 0 == num {
        return [];
      }
      var numIndices := num * 6;
      cmds := [BindVertexBuffer, BindIndexBuffer, DrawIndexed(numIndices)];
    }
  }

  /** `SpriteBatch::push(sprite)`. */
  method PushSprite(batch: VertexQueue, sprite: Sprite) returns (err: Option<QueueError>)
    requires batch.Valid()
    modifies batch`count, batch`modified, batch.vertices
    ensures batch.Valid() && batch.reserved == old(batch.reserved)
    ensures err.None? <==> old(batch.Used()) < batch.capacity
    ensures err.Some? ==> err.value == Overflow
    ensures err.Some? ==> batch.count == old(batch.count) && batch.modified == old(batch.modified) && batch.vertices[..] == old(batch.vertices[..])
    ensures err.None? ==> batch.modified
    ensures err.None? ==> batch.count == old(batch.count) + 1 && batch.vertices[..] == WriteSlot(old(batch.vertices[..]), old(batch.Used()),
      FullUpdate(sprite.coords, sprite.color, DEFAULT_TEXTURE_COORDS, sprite.texmask, sprite.flags))
  {
    err := batch.SetSprite(sprite, None);
  }
}

=== FILE: types.dfy ===
/**
 * The small Vulkan object wrappers of types.cpp whose behaviour is decided
 * by the kit: fence waiting, the memory-type search, descriptor pools,
 * shader typing, images (creation, borrowing, layout transitions, pixel
 * upload) and image views.
 */
module Types {
  import opened Wrappers
  import opened Vk
  import opened Primitives
  import Reference
  import Utilities

  const INT64_MIN: int := -0x8000_0000_0000_0000
  const INT64_MAX: int := 0x7FFF_FFFF_FFFF_FFFF

  // ---------------------------------------------------------------- Fence

  /**
   * The `uint64_t` timeout `Fence::wait` hands to the driver for a signed
   * `nanosecond_t`: a negative timeout means "wait forever" (UINT64_MAX).
   */
  function WaitTimeout(timeout: int): (t: int)
    requires INT64_MIN <= timeout <= INT64_MAX
    ensures 0 <= t <= UINT64_MAX
    ensures timeout >= 0 ==> t == timeout
    ensures timeout < 0 ==> t == UINT64_MAX
  {
    if timeout >= 0 then timeout else UINT64_MAX
  }

  datatype FenceOp = WaitOp(timeout: int) | ResetOp

  /** `Fence`: the handle, whether the GPU has signalled it, and the driver calls made on it. */
  class Fence {
    var handle: Handle
    var signaled: bool
    var ops: seq<FenceOp>

    /** A default-constructed `Fence`: a null handle. */
    constructor Empty()
      ensures handle == NULL_HANDLE && !signaled && ops == []
    {
      handle := NULL_HANDLE;
      signaled := false;
      ops := [];
    }

    /** `Fence::make(signaled)`: a fence created with `VK_FENCE_CREATE_SIGNALED_BIT` exactly when asked. */
    constructor Make(h: Handle, signaled: bool)
      ensures handle == h && this.signaled == signaled && ops == []
    {
      handle := h;
      this.signaled := signaled;
      ops := [];
    }

    /**
     * `Fence::wait`: on a signalled fence the driver returns SUCCESS at once;
     * otherwise it blocks until the GPU signals it and returns `gpuResult`.
     */
    method Wait(timeout: int, gpuResult: VkResult) returns (r: VkResult)
      requires INT64_MIN <= timeout <= INT64_MAX
      modifies this`signaled, this`ops
      ensures ops == old(ops) + [WaitOp(WaitTimeout(timeout))]
      ensures r == (if old(signaled) then Success else gpuResult)
      ensures signaled == (old(signaled) || r == Success)
    {
      ops := ops + [WaitOp(WaitTimeout(timeout))];
      r := if signaled then Success else gpuResult;
      signaled := signaled || r == Success;
    }

    /** `Fence::reset`: a successful reset unsignals the fence. */
    method Reset(driverResult: VkResult) returns (r: VkResult)
      modifies this`signaled, this`ops
      ensures ops == old(ops) + [ResetOp]
      ensures r == driverResult
      ensures signaled == (old(signaled) && r != Success)
    {
      ops := ops + [ResetOp];
      r := driverResult;
      signaled := signaled && r != Success;
    }

    /** `Fence::destroy`: frees the handle; the caller records which handle that destroyed. */
    method Destroy()
      modifies this`handle
      ensures handle == NULL_HANDLE
    {
      handle := NULL_HANDLE;
    }

    /** `Fence::waitAndReset`: resets only after a successful wait and reports the first failure. */
    method WaitAndReset(timeout: int, gpuResult: VkResult, resetResult: VkResult) returns (r: VkResult)
      requires INT64_MIN <= timeout <= INT64_MAX
      modifies this`signaled, this`ops
      ensures var waited := if old(signaled) then Success else gpuResult;
        && r == (if waited != Success then waited else resetResult)
        && ops == old(ops) + [WaitOp(WaitTimeout(timeout))] + (if waited == Success then [ResetOp] else [])
        && signaled == (waited == Success && resetResult != Success)
    {
      r := Wait(timeout, gpuResult);
      if r != Success {
        return;
      }
      r := Reset(resetResult);
    }
  }

  // -------------------------------------------------------- Device memory

  // DeviceMemory::Flags, the kit's own memory-kind bits.
  const DEVICE_LOCAL_MEMORY: bv32 := 0x1
  const HOST_COHERENT_MEMORY: bv32 := 0x2
  const HOST_VISIBLE_MEMORY: bv32 := 0x4

  const MAX_MEMORY_TYPES: nat := 32

  /** The Vulkan property bits `DeviceMemory::make` asks for: one per kit flag, nothing else. */
  function PropertyFlags(flags: bv32): (pf: bv32)
    ensures (pf & MEMORY_PROPERTY_DEVICE_LOCAL_BIT != 0) <==> (flags & DEVICE_LOCAL_MEMORY != 0)
    ensures (pf & MEMORY_PROPERTY_HOST_COHERENT_BIT != 0) <==> (flags & HOST_COHERENT_MEMORY != 0)
    ensures (pf & MEMORY_PROPERTY_HOST_VISIBLE_BIT != 0) <==> (flags & HOST_VISIBLE_MEMORY != 0)
    ensures pf & !(MEMORY_PROPERTY_DEVICE_LOCAL_BIT | MEMORY_PROPERTY_HOST_COHERENT_BIT | MEMORY_PROPERTY_HOST_VISIBLE_BIT) == 0
  {
    (if flags & DEVICE_LOCAL_MEMORY != 0 then MEMORY_PROPERTY_DEVICE_LOCAL_BIT else 0)
    | (if flags & HOST_COHERENT_MEMORY != 0 then MEMORY_PROPERTY_HOST_COHERENT_BIT else 0)
    | (if flags & HOST_VISIBLE_MEMORY != 0 then MEMORY_PROPERTY_HOST_VISIBLE_BIT else 0)
  }

  /** Memory type `i` is allowed by `typeFilter` and offers every requested property bit. */
  predicate MemoryTypeFits(memoryTypes: seq<bv32>, i: nat, typeFilter: bv32, pf: bv32)
    requires i < |memoryTypes| <= MAX_MEMORY_TYPES
  {
    typeFilter & ((1 as bv32) << i) != 0 && memoryTypes[i] & pf == pf
  }

  /** The memory-type loop of `DeviceMemory::make`: the lowest fitting type index, if any. */
  method FindMemoryType(memoryTypes: seq<bv32>, typeFilter: bv32, pf: bv32) returns (r: Option<nat>)
    requires |memoryTypes| <= MAX_MEMORY_TYPES
    ensures r.Some? ==> r.value < |memoryTypes| && MemoryTypeFits(memoryTypes, r.value, typeFilter, pf)
    ensures r.Some? ==> forall j :: 0 <= j < r.value ==> !MemoryTypeFits(memoryTypes, j, typeFilter, pf)
    ensures r.None? <==> forall j :: 0 <= j < |memoryTypes| ==> !MemoryTypeFits(memoryTypes, j, typeFilter, pf)
  {
    var i := 0;
    while i < |memoryTypes|
      invariant 0 <= i <= |memoryTypes|
      invariant forall j :: 0 <= j < i ==> !MemoryTypeFits(memoryTypes, j, typeFilter, pf)
    {
      if typeFilter & ((1 as bv32) << i) != 0 && memoryTypes[i] & pf == pf {
        assert MemoryTypeFits(memoryTypes, i, typeFilter, pf);
        return Some(i);
      }
      i := i + 1;
    }
    return None;
  }

  /** `DeviceMemory`: what `make` records besides the allocation itself. */
  datatype DeviceMemory = DeviceMemory(handle: Handle, size: nat, typeFilter: bv32, flags: bv32, typeIndex: nat)

  const NO_MEMORY := DeviceMemory(NULL_HANDLE, 0, 0, 0, 0)

  datatype MemoryError = NoSuitableMemoryType | AllocationFailed(result: VkResult)

  /**
   * `DeviceMemory::make(size, typeFilter, flags)`: picks the lowest fitting
   * memory type for the mapped property bits (raising when none fits),
   * allocates `size` bytes from it (`allocResult`, `h` from the driver) and
   * records size, type filter and kit flags.
   */
  method MakeDeviceMemory(size: nat, typeFilter: bv32, flags: bv32, memoryTypes: seq<bv32>, allocResult: VkResult, h: Handle)
    returns (r: Result<DeviceMemory, MemoryError>)
    requires |memoryTypes| <= MAX_MEMORY_TYPES
    ensures r.Err? && r.error == NoSuitableMemoryType <==>
      forall j :: 0 <= j < |memoryTypes| ==> !MemoryTypeFits(memoryTypes, j, typeFilter, PropertyFlags(flags))
    ensures r.Ok? <==> allocResult == Success && exists j :: 0 <= j < |memoryTypes| && MemoryTypeFits(memoryTypes, j, typeFilter, PropertyFlags(flags))
    ensures r.Ok? ==>
      && r.value.handle == h && r.value.size == size && r.value.typeFilter == typeFilter && r.value.flags == flags
      && r.value.typeIndex < |memoryTypes|
      && MemoryTypeFits(memoryTypes, r.value.typeIndex, typeFilter, PropertyFlags(flags))
      && forall j :: 0 <= j < r.value.typeIndex ==> !MemoryTypeFits(memoryTypes, j, typeFilter, PropertyFlags(flags))
  {
    var pf := PropertyFlags(flags);
    var found := FindMemoryType(memoryTypes, typeFilter, pf);
    if found.None? {
      return Err(NoSuitableMemoryType);
    }
    if allocResult != Success {
      return Err(AllocationFailed(allocResult));
    }
    return Ok(DeviceMemory(h, size, typeFilter, flags, found.value));
  }

  // ------------------------------------------------------ Descriptor pool

  /** The two kinds of descriptor the kit uses: a uniform buffer, or a texture's view and sampler. */
  datatype DescriptorType = UniformBufferDescriptor | CombinedImageSampler

  /**
   * `DescriptorPool`: `size` as recorded, and the create info derived from
   * it: the set limit and the one pool size (descriptor type and count).
   * A default-constructed pool was never created; its create info is zero.
   */
  datatype DescriptorPool = DescriptorPool(handle: Handle, size: nat, maxSets: nat, descriptorType: DescriptorType, descriptorCount: nat)

  /**
   * `DescriptorPool::make(n)`: one pool of uniform-buffer descriptors whose
   * set and descriptor limits are both n cast to `uint32_t`; n is recorded.
   * Whatever the caller needs, the pool's only descriptor type is the
   * uniform buffer.
   */
  function MakeDescriptorPool(n: nat, h: Handle): (p: DescriptorPool)
    ensures p.size == n && p.handle == h
    ensures p.descriptorType == UniformBufferDescriptor
    ensures p.maxSets == p.descriptorCount && IsUint32(p.maxSets)
    ensures n <= UINT32_MAX ==> p.maxSets == n
  {
    DescriptorPool(h, n, n % (UINT32_MAX + 1), UniformBufferDescriptor, n % (UINT32_MAX + 1))
  }

  // --------------------------------------------------------------- Shader

  datatype ShaderType = UnknownShader | VertexShaderType | FragmentShaderType

  /** The resource type a shader type is stored under (the inverse of `ShaderTypeOf`). */
  function ResourceTypeOf(t: ShaderType): ResourceType
  {
    match t
    case UnknownShader => ResourceType.Unknown
    case VertexShaderType => ResourceType.VertexShader
    case FragmentShaderType => ResourceType.FragmentShader
  }

  /**
   * The type check of `Shader::make(ResourceDescriptor)`: vertex and fragment
   * shader resources keep their kind; every other resource type raises
   * "unsupported resource type for shader".
   */
  function ShaderTypeOf(t: ResourceType): (r: Result<ShaderType, string>)
    ensures r.Ok? <==> t == ResourceType.VertexShader || t == ResourceType.FragmentShader
    ensures r.Ok? ==> r.value != UnknownShader && ResourceTypeOf(r.value) == t
  {
    match t
    case VertexShader => Ok(VertexShaderType)
    case FragmentShader => Ok(FragmentShaderType)
    case _ => Err("unsupported resource type for shader")
  }

  /** Every known shader type survives the trip through its resource type. */
  lemma ShaderTypeRoundTrip(t: ShaderType)
    requires t != UnknownShader
    ensures ShaderTypeOf(ResourceTypeOf(t)) == Ok(t)
  {
  }

  datatype Shader = Shader(handle: Handle, shaderType: ShaderType, code: seq<Byte>)

  datatype ShaderError = UnsupportedResourceType | ShaderCreationFailed(result: VkResult)

  /** `Shader::make(ResourceDescriptor)`: types the shader, then creates the module from the descriptor's bytes. */
  function MakeShader(d: ResourceDescriptor, createResult: VkResult, h: Handle): (r: Result<Shader, ShaderError>)
    ensures r.Ok? <==> ShaderTypeOf(d.resourceType).Ok? && createResult == Success
    ensures r.Ok? ==> r.value.handle == h && r.value.code == d.data && ResourceTypeOf(r.value.shaderType) == d.resourceType
    ensures ShaderTypeOf(d.resourceType).Err? ==> r == Err(UnsupportedResourceType)
  {
    match ShaderTypeOf(d.resourceType)
    case Err(_) => Err(UnsupportedResourceType)
    case Ok(t) => if createResult == Success then Ok(Shader(h, t, d.data)) else Err(ShaderCreationFailed(createResult))
  }

  // ---------------------------------------------------------------- Image

  datatype ImageType = UnknownImage | PixelBuffer | DepthBuffer

  /** Image usage: depth buffers are depth/stencil attachments only; everything else is a sampled transfer target. */
  function ImageUsage(t: ImageType): (u: bv32)
    ensures (u & IMAGE_USAGE_DEPTH_STENCIL_ATTACHMENT_BIT != 0) <==> t == DepthBuffer
    ensures (u & IMAGE_USAGE_SAMPLED_BIT != 0) <==> t != DepthBuffer
    ensures (u & IMAGE_USAGE_TRANSFER_DST_BIT != 0) <==> t != DepthBuffer
  {
    if t == DepthBuffer then IMAGE_USAGE_DEPTH_STENCIL_ATTACHMENT_BIT
    else IMAGE_USAGE_TRANSFER_DST_BIT | IMAGE_USAGE_SAMPLED_BIT
  }

  /** One `vkCmdPipelineBarrier` image barrier. */
  datatype Barrier = Barrier(
    oldLayout: ImageLayout, newLayout: ImageLayout,
    srcAccess: bv32, dstAccess: bv32,
    srcStage: bv32, dstStage: bv32,
    aspect: bv32)

  /**
   * The barrier `transitionImageLayout` records: only UNDEFINED to
   * TRANSFER_DST_OPTIMAL (nothing to wait for, then transfer writes) and
   * TRANSFER_DST_OPTIMAL to SHADER_READ_ONLY_OPTIMAL (transfer writes made
   * visible to fragment-shader reads); anything else is invalid_argument.
   */
  function TransitionBarrier(oldLayout: ImageLayout, newLayout: ImageLayout): (r: Result<Barrier, string>)
    ensures r.Ok? <==>
      (oldLayout == LayoutUndefined && newLayout == TransferDstOptimal)
      || (oldLayout == TransferDstOptimal && newLayout == ShaderReadOnlyOptimal)
    ensures r.Ok? ==> r.value.oldLayout == oldLayout && r.value.newLayout == newLayout && r.value.aspect == IMAGE_ASPECT_COLOR_BIT
    ensures r.Ok? && oldLayout == LayoutUndefined ==>
      r.value.srcAccess == 0 && r.value.srcStage == PIPELINE_STAGE_TOP_OF_PIPE_BIT
      && r.value.dstAccess == ACCESS_TRANSFER_WRITE_BIT && r.value.dstStage == PIPELINE_STAGE_TRANSFER_BIT
    ensures r.Ok? && oldLayout == TransferDstOptimal ==>
      r.value.srcAccess == ACCESS_TRANSFER_WRITE_BIT && r.value.srcStage == PIPELINE_STAGE_TRANSFER_BIT
      && r.value.dstAccess == ACCESS_SHADER_READ_BIT && r.value.dstStage == PIPELINE_STAGE_FRAGMENT_SHADER_BIT
  {
    if oldLayout == LayoutUndefined && newLayout == TransferDstOptimal then
      Ok(Barrier(oldLayout, newLayout, 0, ACCESS_TRANSFER_WRITE_BIT,
                 PIPELINE_STAGE_TOP_OF_PIPE_BIT, PIPELINE_STAGE_TRANSFER_BIT, IMAGE_ASPECT_COLOR_BIT))
    else if oldLayout == TransferDstOptimal && newLayout == ShaderReadOnlyOptimal then
      Ok(Barrier(oldLayout, newLayout, ACCESS_TRANSFER_WRITE_BIT, ACCESS_SHADER_READ_BIT,
                 PIPELINE_STAGE_TRANSFER_BIT, PIPELINE_STAGE_FRAGMENT_SHADER_BIT, IMAGE_ASPECT_COLOR_BIT))
    else
      Err("unsupported layout transition!")
  }

  /** The one-shot commands an image records against its handle. */
  datatype ImageCommand = PipelineBarrier(barrier: Barrier) | CopyBufferToImage(width: int, height: int)

  /** The number of values a 64-bit `size_t` holds. */
  const SIZE_T_RANGE: int := 0x1_0000_0000_0000_0000

  /**
   * The byte size `createImage` records and stages: `width * height * 4`
   * evaluated in 32-bit `int`, then cast to `size_t`, so an overflowing
   * product wraps and a negative one becomes a size near 2^64.
   */
  function ImageByteSize(width: int, height: int): (n: nat)
    ensures n < SIZE_T_RANGE
    ensures 0 <= width * height * 4 <= Utilities.INT32_MAX ==> n == width * height * 4
    ensures (n - width * height * 4) % 0x1_0000_0000 == 0
  {
    var w := Utilities.WrapInt32(width * height * 4);
    if w < 0 then w + SIZE_T_RANGE else w
  }

  /** A 32768 x 32768 image overflows the 32-bit product: it is recorded and staged as 0 bytes. */
  lemma ImageByteSizeWraps()
    ensures ImageByteSize(0x8000, 0x8000) == 0
  {
    assert 0x8000 * 0x8000 * 4 == 0x1_0000_0000;
  }

  /** `Image`: its handle (owned, or borrowed when attached), geometry and the commands recorded on it. */
  class Image {
    var handle: Reference.Reference
    var imageType: ImageType
    var width: int
    var height: int
    var channels: nat
    var size: int
    var format: Format
    var usage: bv32
    var layout: ImageLayout
    var texels: seq<Byte>
    var commands: seq<ImageCommand>

    /** `Image::attach(image, type, format)`: borrows a driver-owned image; no geometry is known. */
    constructor Attach(h: Handle, imageType: ImageType, format: Format)
      ensures fresh(handle)
      ensures handle.handle == h && handle.attached && handle.destroyed == [] && handle.pointerHandle
      ensures width == 0 && height == 0 && channels == 0 && size == 0
      ensures this.imageType == imageType && this.format == format
      ensures layout == LayoutUndefined && commands == [] && texels == []
    {
      var ref := new Reference.Reference.Empty(true);
      ref.Attach(h);
      handle := ref;
      width, height, channels, size := 0, 0, 0, 0;
      this.format := format;
      this.imageType := imageType;
      usage := 0;
      layout := LayoutUndefined;
      texels := [];
      commands := [];
    }

    /** `Image::make(type, w, h, format)`: an owned image created through `createImage`. */
    constructor Make(imageType: ImageType, width: int, height: int, format: Format, h: Handle)
      ensures fresh(handle)
      ensures handle.handle == h && !handle.attached && handle.destroyed == [] && handle.pointerHandle
      ensures this.imageType == imageType && this.width == width && this.height == height && this.format == format
      ensures channels == 4 && size == ImageByteSize(width, height)
      ensures usage == ImageUsage(imageType)
      ensures layout == LayoutUndefined && commands == [] && texels == []
    {
      handle := new Reference.Reference.Empty(true);
      this.width := width;
      this.height := height;
      channels := 0;
      size := 0;
      this.format := format;
      this.imageType := imageType;
      usage := 0;
      layout := LayoutUndefined;
      texels := [];
      commands := [];
      new;
      CreateImage(imageType, width, height, format, h);
    }

    /**
     * `Image::createImage(type, w, h, format)`: records the geometry with 4
     * channels and `ImageByteSize(w, h)` bytes, picks the usage for the type and stores the
     * new handle straight into the slot (no `free` of the old one).
     */
    method CreateImage(imageType: ImageType, width: int, height: int, format: Format, h: Handle)
      modifies this`imageType, this`width, this`height, this`format, this`channels, this`size, this`usage, handle`handle
      ensures this.imageType == imageType && this.width == width && this.height == height && this.format == format
      ensures channels == 4 && size == ImageByteSize(width, height)
      ensures usage == ImageUsage(imageType)
      ensures handle.handle == h && handle.attached == old(handle.attached) && handle.destroyed == old(handle.destroyed)
    {
      this.imageType := imageType;
      this.width := width;
      this.height := height;
      this.format := format;
      channels := 4;
      size := ImageByteSize(width, height);
      usage := ImageUsage(imageType);
      handle.handle := h;
    }

    /** `Image::transitionImageLayout`: records the barrier, or raises for an unsupported pair. */
    method TransitionImageLayout(oldLayout: ImageLayout, newLayout: ImageLayout) returns (ok: bool)
      modifies this`commands, this`layout
      ensures ok <==> TransitionBarrier(oldLayout, newLayout).Ok?
      ensures ok ==> commands == old(commands) + [PipelineBarrier(TransitionBarrier(oldLayout, newLayout).value)] && layout == newLayout
      ensures !ok ==> commands == old(commands) && layout == old(layout)
    {
      var b := TransitionBarrier(oldLayout, newLayout);
      if b.Err? {
        return false;
      }
      commands := commands + [PipelineBarrier(b.value)];
      layout := newLayout;
      return true;
    }

    /**
     * `Image::createImage(pixels, w, h, ...)`: stages `ImageByteSize(w, h)`
     * bytes of `pixels`, creates a pixel-buffer image, then transitions it
     * to TRANSFER_DST, copies the staging buffer into it (with w and h cast
     * to `uint32_t`) and transitions it to SHADER_READ_ONLY, in that order.
     */
    method UploadPixels(pixels: seq<Byte>, width: int, height: int, format: Format, h: Handle)
      requires |pixels| >= ImageByteSize(width, height)
      requires layout == LayoutUndefined
      modifies this, handle`handle
      ensures imageType == PixelBuffer && this.width == width && this.height == height && this.format == format
      ensures size == ImageByteSize(width, height) && channels == 4 && handle.handle == h
      ensures texels == pixels[..ImageByteSize(width, height)]
      ensures commands == old(commands) + [
        PipelineBarrier(TransitionBarrier(LayoutUndefined, TransferDstOptimal).value),
        CopyBufferToImage(width % (UINT32_MAX + 1), height % (UINT32_MAX + 1)),
        PipelineBarrier(TransitionBarrier(TransferDstOptimal, ShaderReadOnlyOptimal).value)]
      ensures layout == ShaderReadOnlyOptimal
      ensures handle == old(handle)
    {
      var staging := pixels[..ImageByteSize(width, height)];
      CreateImage(PixelBuffer, width, height, format, h);
      var ok := TransitionImageLayout(LayoutUndefined, TransferDstOptimal);
      commands := commands + [CopyBufferToImage(width % (UINT32_MAX + 1), height % (UINT32_MAX + 1))];
      texels := staging;
      ok := TransitionImageLayout(TransferDstOptimal, ShaderReadOnlyOptimal);
    }
  }

  // ----------------------------------------------------------- Image view

  /** `ImageView`: the view handle plus the image, type and format it was made for. */
  datatype ImageView = ImageView(handle: Handle, image: Handle, imageType: ImageType, format: Format, aspect: bv32)

  /** The aspect a view of an image of this type covers: depth for depth buffers, colour otherwise. */
  function ViewAspect(t: ImageType): (a: bv32)
    ensures a == IMAGE_ASPECT_DEPTH_BIT || a == IMAGE_ASPECT_COLOR_BIT
    ensures a == IMAGE_ASPECT_DEPTH_BIT <==> t == DepthBuffer
  {
    if t == DepthBuffer then IMAGE_ASPECT_DEPTH_BIT else IMAGE_ASPECT_COLOR_BIT
  }

  /** `ImageView::make(image)`: a 2D view of the whole image, recording its handle, type and format. */
  function MakeImageView(image: Image, h: Handle): (v: ImageView)
    reads image, image.handle
    ensures v.handle == h && v.image == image.handle.handle
    ensures v.imageType == image.imageType && v.format == image.format
    ensures v.aspect == IMAGE_ASPECT_DEPTH_BIT <==> image.imageType == DepthBuffer
  {
    ImageView(h, image.handle.handle, image.imageType, image.format, ViewAspect(image.imageType))
  }
}

=== FILE: utilities.dfy ===
/**
 * `Format::str` (error-message building) and the integer `Random::getInt`.
 * The value of `rand()` and `RAND_MAX` are parameters.
 */
module Utilities {

  const ERR_SEPARATOR: string := ", err="

  predicate IsDigit(c: char) { '0' <= c <= '9' }

  predicate AllDigits(s: string) { forall i :: 0 <= i < |s| ==> IsDigit(s[i]) }

  /** Text `operator<<` can produce for an int: digits, optionally after one '-'. */
  predicate IsIntText(s: string)
  {
    |s| >= 1 && (if s[0] == '-' then AllDigits(s[1..]) else AllDigits(s))
  }

  function DigitChar(d: nat): (c: char)
    requires d < 10
    ensures IsDigit(c)
  {
    ['0', '1', '2', '3', '4', '5', '6', '7', '8', '9'][d]
  }

  function DigitValue(c: char): nat
    requires IsDigit(c)
  {
    (c as int - '0' as int) as nat
  }

  /** Decimal digits of `n`, as `operator<<` writes a non-negative int. */
  function NatToString(n: nat): (s: string)
    ensures |s| >= 1 && AllDigits(s) && s[0] != '-'
    decreases n
  {
    if n < 10 then [DigitChar(n)] else NatToString(n / 10) + [DigitChar(n % 10)]
  }

  /** Decimal text of an int: a leading '-' for negative values. */
  function IntToString(i: int): (s: string)
    ensures IsIntText(s)
  {
    if i < 0 then
      var s := "-" + NatToString(-i);
      assert s[1..] == NatToString(-i);
      s
    else NatToString(i)
  }

  /** Reads a run of decimal digits back (the reference decoder for the lemmas). */
  function ParseDigits(s: string): nat
    requires AllDigits(s)
  {
    if |s| == 0 then 0 else 10 * ParseDigits(s[..|s| - 1]) + DigitValue(s[|s| - 1])
  }

  function ParseInt(s: string): int
    requires IsIntText(s)
  {
    if s[0] == '-' then -(ParseDigits(s[1..]) as int) else ParseDigits(s)
  }

  lemma {:induction false} NatToStringRoundTrip(n: nat)
    ensures ParseDigits(NatToString(n)) == n
    decreases n
  {
    var s := NatToString(n);
    if n >= 10 {
      NatToStringRoundTrip(n / 10);
      assert s[..|s| - 1] == NatToString(n / 10);
      assert s[|s| - 1] == DigitChar(n % 10);
    }
  }

  /** `IntToString` is decoded back to the same int. */
  lemma IntToStringRoundTrip(i: int)
    ensures ParseInt(IntToString(i)) == i
  {
    if i < 0 {
      NatToStringRoundTrip(-i);
      assert IntToString(i)[1..] == NatToString(-i);
    } else {
      NatToStringRoundTrip(i);
    }
  }

  /** `Format::str(text, int)`: the text, ", err=", then the code in decimal; braces in `text` are not substituted. */
  function FormatCode(text: string, errorCode: int): (r: string)
    ensures |r| > |text| + |ERR_SEPARATOR|
    ensures r[..|text|] == text
    ensures r[|text|..|text| + |ERR_SEPARATOR|] == ERR_SEPARATOR
    ensures IsIntText(r[|text| + |ERR_SEPARATOR|..])
    ensures ParseInt(r[|text| + |ERR_SEPARATOR|..]) == errorCode
  {
    IntToStringRoundTrip(errorCode);
    var r := text + ERR_SEPARATOR + IntToString(errorCode);
    assert r[|text| + |ERR_SEPARATOR|..] == IntToString(errorCode);
    r
  }

  /** `Format::str(text, const char*)`: the text, ", err=", then the message verbatim. */
  function FormatMessage(text: string, err: string): (r: string)
    ensures |r| == |text| + |ERR_SEPARATOR| + |err|
    ensures r[..|text|] == text
    ensures r[|text|..|text| + |ERR_SEPARATOR|] == ERR_SEPARATOR
    ensures r[|text| + |ERR_SEPARATOR|..] == err
  {
    text + ERR_SEPARATOR + err
  }

  lemma MulMono(a: int, b: int, c: int)
    requires a <= b && c >= 0
    ensures a * c <= b * c
  {
    assert b * c - a * c == (b - a) * c;
  }

  lemma DivBelow(p: int, d: int, k: int)
    requires d > 0 && p < k * d
    ensures p / d < k
  {
    var q := p / d;
    assert p == q * d + p % d;
    if q >= k {
      MulMono(k, q, d);
      assert false;
    }
  }

  lemma DivAtLeast(p: int, d: int, k: int)
    requires d > 0 && p >= k * d
    ensures p / d >= k
  {
    var q := p / d;
    assert p == q * d + p % d;
    assert (q + 1) * d == q * d + d;
    if q < k {
      MulMono(q + 1, k, d);
      assert false;
    }
  }

  /** floor(r * range / randMax) stays in [0, range] and reaches range only at r == randMax. */
  lemma ScaledBounds(r: int, range: int, randMax: int)
    requires 0 <= r <= randMax && randMax > 0 && range > 0
    ensures 0 <= (r * range) / randMax <= range
    ensures (r * range) / randMax == range <==> r == randMax
  {
    var p := r * range;
    MulMono(0, r, range);
    DivAtLeast(p, randMax, 0);
    MulMono(r, randMax, range);
    assert (range + 1) * randMax == randMax * range + randMax;
    DivBelow(p, randMax, range + 1);
    if r == randMax {
      assert p == range * randMax;
      DivAtLeast(p, randMax, range);
    } else {
      MulMono(r, randMax - 1, range);
      assert (randMax - 1) * range == range * randMax - range;
      DivBelow(p, randMax, range);
    }
  }

  const INT32_MIN: int := -0x8000_0000
  const INT32_MAX: int := 0x7fff_ffff

  predicate IsInt32(x: int) { INT32_MIN <= x <= INT32_MAX }

  /** A 32-bit two's-complement `int` keeps only the low 32 bits of a result. */
  function WrapInt32(x: int): (w: int)
    ensures IsInt32(w)
    ensures IsInt32(x) ==> w == x
    ensures (w - x) % 0x1_0000_0000 == 0
  {
    (x - INT32_MIN) % 0x1_0000_0000 + INT32_MIN
  }

  /** Integer division as C++ does it: the quotient is truncated toward zero. */
  function TruncDiv(a: int, b: int): (q: int)
    requires b != 0
  {
    var m := (if a < 0 then -a else a) / (if b < 0 then -b else b);
    if (a < 0) != (b < 0) then -m else m
  }

  /**
   * `Random::getInt(min, max)` exactly as written: `rangeMax - rangeMin` is
   * an `int`, so a span wider than `INT32_MAX` wraps to a negative range;
   * the product and quotient are 64-bit (they cannot overflow) and the
   * final sum is an `int` again.
   */
  function GetIntAsWritten(rangeMin: int, rangeMax: int, r: int, randMax: int): (v: int)
    requires IsInt32(rangeMin) && IsInt32(rangeMax)
    requires 0 < randMax <= INT32_MAX && 0 <= r <= randMax
    ensures IsInt32(v)
    ensures rangeMax - rangeMin <= INT32_MAX ==> v == GetInt(rangeMin, rangeMax, r, randMax)
  {
    if rangeMax <= rangeMin then rangeMin
    else
      var range := WrapInt32(rangeMax - rangeMin);
      WrapInt32(rangeMin + TruncDiv(r * range, randMax))
  }

  /**
   * A span wider than `INT32_MAX` breaks the promise of `getInt`: with
   * RAND_MAX = 2^31 - 1, `getInt(-2, INT32_MAX)` answers a number below -2
   * when `rand()` returns 2^30 - 1.
   */
  lemma GetIntAsWrittenLeavesRange()
    ensures GetIntAsWritten(-2, INT32_MAX, 0x3fff_ffff, INT32_MAX) < -2
  {
    var range := WrapInt32(INT32_MAX + 2);
    assert range == -INT32_MAX;
    assert TruncDiv(0x3fff_ffff * range, INT32_MAX) == -0x3fff_ffff;
  }

  /**
   * `Random::getInt(min, max)` for a `rand()` value `r` in [0, randMax]:
   * min when the range is empty, otherwise min plus the 64-bit quotient
   * r*(max-min)/RAND_MAX (non-negative, so C++'s truncating division agrees).
   * The span max - min is taken exactly, as a 64-bit subtraction would; the
   * 32-bit form the source computes is `GetIntAsWritten`.
   */
  function GetInt(rangeMin: int, rangeMax: int, r: int, randMax: int): (v: int)
    requires randMax > 0 && 0 <= r <= randMax
    ensures rangeMax <= rangeMin ==> v == rangeMin
    ensures rangeMax > rangeMin ==> rangeMin <= v <= rangeMax
    ensures rangeMax > rangeMin ==> (v == rangeMax <==> r == randMax)
  {
    if rangeMax <= rangeMin then rangeMin
    else
      var range := rangeMax - rangeMin;
      ScaledBounds(r, range, randMax);
      rangeMin + (r * range) / randMax
  }
}

=== FILE: vertex.dfy ===
/**
 * The vertex format shared by `Quad` and the sprite batches, and the input
 * binding/attribute table the pipeline is built with.  Coordinates and
 * colours are reals: no claim about float rounding is made.
 */
module VertexLayout {
  import opened Vk

  datatype Vec2 = Vec2(x: real, y: real)
  datatype Vec3 = Vec3(x: real, y: real, z: real)
  datatype Vec4 = Vec4(x: real, y: real, z: real, w: real)

  /** `Vertex`; `Vertex::set` and `Vertex::make` assign all five members, which is this constructor. */
  datatype Vertex = Vertex(pos: Vec3, color: Vec4, texcoord: Vec2, texmask: nat, flags: nat)

  const FLOAT_SIZE: nat := 4
  const UINT32_SIZE: nat := 4
  const NUM_ATTRIBUTES: nat := 5

  /** Byte sizes of `pos_`, `color_`, `texcoord_`, `texmask_`, `flags_`, in declaration order. */
  const MEMBER_SIZES: seq<nat> := [3 * FLOAT_SIZE, 4 * FLOAT_SIZE, 2 * FLOAT_SIZE, UINT32_SIZE, UINT32_SIZE]

  /** The Vulkan format each member is read with. */
  const MEMBER_FORMATS: seq<Format> := [R32G32B32_SFLOAT, R32G32B32A32_SFLOAT, R32G32_SFLOAT, R32_UINT, R32_UINT]

  /** `offsetof(Vertex, member k)`: every member is 4-byte aligned and 4-byte sized, so there is no padding. */
  function MemberOffset(k: nat): nat
    requires k <= NUM_ATTRIBUTES
  {
    if k == 0 then 0 else MemberOffset(k - 1) + MEMBER_SIZES[k - 1]
  }

  lemma OffsetValues()
    ensures MemberOffset(0) == 0 && MemberOffset(1) == 12 && MemberOffset(2) == 28
    ensures MemberOffset(3) == 36 && MemberOffset(4) == 40 && MemberOffset(5) == 44
  {
  }

  /** Bytes one attribute of this format occupies. */
  function FormatSize(f: Format): nat
  {
    match f
    case R32G32B32_SFLOAT => 3 * FLOAT_SIZE
    case R32G32B32A32_SFLOAT => 4 * FLOAT_SIZE
    case R32G32_SFLOAT => 2 * FLOAT_SIZE
    case R32_UINT => UINT32_SIZE
    case _ => 0
  }

  datatype InputRate = PerVertex | PerInstance
  datatype BindingDescription = BindingDescription(binding: nat, stride: nat, inputRate: InputRate)
  datatype AttributeDescription = AttributeDescription(location: nat, binding: nat, format: Format, offset: nat)

  /** `Vertex::getBindingDescription`: binding 0, one `sizeof(Vertex)` stride per vertex. */
  function GetBindingDescription(): (b: BindingDescription)
    ensures b.binding == 0 && b.inputRate == PerVertex
    ensures b.stride == 44
    ensures b.stride == MemberOffset(NUM_ATTRIBUTES)
  {
    OffsetValues();
    BindingDescription(0, MemberOffset(NUM_ATTRIBUTES), PerVertex)
  }

  /**
   * `Vertex::getAttributeDescriptions`: attribute i is member i, at location
   * i of binding 0.  The attributes do not overlap, come in increasing
   * offset order and all lie inside one stride.
   */
  function GetAttributeDescriptions(): (r: seq<AttributeDescription>)
    ensures |r| == NUM_ATTRIBUTES
    ensures forall i :: 0 <= i < |r| ==> r[i].location == i && r[i].binding == 0 && r[i].format == MEMBER_FORMATS[i]
    ensures forall i :: 0 <= i < |r| ==> FormatSize(r[i].format) == MEMBER_SIZES[i]
    ensures forall i, j :: 0 <= i < j < |r| ==> r[i].offset + FormatSize(r[i].format) <= r[j].offset
    ensures forall i :: 0 <= i < |r| ==> r[i].offset + FormatSize(r[i].format) <= GetBindingDescription().stride
    ensures [r[0].offset, r[1].offset, r[2].offset, r[3].offset, r[4].offset] == [0, 12, 28, 36, 40]
  {
    OffsetValues();
    seq(NUM_ATTRIBUTES, i requires 0 <= i < NUM_ATTRIBUTES => AttributeDescription(i, 0, MEMBER_FORMATS[i], MemberOffset(i)))
  }
}

=== FILE: vk.dfy ===
/**
 * The slice of the Vulkan vocabulary the game kit decides on: result codes,
 * the formats it names, and the flag bits it tests or sets.  Handles are
 * opaque ids; 0 plays the part of VK_NULL_HANDLE / nullptr.
 */
module Vk {
  type Handle = nat
  const NULL_HANDLE: Handle := 0

  const UINT32_MAX: int := 0xFFFF_FFFF
  const UINT64_MAX: int := 0xFFFF_FFFF_FFFF_FFFF

  predicate IsUint32(x: int) { 0 <= x <= UINT32_MAX }

  /** A VkResult as far as the kit distinguishes them. */
  datatype VkResult = Success | Suboptimal | ErrorOutOfDate | Timeout | NotReady | OtherError(code: int)

  datatype Format =
    | Undefined
    | B8G8R8A8_SRGB
    | R8G8B8A8_SRGB
    | D32_SFLOAT
    | D32_SFLOAT_S8_UINT
    | D24_UNORM_S8_UINT
    | R32G32B32_SFLOAT
    | R32G32B32A32_SFLOAT
    | R32G32_SFLOAT
    | R32_UINT
    | OtherFormat(code: int)

  datatype ColorSpace = SRGB_NONLINEAR | OtherColorSpace(code: int)

  datatype PresentMode = Immediate | Mailbox | Fifo | FifoRelaxed | OtherPresentMode(code: int)

  datatype ImageLayout = LayoutUndefined | TransferDstOptimal | ShaderReadOnlyOptimal | ColorAttachmentOptimal | PresentSrc | OtherLayout(code: int)

  // VkQueueFlagBits
  const QUEUE_GRAPHICS_BIT: bv32 := 0x1

  // VkMemoryPropertyFlagBits
  const MEMORY_PROPERTY_DEVICE_LOCAL_BIT: bv32 := 0x1
  const MEMORY_PROPERTY_HOST_VISIBLE_BIT: bv32 := 0x2
  const MEMORY_PROPERTY_HOST_COHERENT_BIT: bv32 := 0x4

  // VkFormatFeatureFlagBits
  const FORMAT_FEATURE_DEPTH_STENCIL_ATTACHMENT_BIT: bv32 := 0x200

  // VkImageUsageFlagBits
  const IMAGE_USAGE_TRANSFER_DST_BIT: bv32 := 0x2
  const IMAGE_USAGE_SAMPLED_BIT: bv32 := 0x4
  const IMAGE_USAGE_DEPTH_STENCIL_ATTACHMENT_BIT: bv32 := 0x20

  // VkImageAspectFlagBits
  const IMAGE_ASPECT_COLOR_BIT: bv32 := 0x1
  const IMAGE_ASPECT_DEPTH_BIT: bv32 := 0x2

  // VkAccessFlagBits
  const ACCESS_SHADER_READ_BIT: bv32 := 0x20
  const ACCESS_TRANSFER_WRITE_BIT: bv32 := 0x1000

  // VkPipelineStageFlagBits
  const PIPELINE_STAGE_TOP_OF_PIPE_BIT: bv32 := 0x1
  const PIPELINE_STAGE_FRAGMENT_SHADER_BIT: bv32 := 0x80
  const PIPELINE_STAGE_TRANSFER_BIT: bv32 := 0x1000

  // VkShaderStageFlagBits
  const SHADER_STAGE_VERTEX_BIT: bv32 := 0x1
  const SHADER_STAGE_FRAGMENT_BIT: bv32 := 0x10
  const SHADER_STAGE_ALL_GRAPHICS: bv32 := 0x1F
}

=== FILE: wrappers.dfy ===
/** Option and Result, used wherever the game kit returns "nothing" or throws. */
module Wrappers {
  datatype Option<+T> = None | Some(value: T)

  /** `Err` stands for a C++ exception (or a Python error) raised by the operation. */
  datatype Result<+T, +E> = Ok(value: T) | Err(error: E)
}
